=== FILE: README.md ===
# home_script rule engine — a Dafny model

`home_script` lets a Home Assistant user write automations as Python code.
A script author builds **conditions** (predicates over keyword arguments that
compose with `&`, `|` and `~`), **actions** (bound function calls that are
joined with `//`) and **events**: state events about one entity, or bus events
of one type, each with an optional filter condition. These are arranged in a
nested **schema**: event → conditions → actions. The schema is normalised
into a flat table from filtered event to actions, and then registered with a
**state-event manager**. On every state change the manager cancels the
running tasks of each matching **script** and starts the matching actions.
A small **state machine** derives such a table from declared states: their
activation events, affect events and dependencies.

The model is written as pure functions over immutable datatypes:

| file | module | what it covers |
|---|---|---|
| `wrappers.dfy` | `Wrappers` | `Option`, `Result`, `Outcome` |
| `values.dfy` | `Values` | runtime values, objects with truthiness, the error kinds the engine raises |
| `tables.dfy` | `Tables` | insertion-ordered dicts of lists (`setdefault(k, []).extend(...)`) and grouping |
| `utils.dfy` | `Utils` | `function_or_method_and_params`, `format_schema` |
| `condition.dfy` | `Conditions` | `Condition`, `ConditionAnd`, `ConditionOr`, `FuncCondition`, `ConditionValue`, the decorator |
| `action.dfy` | `Actions` | `Function`, `Action`, `action()`, `ActionDescriptor` |
| `events.dfy` | `Events` | what state and bus events share: filter validation and `>>` |
| `state_event.dfy` | `StateEvents` | `state_event`, `old(...)`, `new(...)`, `state_event_condition` |
| `bus_event.dfy` | `BusEvents` | `bus_event`, `bus_event_condition` |
| `schema.dfy` | `Schema` | `normalize_action_schema`, `_apply_conditions`, `normalize_schema` |
| `script.dfy` | `Scripts` | `Script` (tasks, cancellation, stop) and `ScriptManager` |
| `state_event_manager.dfy` | `Dispatch` | registration by entity id and the state-changed listener |
| `state_machine.dfy` | `StateMachine` | `State`, `StateManager`, `ScriptBuilder`, `build_script` |
| `home_script.dfy` | `HomeScript` | `init`/`unload`, `get_logger`, `add_event_script`, a state change end to end |

Conventions:
- Every Python exception the core raises is a `Failure` with an `Error` value. The keyword check of `Condition.__call__` (`condition.py:35-36`) becomes `ArgumentMismatch`. Every other `assert` becomes `AssertionFailed(tag)`, where the tag is the fixed text of its message. Parts an f-string fills in are dropped (`state_machine.py:82`, `__init__.py:116`), and the bare `assert` of `action.py:172` has the empty tag.
- User predicates and user functions are opaque to the model. A condition's predicate is an `Oracle` parameter: `(id, instance, kwargs) -> bool`. An action's call is recorded as a `Call` (the resolved positional and keyword values) in an `Execution` trace.
- Tasks are abstract ids. "Ask to cancel" and "task finished" are explicit steps.
- Python dicts are insertion-ordered lists of key/list pairs (`Table`). Sets of states are iterated in registration order.

## Model

| member | source | states |
|---|---|---|
| Tables.Extend | custom_components/home_script/home_script/schema.py:66 | `setdefault` adds the key at the end only when it is new; existing keys keep their order |
| Tables.GetExtend | custom_components/home_script/home_script/schema.py:66 | `setdefault(k, []).extend(vs)` appends `vs` to exactly `k`'s list and leaves every other key's list as it was |
| Tables.GroupSelects | custom_components/home_script/home_script/state_event_manager.py:49-53 | grouping pairs by key gives each key once, in order of first appearance, with its values in their original order |
| Utils.DropVariadic | custom_components/home_script/home_script/utils.py:12 | the reported parameters are exactly the signature's names other than `args`/`kwargs` |
| Utils.DropVariadicAppend | custom_components/home_script/home_script/utils.py:12 | dropping `args`/`kwargs` keeps the relative order of the remaining parameters |
| Utils.FunctionOrMethodAndParams | custom_components/home_script/home_script/utils.py:10-16 | "is a method" holds iff the first reported parameter is `self`; putting `self` back in front gives the full reported list |
| Utils.FormatSchemaBreaks | custom_components/home_script/home_script/utils.py:19-33 | for single-line keys and scalars, the output has exactly two line breaks per container plus one per separator between neighbours |
| Utils.JoinBreaks | custom_components/home_script/home_script/utils.py:27 | joining with `", \n"` adds exactly one break between neighbouring parts |
| Utils.DictLinesBreaks | custom_components/home_script/home_script/utils.py:26 | a rendered dict entry carries only the line breaks of its rendered value |
| Utils.ListLinesBreaks | custom_components/home_script/home_script/utils.py:30 | a rendered list item carries only the line breaks of its rendered value |
| Conditions.EvalAllFirstNonTrue | custom_components/home_script/home_script/condition.py:90-97 | the first child of an AND that is not true decides the result; later children are never evaluated |
| Conditions.EvalAnyFirstNonFalse | custom_components/home_script/home_script/condition.py:118-125 | the first child of an OR that is not false decides the result; later children are never evaluated |
| Conditions.EvalAllTrueIff | custom_components/home_script/home_script/condition.py:90-97 | an AND is true iff every child is true |
| Conditions.EvalAnyTrueIff | custom_components/home_script/home_script/condition.py:118-125 | an OR is true iff some child is true and every child before it is false |
| Conditions.Invert | custom_components/home_script/home_script/condition.py:42-43 | `~c` keeps the argument set and flips the inversion flag |
| Conditions.InvertProperties | custom_components/home_script/home_script/condition.py:35-43 | `~~c == c`; `~c != c`; `~c` evaluates to the negation of `c`, and raises whatever `c` raises |
| Conditions.ValidateChildren | custom_components/home_script/home_script/condition.py:72-77 | a node's children pass iff there are at least two and each accepts any keywords or exactly the node's set |
| Conditions.MakeAll | custom_components/home_script/home_script/condition.py:80-82 | building an AND succeeds iff its validator passes |
| Conditions.MakeAny | custom_components/home_script/home_script/condition.py:108-110 | building an OR succeeds iff its validator passes |
| Conditions.NoneNodeHasNoneChildren | custom_components/home_script/home_script/condition.py:65-66 | in a valid node that accepts any keywords, every child accepts any keywords too |
| Conditions.ConjShape | custom_components/home_script/home_script/condition.py:99-105 | `a & b` of valid conditions fails iff their fixed argument sets differ; otherwise it is a valid, uninverted AND with the joined argument set, ending in `b` |
| Conditions.DisjShape | custom_components/home_script/home_script/condition.py:127-133 | the same shape law for `a \| b` |
| Conditions.EvalAllAppend | custom_components/home_script/home_script/condition.py:102 | appending a child to an AND is short-circuit conjunction with that child |
| Conditions.EvalAnyAppend | custom_components/home_script/home_script/condition.py:130 | appending a child to an OR is short-circuit disjunction with that child |
| Conditions.ConjEval | custom_components/home_script/home_script/condition.py:51-53 | a built `a & b` evaluates `a`, and evaluates `b` only when `a` is true; flattening into an existing AND does not change the value |
| Conditions.DisjEval | custom_components/home_script/home_script/condition.py:55-57 | a built `a \| b` evaluates `a`, and evaluates `b` only when `a` is false |
| Conditions.ArgumentsChecked | custom_components/home_script/home_script/condition.py:35-37 | keywords other than a fixed argument set fail the call; a leaf that accepts anything ignores its keywords (called with none) |
| Conditions.Choose | custom_components/home_script/home_script/condition.py:192-193 | `c[t, f](**kw)` is `t` when `c` holds, `f` when it does not, and fails with `c`'s error |
| Conditions.Decorate | custom_components/home_script/home_script/condition.py:213-226 | the decorator accepts a function iff its parameters (without `self`) are exactly the declared set, or none for `None`, and otherwise raises `ValueError`; a method becomes a descriptor and a plain function an uninverted atom with that argument set |
| Conditions.Eval | custom_components/home_script/home_script/condition.py:35-40 | a call with keywords other than the fixed argument set fails; an atom calls its predicate (with no keywords when it accepts anything) and negates the answer when inverted |
| Conditions.Conj | custom_components/home_script/home_script/condition.py:99-105 | `a & b` fails when the fixed argument sets clash; otherwise it is an uninverted AND over the joined set whose last child is `b`, after the children of `a` when `a` is an uninverted AND and after `a` itself otherwise |
| Conditions.Disj | custom_components/home_script/home_script/condition.py:127-133 | the same law for `a \| b` and OR |
| Conditions.ConjAllEval | custom_components/home_script/home_script/condition.py:90-105 | a chain `c0 & c1 & … & cn` built left to right evaluates as the short-circuit AND of all of them, in order |
| Utils.FormatSchema | custom_components/home_script/home_script/utils.py:19-33 | a scalar is shown as its text; a dict opens with `{` and a line break and closes on its own line at the caller's indentation; a list likewise with brackets |
| Utils.FormatSchemaLayout | custom_components/home_script/home_script/utils.py:23-32 | a dict renders as `{`, a line break, its entries in order joined by `", \n"`, a line break, then `}` after `ind` spaces. Entry `i` is `ind + 2` spaces, its key, `: ` and its value rendered at `ind + 2`. A list is the same with brackets and without keys |
| Utils.DictLinesAt | custom_components/home_script/home_script/utils.py:24-26 | line `i` of a dict is its `i`-th entry, indented by `ind + 2`, as `key: value` |
| Utils.ListLinesAt | custom_components/home_script/home_script/utils.py:29-30 | line `i` of a list is its `i`-th item, indented by `ind + 2` |
| Utils.JoinSnoc | custom_components/home_script/home_script/utils.py:27 | `", \n".join` keeps the parts in order: one more part at the end adds the separator and that part |
| Actions.ValueOf | custom_components/home_script/home_script/action.py:29-30 | a plain value passes through; a `ConditionValue` gives its true case when its condition, called with no keywords, holds, its false case when it does not, and the condition's error when it raises, so one that needs arguments fails |
| Actions.ValuesOf | custom_components/home_script/home_script/action.py:71 | positional values resolve iff each one does, and each position gets its own resolved value |
| Actions.NamedValuesOf | custom_components/home_script/home_script/action.py:76 | keyword values resolve iff each one does, and each name gets its own resolved value |
| Actions.ResolveUnbound | custom_components/home_script/home_script/action.py:68-76 | resolution succeeds exactly when the positionals fit, every parameter they do not cover has a keyword and every value used resolves; the call then has the resolved positionals and only the remaining parameters' keywords; too many positionals or a missing keyword fail as incompatible |
| Actions.ResolveAsWritten | custom_components/home_script/home_script/action.py:77-78 | the code as written: the instance is prepended only when it is truthy |
| Actions.Resolve | custom_components/home_script/home_script/action.py:68-79 | corrected resolution: succeeds exactly when the unbound resolution does, and any bound instance becomes the first positional argument |
| Actions.FalsyInstanceIsDropped | custom_components/home_script/home_script/action.py:77-78 | a method bound to a falsy object is called without `self` as written, and with it once corrected |
| Actions.ResolvePlain | custom_components/home_script/home_script/action.py:69-76 | with plain values only, resolution succeeds iff the positionals fit and every remaining parameter has a keyword |
| Actions.WithArguments | custom_components/home_script/home_script/action.py:109-115 | calling an action appends positionals and merges keywords with the new ones winning; no arguments gives the same action |
| Actions.BindTwice | custom_components/home_script/home_script/action.py:109-115 | binding twice equals binding once with concatenated positionals and merged keywords |
| Actions.Check | custom_components/home_script/home_script/action.py:121-123 | `check` passes iff every function's arguments resolve; a failure is the first failing function's error |
| Actions.CheckFrom | custom_components/home_script/home_script/action.py:122-123 | the same from a given function on |
| Actions.Trace | custom_components/home_script/home_script/action.py:125-128 | functions are called in order, each with its resolved arguments, stopping at the first that does not resolve, with that error |
| Actions.TraceAsWritten | custom_components/home_script/home_script/action.py:125-128 | the same run with the resolution as written: calls in order, stopping at the first function whose arguments do not resolve |
| Actions.TraceAgreesWithoutFalsyInstances | custom_components/home_script/home_script/action.py:77-78 | when no function is bound to a falsy object, the run as written and the corrected run make the same calls and end the same way |
| Actions.TraceFrom | custom_components/home_script/home_script/action.py:127-128 | for any list of functions and any way of resolving them: the calls made are the resolutions of a prefix, in order, and the run stops exactly at the first function that does not resolve, with its error |
| Actions.CheckPredictsTrace | custom_components/home_script/home_script/action.py:121-128 | a run completes without an argument error iff `check` passes |
| Actions.Run | custom_components/home_script/home_script/action.py:125-128 | `run` refuses exactly the async actions and otherwise makes the traced calls |
| Actions.AsyncRun | custom_components/home_script/home_script/action.py:130-135 | `async_run` makes the same calls as `run` and completes iff `check` passes |
| Actions.Sequence | custom_components/home_script/home_script/action.py:137-143 | `a // b` succeeds iff `b` has no positionals and the two share no keyword; the result runs `a`'s functions then `b`'s with `a`'s arguments |
| Actions.SequenceProperties | custom_components/home_script/home_script/action.py:117-123 | a sequence is async iff either part is, and checks iff every function of both parts resolves against the left arguments |
| Actions.ResolveDependsOnArguments | custom_components/home_script/home_script/action.py:68-79 | resolution depends only on an action's arguments, not on its functions |
| Actions.SequenceDropsRightKeywords | custom_components/home_script/home_script/action.py:143 | two actions that each check can form a sequence that does not, because the right keywords are dropped |
| Actions.CreateFunction | custom_components/home_script/home_script/action.py:50-53 | creation succeeds iff the callable is not an unbound method or an instance is given; parameters come from the signature |
| Actions.MakeAction | custom_components/home_script/home_script/action.py:167-182 | an existing action is accepted only without new arguments; a method becomes a descriptor only without arguments; a function becomes a one-function action |
| Actions.BindMethod | custom_components/home_script/home_script/action.py:150-153 | a descriptor bound to an object is a one-function action with no bound arguments. Its function keeps the callable's id and async flag, is bound to that instance, and takes the parameters after `self` |
| Events.MakeEvent | custom_components/home_script/home_script/state_event.py:32-35 | an event is built iff its filter is absent, accepts anything, or has exactly the event kind's argument set |
| Events.Filter | custom_components/home_script/home_script/state_event.py:43-45 | `e >> c` keeps the kind and key and always leaves a filter; on an unfiltered event it is `c` itself, validated |
| Events.FilterSucceeds | custom_components/home_script/home_script/state_event.py:43-45 | on a valid event, `>> c` succeeds iff `c` alone would pass the validator, and the result is valid |
| Events.FilterEval | custom_components/home_script/home_script/state_event.py:44 | a filtered event evaluates the old filter, then the new condition only when the old one holds |
| Events.FilterChain | custom_components/home_script/home_script/state_event.py:43-45 | on an unfiltered event, `e >> c1 >> c2` and `e >> (c1 & c2)` succeed together and give the same event |
| StateEvents.StateEventOf | custom_components/home_script/home_script/state_event.py:80-81 | `state_event(entity)` is a valid, unfiltered state event keyed by the entity id |
| StateEvents.StateSet | custom_components/home_script/home_script/state_event.py:59 | the accepted states are exactly the first one given and the rest |
| StateEvents.StateKwargs | custom_components/home_script/home_script/state_event_manager.py:69 | a state filter is called with exactly `entity_id`, `old` and `new`, bound to the entity id and the old and new values |
| StateEvents.StateConditionSignature | custom_components/home_script/home_script/state_event.py:54-55 | an example of the decorator's law (`Conditions.Decorate`): `state_event_condition` accepts a function with parameters `(entity_id, old, new)` and refuses one with parameters `(entity_id, old)` |
| StateEvents.OldNewMatch | custom_components/home_script/home_script/state_event.py:58-77 | `old(...)` holds iff the old state is listed and `new(...)` iff the new one is; a value that is not a state raises |
| StateEvents.OldNewAlwaysAdmissible | custom_components/home_script/home_script/state_event.py:47-51 | `old(...)`/`new(...)` on a valid state event always succeed, keep the entity and give a valid event |
| StateEvents.OldThenNew | custom_components/home_script/home_script/state_event.py:47-51 | on an unfiltered event `old(a)` sets exactly that filter, and `.old(a).new(b)` filters by their conjunction |
| StateEvents.SeparateCallsDiffer | custom_components/home_script/home_script/state_event.py:58-77 | two `old(...)` calls make different conditions even for the same states, so the events they filter are different keys |
| BusEvents.BusEventOf | custom_components/home_script/home_script/bus_event.py:56-60 | `bus_event(t)` is a valid, unfiltered bus event keyed by the type |
| BusEvents.BusConditionFits | custom_components/home_script/home_script/bus_event.py:49-53 | an example: a predicate over `event` fits a bus event, and a state filter is refused by the validator |
| BusEvents.BusFilterSucceeds | custom_components/home_script/home_script/bus_event.py:32-46 | on a valid bus event, `>> c` succeeds iff `c` accepts anything or exactly `{event}`, and keeps the type |
| Schema.SelectAtRoot | custom_components/home_script/home_script/schema.py:52-59 | a leaf or list of actions sits at the empty path only |
| Schema.SelectPrefixed | custom_components/home_script/home_script/schema.py:62-66 | prefixing by a key moves every path one level under that key |
| Schema.AddPrefixed | custom_components/home_script/home_script/schema.py:65-66 | merging a child's table into a table with each path once keeps each path once |
| Schema.GetAddPrefixed | custom_components/home_script/home_script/schema.py:65-66 | a path starting with the key gains what the child has under the rest of the path; other paths are unchanged |
| Schema.NormalizeActionSchema | custom_components/home_script/home_script/schema.py:50-67 | the normalised table has each path once |
| Schema.NormalizeEntries | custom_components/home_script/home_script/schema.py:61-67 | the loop over a mapping keeps each path once |
| Schema.NormalizeSelects | custom_components/home_script/home_script/schema.py:50-67 | under every path the table holds exactly the actions a depth-first walk reaches along it, in order (equal paths merged, empty lists dropped) |
| Schema.EntriesSelect | custom_components/home_script/home_script/schema.py:61-67 | the same for the mapping loop started from a partial table |
| Schema.ApplyConditions | custom_components/home_script/home_script/schema.py:70-74 | an empty path leaves the event as it is; folding keeps the kind and key |
| Schema.ApplyConditionsFold | custom_components/home_script/home_script/schema.py:70-74 | folding a path conjoins its conditions onto the event's filter left to right, keeping kind and key |
| Schema.ApplyConditionsEval | custom_components/home_script/home_script/schema.py:70-74 | the folded filter evaluates as the short-circuit AND of the event's own filter and then each condition of the path, in order |
| Schema.CheckAll | custom_components/home_script/home_script/schema.py:83-84 | checking a list passes iff every action checks |
| Schema.AddPathsSucceeds | custom_components/home_script/home_script/schema.py:82-85 | one source succeeds iff all its actions check and all its paths fold into events |
| Schema.AddPathsGet | custom_components/home_script/home_script/schema.py:82-85 | each event's list gains the actions of every path folding into it, in order; keys stay distinct |
| Schema.GetAppend | custom_components/home_script/home_script/schema.py:85 | looking a key up in two concatenated tables concatenates the lookups |
| Schema.NormalizeSchema | custom_components/home_script/home_script/schema.py:77-86 | `normalize_schema` succeeds iff every source's actions check and its paths fold; each event is then stored once and holds the actions of every path folding into it, source by source |
| Schema.NormalizeSchemaSemantics | custom_components/home_script/home_script/schema.py:77-86 | the same from any partial table with distinct keys: each event keeps what it held and gains the actions of every path folding into it |
| Schema.OneEntry | custom_components/home_script/home_script/schema.py:61-67 | a one-entry mapping is the child's table with the key in front of every path |
| Schema.NestedEqualsConjoined | custom_components/home_script/home_script/schema.py:60-74 | `{c1: {c2: a}}` and `{c1 & c2: a}` normalise to the same table |
| Scripts.NewScript | custom_components/home_script/home_script/script.py:24-27 | a new script is running, named, with no tasks |
| Scripts.CancelAllTasks | custom_components/home_script/home_script/script.py:50-54 | every live task is asked to cancel; none is removed yet |
| Scripts.Stop | custom_components/home_script/home_script/script.py:42-48 | `stop` sets the flag and asks every live task to cancel |
| Scripts.AddTask | custom_components/home_script/home_script/script.py:56-59 | adding a task already held fails with the source's message; otherwise only that task is added |
| Scripts.Complete | custom_components/home_script/home_script/script.py:60 | a finished task leaves the script, and its pending cancellation goes with it |
| Scripts.RunAction | custom_components/home_script/home_script/script.py:62-95 | a stopped script skips; an async action becomes one new task; a sync action runs inline with errors swallowed |
| Scripts.StepsKeepValid | custom_components/home_script/home_script/script.py:50-70 | every step keeps pending cancellations among the live tasks |
| Scripts.StopThenRun | custom_components/home_script/home_script/script.py:42-65 | after `stop`, running any action changes nothing, and every task that was live is asked to cancel |
| Scripts.CancelThenDrain | custom_components/home_script/home_script/script.py:50-60 | cancelling and then completing every live task leaves nothing running and nothing pending |
| Scripts.DrainRemoves | custom_components/home_script/home_script/script.py:60 | completing a list of tasks removes exactly those tasks |
| Scripts.GetScript | custom_components/home_script/home_script/script.py:107-114 | an empty name fails; a known name gives its script unchanged; an unknown one creates and files a new script |
| Scripts.GetScriptOnce | custom_components/home_script/home_script/script.py:107-114 | a second lookup gives the same script and changes nothing; the manager stays valid |
| Scripts.StopAll | custom_components/home_script/home_script/script.py:116-119 | stopping all keeps the set of script names |
| Scripts.StopAllStops | custom_components/home_script/home_script/script.py:116-119 | after stopping all, every script is stopped, keeps its tasks, has them all asked to cancel, and ignores every action |
| Dispatch.Add | custom_components/home_script/home_script/state_event_manager.py:73-77 | registration fails iff the entity id is empty; otherwise the triple is appended to that entity only |
| Dispatch.Matches | custom_components/home_script/home_script/state_event_manager.py:50-53 | at most one match per registration |
| Dispatch.MatchesAppend | custom_components/home_script/home_script/state_event_manager.py:50-53 | matching a concatenation matches the first part, then the second: the first raising filter aborts, and otherwise the matches keep registration order |
| Dispatch.MatchesOne | custom_components/home_script/home_script/state_event_manager.py:50-53 | one registration contributes its (script, action) pair iff its event hits, nothing iff it misses, and its filter's error iff the filter raises; with `MatchesAppend` this fixes the matches as the hitting registrations in order |
| Dispatch.Starts | custom_components/home_script/home_script/state_event_manager.py:58-62 | one start per action, in order |
| Dispatch.MatchesSemantics | custom_components/home_script/home_script/state_event_manager.py:50-71 | matching succeeds iff no filter raises; a (script, action) pair matches iff some registration with them hits |
| Dispatch.UnknownEntity | custom_components/home_script/home_script/state_event_manager.py:50 | a change of an entity nobody registered for does nothing |
| Dispatch.StartsFacts | custom_components/home_script/home_script/state_event_manager.py:58-62 | starting one script's actions starts nothing for other scripts and cancels nothing |
| Dispatch.EffectsFacts | custom_components/home_script/home_script/state_event_manager.py:55-62 | each planned script is cancelled exactly once and given exactly its planned actions; other scripts are untouched |
| Dispatch.Effects | custom_components/home_script/home_script/state_event_manager.py:55-62 | every start of a script comes after a cancel of that script |
| Dispatch.Plan | custom_components/home_script/home_script/state_event_manager.py:43-63 | planning fails iff some filter registered for the entity raises; a plan never starts a script before cancelling it |
| Dispatch.PlanSemantics | custom_components/home_script/home_script/state_event_manager.py:43-63 | a notification cancels each matched script once, before its starts, then starts its matched actions in registration order; unmatched scripts are neither cancelled nor started |
| StateMachine.BasesOf | custom_components/home_script/home_script/state_machine.py:56 | every dependency tuple becomes one entry with no base condition |
| StateMachine.AddState | custom_components/home_script/home_script/state_machine.py:42-44 | the state is declared afterwards, earlier states stay, the count grows only for a new state, and a well-formed manager stays well formed |
| StateMachine.AddStateSemantics | custom_components/home_script/home_script/state_machine.py:42-56 | declaring a state adds it once and appends its activation events, affect events and dependency entries to its own lists only; the manager stays valid |
| StateMachine.InvertState | custom_components/home_script/home_script/state_machine.py:29-32 | `~state` fails iff it has side effects; otherwise the state named `"NOT " + name` with the inverted condition and nothing else changed |
| StateMachine.InvertStateEval | custom_components/home_script/home_script/state_machine.py:32 | the inverted state's condition holds iff the original's does not |
| StateMachine.DeclareInverted | custom_components/home_script/home_script/state_machine.py:22-32 | `~state` succeeds iff it has no side effects; it declares the state named `"NOT " + name`, appending the original's activation events, affect events and dependency entries to that state's lists only, and keeps the manager well formed |
| StateMachine.AppendAllSemantics | custom_components/home_script/home_script/state_machine.py:137-141 | appending events one at a time extends only that state's list; an empty list does not even create the key |
| StateMachine.FilterAll | custom_components/home_script/home_script/state_machine.py:93-96 | restricting events succeeds iff every `>>` does, each event being filtered in place |
| StateMachine.TryActivate | custom_components/home_script/home_script/state_machine.py:78-87 | a state with activation events is done with exactly those events; one that also has affect events is an assertion failure |
| StateMachine.TryEvents | custom_components/home_script/home_script/state_machine.py:89-97 | a state without affect events is left alone; one with them succeeds iff each can be filtered by its condition, is then done, and its list gains exactly those filtered events in order while no other state changes |
| StateMachine.Combine | custom_components/home_script/home_script/state_machine.py:125-135 | with no other states the base condition stays; with others there is always a combined condition |
| StateMachine.CombineEval | custom_components/home_script/home_script/state_machine.py:125-132 | the combined condition evaluates as the short-circuit AND of the base condition and then each other state's condition, in order |
| StateMachine.Snapshot | custom_components/home_script/home_script/state_machine.py:116 | the events of each base state, read before anything is added |
| StateMachine.TryBaseStates | custom_components/home_script/home_script/state_machine.py:114-119 | a dependency entry waits iff some base state has no events yet |
| StateMachine.BaseContribution | custom_components/home_script/home_script/state_machine.py:122-141 | a base state contributes its events unchanged without a condition, and otherwise each filtered by it, failing iff some filter fails |
| StateMachine.AddBaseEvents | custom_components/home_script/home_script/state_machine.py:120-141 | adding derived events keeps one entry per state and touches only the main state |
| StateMachine.AddBaseEventsGet | custom_components/home_script/home_script/state_machine.py:120-141 | adding succeeds iff every base state's contribution does, failing with the first error; the main state then gains the contributions in base order and no other state changes |
| StateMachine.TryBaseStatesGet | custom_components/home_script/home_script/state_machine.py:114-142 | when every base state has events, the entry is used iff every contribution succeeds, and only the main state gains them |
| StateMachine.FirstBase | custom_components/home_script/home_script/state_machine.py:104-108 | the entry used, if any, is one of the state's entries from the start position; without one the events are unchanged |
| StateMachine.FirstBaseSemantics | custom_components/home_script/home_script/state_machine.py:104-108 | the entry used is the first that does not wait, every entry before it waiting; without one every entry waits; a failure is some entry's failure |
| StateMachine.TryBases | custom_components/home_script/home_script/state_machine.py:99-112 | only the state's own entry list changes and it never grows; the state is done iff the list is empty; an unchanged list means unchanged events |
| StateMachine.TryBasesSemantics | custom_components/home_script/home_script/state_machine.py:99-112 | when every entry waits nothing changes; otherwise the first entry that does not wait is applied and exactly that entry is removed |
| StateMachine.TryBasesWaits | custom_components/home_script/home_script/state_machine.py:104-110 | when every entry waits, the events and the state's entry list stay as they were |
| StateMachine.TryBasesUses | custom_components/home_script/home_script/state_machine.py:104-108 | the first entry that does not wait gives the new events and is the one entry removed from the list |
| StateMachine.Scan | custom_components/home_script/home_script/state_machine.py:71-75 | the state found done is one of the pending states |
| StateMachine.Attempt | custom_components/home_script/home_script/state_machine.py:73 | a state no attempt finishes has neither activation nor affect events |
| StateMachine.ScanSkipsBefore | custom_components/home_script/home_script/state_machine.py:71-75 | every pending state before the one found has neither activation nor affect events |
| StateMachine.ScanSkipsAll | custom_components/home_script/home_script/state_machine.py:71-75 | when no state is found, no pending state has activation or affect events |
| StateMachine.ScanStops | custom_components/home_script/home_script/state_machine.py:71-75 | a state with activation or affect events ends the scan there |
| StateMachine.Round | custom_components/home_script/home_script/state_machine.py:70-75 | one iteration never adds pending states |
| StateMachine.RoundSemantics | custom_components/home_script/home_script/state_machine.py:70-75 | one iteration either removes exactly one pending state, every state before it having neither activation nor affect events, or removes none, when no pending state has any |
| StateMachine.IterateDone | custom_components/home_script/home_script/state_machine.py:70 | once nothing is pending, further rounds change nothing |
| StateMachine.CorrectedAgrees | custom_components/home_script/home_script/state_machine.py:66-76 | wherever the loop as written ends within 100 iterations, the bounded loop gives the same result |
| StateMachine.StuckForever | custom_components/home_script/home_script/state_machine.py:70-75 | a round that finds nothing done and changes nothing repeats forever |
| StateMachine.InertStateHangs | custom_components/home_script/home_script/state_machine.py:69-75 | one declared state without events or dependencies makes the loop as written never end; the bounded loop ends with nothing derived |
| StateMachine.FirstBaseValid | custom_components/home_script/home_script/state_machine.py:104-108 | going through a state's dependency entries keeps one event list per state, only for declared states |
| StateMachine.StepValid | custom_components/home_script/home_script/state_machine.py:78-112 | each of the three attempts keeps the build well formed |
| StateMachine.ScanValid | custom_components/home_script/home_script/state_machine.py:71-75 | one pass over the pending states keeps the build well formed |
| StateMachine.LoopValid | custom_components/home_script/home_script/state_machine.py:70-75 | any number of iterations keeps the build well formed |
| StateMachine.BuildAsWritten | custom_components/home_script/home_script/state_machine.py:66-76 | whenever the loop as written ends, each state has at most one entry and only declared states have events |
| StateMachine.BuildCorrected | custom_components/home_script/home_script/state_machine.py:66-76 | the bounded loop gives each state at most one entry, and events only to declared states |
| StateMachine.SingleBase | custom_components/home_script/home_script/state_machine.py:133-141 | depending on one state with events gives exactly those events, unfiltered |
| StateMachine.TwoBases | custom_components/home_script/home_script/state_machine.py:120-141 | depending on two states gives the first's events under the second's condition, then the second's under the first's |
| StateMachine.CombineOne | custom_components/home_script/home_script/state_machine.py:129-130 | with no base condition, a single other state contributes exactly its condition |
| StateMachine.ExtendEachGet | custom_components/home_script/home_script/state_machine.py:156-157 | each event gains the side effects once per occurrence in the list; keys stay distinct |
| StateMachine.ScriptFromGet | custom_components/home_script/home_script/state_machine.py:148-157 | the loop over derived states adds to each event exactly the contribution of the kept states |
| StateMachine.BuildEventScript | custom_components/home_script/home_script/state_machine.py:144-158 | the script table exists iff the bounded build succeeds; each event is stored once and holds the side effects of every kept state with that event, once per occurrence; the declared states are unchanged |
| StateMachine.BuildEventScriptAsWritten | custom_components/home_script/home_script/state_machine.py:144-158 | the same over the loop as written: the table exists iff that loop ends within the given rounds, and then holds the same contributions |
| StateMachine.ScriptAgrees | custom_components/home_script/home_script/state_machine.py:144-158 | wherever the loop as written ends within 100 iterations, the script table equals the bounded one |
| StateMachine.BuildScript | custom_components/home_script/home_script/state_machine.py:161-162 | `build_script` succeeds iff the build does; each event holds the contributions of all declared states, or of the given states when a filter is given |
| StateMachine.ScriptFromAll | custom_components/home_script/home_script/state_machine.py:147-158 | from an empty table, every event gets exactly its contribution and keys stay distinct |
| StateMachine.SkippedStatesContributeNothing | custom_components/home_script/home_script/state_machine.py:149-154 | filtered-out states and states without side effects contribute nothing |
| HomeScript.Init | custom_components/home_script/home_script/__init__.py:129-135 | `init` fails iff already initialised, and records the logger name |
| HomeScript.Unload | custom_components/home_script/home_script/__init__.py:138-142 | `unload` fails iff not initialised, and keeps the logger name |
| HomeScript.Lifecycle | custom_components/home_script/home_script/__init__.py:129-142 | `init` and `unload` alternate: a second of either fails; `init` works again after `unload` |
| HomeScript.GetLogger | custom_components/home_script/home_script/__init__.py:145-149 | library names stay; other names go under `<logger_name>.custom_module.`, which fails without a logger name |
| HomeScript.GetLoggerIdempotent | custom_components/home_script/home_script/__init__.py:145-149 | with the integration's logger under the library prefix, naming a produced name again keeps it |
| HomeScript.Registrations | custom_components/home_script/home_script/__init__.py:121-122 | one registration per action, in order |
| HomeScript.RegisterActionsSemantics | custom_components/home_script/home_script/__init__.py:119-122 | with an entity id, all actions are registered in order after the earlier ones and no other entity changes; without one, nothing changes |
| HomeScript.RegisterAllSemantics | custom_components/home_script/home_script/__init__.py:112-116 | registering succeeds iff every entry is a state event; each entity then gets the registrations of every entry for it, in order |
| HomeScript.RegisterAllStopsAtBus | custom_components/home_script/home_script/__init__.py:112-116 | a bus event fails with `AssertionFailed("Unknown event")`, the fixed text of the source's message; it keeps what was registered before it and registers nothing after it |
| HomeScript.AddEventScript | custom_components/home_script/home_script/__init__.py:107-117 | an empty name fails and changes nothing; otherwise the script exists afterwards and the task counter stays; a schema that does not normalise fails with its error and registers nothing; the call succeeds iff the name is non-empty, the schema normalises and every entry is a state event that can be registered |
| HomeScript.AddEventScriptSemantics | custom_components/home_script/home_script/__init__.py:107-122 | after success each entity has its earlier registrations followed by the schema's registrations for it, in table order |
| HomeScript.AddEventScriptKeepsValid | custom_components/home_script/home_script/__init__.py:107-122 | registration keeps every registration naming an existing script |
| HomeScript.RegisterAllNames | custom_components/home_script/home_script/__init__.py:112-116 | registering a table under an existing script only adds registrations naming it |
| HomeScript.RegisterActionsNames | custom_components/home_script/home_script/__init__.py:119-122 | the same for one entry's actions |
| HomeScript.ApplyOne | custom_components/home_script/home_script/state_event_manager.py:57-62 | `cancel_all_tasks` replaces the named script by `CancelAllTasks` of it. `run_action` replaces it by the script `RunAction` gives, and fails iff that fails. The task counter moves on iff a task was spawned. An unknown name changes nothing. The registry, the set of scripts and every other script are kept |
| HomeScript.Apply | custom_components/home_script/home_script/state_event_manager.py:55-62 | carrying out the calls in order never touches the registry or the set of scripts, and never moves the task counter back |
| HomeScript.ApplyOneNamed | custom_components/home_script/home_script/state_event_manager.py:57-62 | on a valid engine, one call never fails and moves the script it names by `Transition` |
| HomeScript.ApplyScript | custom_components/home_script/home_script/state_event_manager.py:55-62 | on a valid engine, carrying out the calls moves every script by `Affected` |
| HomeScript.AffectedStep | custom_components/home_script/home_script/state_event_manager.py:57-62 | one call's `Transition` followed by the rest's `Affected` is `Affected` for the whole sequence |
| HomeScript.ApplyOneSemantics | custom_components/home_script/home_script/state_event_manager.py:57-62 | one `cancel_all_tasks` or `run_action` call on a valid engine never fails and keeps it valid. It moves the named script by `Transition`: a cancel asks every live task to cancel and starts none. A start of an async action on a running script adds the next task id, which is fresh. Any other start leaves the tasks alone. No task is removed, and registrations, script names, stopped flags and other scripts are kept |
| HomeScript.ApplySemantics | custom_components/home_script/home_script/state_event_manager.py:55-62 | carrying out a plan on a valid engine never fails and keeps it valid. Each script moves by `Affected`: its tasks and cancellation requests only grow. After a cancel of it, every task it held before is asked to cancel; without one, no new request appears. Unless stopped, it gains one task per async action started on it. Unmentioned scripts are unchanged |
| HomeScript.HandleStateChanged | custom_components/home_script/home_script/state_event_manager.py:43-63 | a plan failure is the listener's failure; a success keeps the registrations and the set of scripts |
| HomeScript.HandleStateChangedSemantics | custom_components/home_script/home_script/state_event_manager.py:43-63 | a state change fails only when a filter raises, and it keeps the engine valid and the registrations. A script with a matching registration is preempted: every task it held is asked to cancel. Unless stopped, it gains one task per matched async action. Scripts without a match are untouched |
| HomeScript.NotMentioned | custom_components/home_script/home_script/state_event_manager.py:55-62 | a script neither cancelled nor started is not touched by the plan |

## Left out

- Logging, `__str__`, `short_str` and `__repr__`: text only, no behaviour.
- The Home Assistant objects: `hass`, entities, the bus subscription, `async_create_task`. The listener is called directly with the entity id and the old and new values. The new task's id is a parameter.
- `HomeScript.load` and the entity components it loads (`components.py`, `proxies/`). `ScriptManager.load` and the subscription and cancellation in `StateChangedManager`. An engine is a registry, a script manager and the next task id.
- `HomeScript.unload` (`__init__.py:102-105`) is modelled only as dropping the engine. Stopping the manager's subscription is host I/O.
- The body of user functions and predicates: they are an oracle, and they never raise. Exceptions inside them are not modelled beyond the errors the engine raises itself.
- asyncio: task scheduling, awaiting, and `CancelledError` delivery. Cancellation is a request recorded on the script; completion is an explicit `Complete` step.
- `sleep` (`action.py:185-195`): it is an async action over a host timer, and it behaves like any other async action.
- `property_condition` and `condition`: they are the decorator with `None`, which `Conditions.Decorate` covers. Attribute lookup on user objects is left out.
- `ConditionDescriptor.__get__(None)` and `ActionDescriptor.__get__(None)` return the descriptor itself. The model only binds to an instance.
- `Condition.__bool__`: calling a condition with no keywords is `Eval` with an empty map.
- Type checks the Python performs at run time are excluded by the types: non-`Condition` schema keys (`schema.py:63`), non-`Action` leaves (`schema.py:55,58`), non-string script names (`script.py:109`), non-callable actions (`action.py:174-175`) and non-`Condition` chooser conditions (`condition.py:183-184`).
- Tuples and lists: the model has one sequence type.
- Actions.NamedValuesOf: keyword values are resolved in declared-parameter order, not in the dict's insertion order. This only changes which error is reported when several keyword values fail.
- Actions.Trace: calls are resolved with the corrected `Resolve`, which keeps a falsy bound instance (see Findings). `Actions.TraceAsWritten` is the run as written, and `Actions.TraceAgreesWithoutFalsyInstances` shows the two agree whenever no instance is falsy. `Run` and `AsyncRun` inherit this.
- StateMachine.BuildEventScript: it uses the bounded build, so after 100 rounds the states still pending get no events, where the loop as written keeps running forever (see Findings). `StateMachine.BuildEventScriptAsWritten` is the table over the loop as written, and `StateMachine.ScriptAgrees` shows they agree whenever that loop ends within 100 rounds.
- Actions.CheckPredictsTrace: it is stated for one world (oracle), the same at registration, where `check` runs, and at the run. That `check` predicts a run under a different world is not stated.
- Schema.NormalizeSchema: the order of the event keys is not stated, only each event's actions via `Get`. The same holds for `Schema.NormalizeActionSchema` and `StateMachine.BuildEventScript`.
- StateMachine.Scan: that the state found is the first one an attempt finishes is stated through `ScanSkipsBefore`, `ScanSkipsAll` and `ScanStops`, in terms of activation and affect events. A skipped state's dependency attempt may still use an entry; that is stated per attempt by `TryBasesSemantics`, not per scan.
- StateMachine: the set of declared states is iterated in registration order. The source iterates a hash set, in an order the model cannot know.
- StateMachine.TryBaseStates: each base state's events are read before any are added. This differs from the source only when a state depends on itself.
- StateMachine: a failure in the middle of a build loses the partial table and the updated manager. In the source the table stays half filled on the builder. The dependency entries `_try_bases` used before the failure also stay deleted from `state_bases` (`state_machine.py:106-107`). So a later build starts from the shortened lists.
- StateMachine.State: `condition` is never `None` (the field is declared as `Condition`), so the `elif state.condition is not None` test (`state_machine.py:131`) always holds.
- StateMachine: the base condition is always `None`. No code path sets it (`state_machine.py:56`).
- HomeScript.ApplyOne: the calls a sync action makes when `run_action` runs it inline are not kept in the engine. `Scripts.RunAction` states them.
- HomeScript.ApplyOne: a registration naming a script the manager does not have is skipped. In a valid engine this never happens.
- Dispatch.Registration: a script is named by its string. The manager hands out one script object per name, so this matches the source's dict keyed by script.

## Findings

| source | as written | input that shows it | evidently intended | confidence | as-written member | corrected member |
|---|---|---|---|---|---|---|
| custom_components/home_script/home_script/action.py:77-78 | `if self.instance:` tests truthiness, so the bound object is dropped when it is falsy | a method action bound to an object that defines `__len__` returning 0 (or `__bool__` returning False): the method is called without `self` | `if self.instance is not None:`, as in `__str__` (`action.py:57`) and `Function.create` (`action.py:52`) | medium, not executed | Actions.ResolveAsWritten, Actions.TraceAsWritten, Actions.FalsyInstanceIsDropped | Actions.Resolve, Actions.Trace |
| custom_components/home_script/home_script/state_machine.py:69-75 | `count` is set to 100 and never decremented, so the `while` loop only ends when every state has been processed | a single declared state with no `activated_by`, `affect_by` or `depend_on` (for example a state used only through `~`): no attempt ever finishes it, and the loop never ends | `count` is decremented once per iteration, bounding the loop at 100 iterations | medium, not executed | StateMachine.BuildAsWritten, StateMachine.BuildEventScriptAsWritten, StateMachine.InertStateHangs | StateMachine.BuildCorrected, StateMachine.CorrectedAgrees, StateMachine.ScriptAgrees |

=== FILE: action.dfy ===
/** The action model of `action.py`: callables with declared parameters,
    actions binding arguments to a sequence of them, argument resolution,
    checking, running and sequencing with `//`. */
module Actions {
  import opened Wrappers
  import opened Values
  import opened Conditions
  import Utils

  /** An action argument: a plain value or a `ConditionValue`. */
  datatype Arg = Plain(value: Value) | Chosen(chooser: Chooser)

  /** `Function`: the callable (by `id`), the instance it is bound to, whether
      it is a coroutine function, and its declared parameter names. */
  datatype Function = Function(id: nat, instance: Option<Obj>, isAsync: bool, params: seq<string>)

  /** `Action`: a sequence of functions sharing one set of bound arguments. */
  datatype Action = Action(functions: seq<Function>, args: seq<Arg>, kwargs: map<string, Arg>)

  /** One call of a function with fully resolved arguments. */
  datatype Call = Call(callee: Function, args: seq<Value>, kwargs: map<string, Value>)

  /** `_value`: a `ConditionValue` is resolved by calling it with no keyword
      arguments at all; anything else is passed through. */
  function ValueOf(a: Arg, oracle: Oracle): (r: Result<Value, Error>)
    ensures a.Plain? ==> r == Success(a.value)
    ensures a.Chosen? ==>
      var holds := Eval(a.chooser.condition, map[], oracle);
      && (holds == Success(true) ==> r == Success(a.chooser.trueCase))
      && (holds == Success(false) ==> r == Success(a.chooser.falseCase))
      && (holds.Failure? ==> r == Failure(holds.error))
    ensures a.Chosen? && a.chooser.condition.args.Some? && a.chooser.condition.args.value != {} ==> r == Failure(ArgumentMismatch)
  {
    match a
    case Plain(v) => Success(v)
    case Chosen(chooser) => Choose(chooser, map[], oracle)
  }

  /** `tuple(_value(i) for i in args)`: left to right, the first failure wins. */
  function ValuesOf(args: seq<Arg>, oracle: Oracle): (r: Result<seq<Value>, Error>)
    ensures r.Success? <==> forall i :: 0 <= i < |args| ==> ValueOf(args[i], oracle).Success?
    ensures r.Success? ==>
      && |r.value| == |args|
      && forall i :: 0 <= i < |args| ==> r.value[i] == ValueOf(args[i], oracle).value
  {
    if |args| == 0 then Success([])
    else
      var first := ValueOf(args[0], oracle);
      if first.Failure? then Failure(first.error)
      else
        var rest := ValuesOf(args[1..], oracle);
        if rest.Failure? then
          Failure(rest.error)
        else
          assert forall i :: 1 <= i < |args| ==> args[i] == args[1..][i - 1];
          Success([first.value] + rest.value)
  }

  /** The keyword values of `names`, resolved one name after the other. */
  function NamedValuesOf(names: seq<string>, kwargs: map<string, Arg>, oracle: Oracle): (r: Result<map<string, Value>, Error>)
    requires forall i :: 0 <= i < |names| ==> names[i] in kwargs
    ensures r.Success? <==> forall i :: 0 <= i < |names| ==> ValueOf(kwargs[names[i]], oracle).Success?
    ensures r.Success? ==>
      && r.value.Keys == Conditions.ParamSet(names)
      && forall k :: k in r.value ==> r.value[k] == ValueOf(kwargs[k], oracle).value
  {
    if |names| == 0 then Success(map[])
    else
      var first := ValueOf(kwargs[names[0]], oracle);
      if first.Failure? then Failure(first.error)
      else
        var rest := NamedValuesOf(names[1..], kwargs, oracle);
        if rest.Failure? then
          Failure(rest.error)
        else
          assert forall i :: 1 <= i < |names| ==> names[i] == names[1..][i - 1];
          assert Conditions.ParamSet(names) == {names[0]} + Conditions.ParamSet(names[1..]) by {
            forall x | x in Conditions.ParamSet(names) ensures x in {names[0]} + Conditions.ParamSet(names[1..]) {
              var i :| 0 <= i < |names| && names[i] == x;
              if i > 0 {
                assert names[1..][i - 1] == x;
              }
            }
          }
          Success(rest.value[names[0] := first.value])
  }

  /** The declared parameters that positional arguments do not cover. */
  function Remaining(f: Function, act: Action): seq<string>
    requires |act.args| <= |f.params|
  {
    f.params[|act.args|..]
  }

  /** Everything a call of `f` needs from `act` is there and resolves: the
      positionals fit, each resolves, and every parameter they leave
      uncovered has a keyword whose value resolves. */
  predicate Resolvable(f: Function, act: Action, oracle: Oracle) {
    && |act.args| <= |f.params|
    && Conditions.ParamSet(Remaining(f, act)) <= act.kwargs.Keys
    && (forall i :: 0 <= i < |act.args| ==> ValueOf(act.args[i], oracle).Success?)
    && (forall k :: k in Conditions.ParamSet(Remaining(f, act)) ==> ValueOf(act.kwargs[k], oracle).Success?)
  }

  /** `Function.args` up to the point where the instance is prepended. */
  function ResolveUnbound(f: Function, act: Action, oracle: Oracle): (r: Result<Call, Error>)
    ensures r.Success? <==> Resolvable(f, act, oracle)
    ensures |act.args| > |f.params| ==> r == Failure(ArgumentsNotCompatible)
    ensures r.Success? ==>
      && |act.args| <= |f.params|
      && Conditions.ParamSet(Remaining(f, act)) <= act.kwargs.Keys
      && r.value.callee == f
      && ValuesOf(act.args, oracle) == Success(r.value.args)
      && r.value.kwargs.Keys == Conditions.ParamSet(Remaining(f, act))
      && forall k :: k in r.value.kwargs ==>
           ValueOf(act.kwargs[k], oracle).Success? && r.value.kwargs[k] == ValueOf(act.kwargs[k], oracle).value
    ensures
      (&& |act.args| <= |f.params|
       && ValuesOf(act.args, oracle).Success?
       && !(Conditions.ParamSet(Remaining(f, act)) <= act.kwargs.Keys))
      ==> r == Failure(ArgumentsNotCompatible)
  {
    if |act.args| > |f.params| then Failure(ArgumentsNotCompatible)
    else
      var args := ValuesOf(act.args, oracle);
      if args.Failure? then Failure(args.error)
      else
        var remain := Remaining(f, act);
        if exists i :: 0 <= i < |remain| && remain[i] !in act.kwargs then Failure(ArgumentsNotCompatible)
        else
          assert forall i :: 0 <= i < |remain| ==> remain[i] in Conditions.ParamSet(remain);
          var kwargs := NamedValuesOf(remain, act.kwargs, oracle);
          if kwargs.Failure? then Failure(kwargs.error) else Success(Call(f, args.value, kwargs.value))
  }

  /** `Function.args` exactly as written: the instance is prepended only when
      it is truthy (`if self.instance:`). */
  function ResolveAsWritten(f: Function, act: Action, oracle: Oracle): (r: Result<Call, Error>)
    ensures r.Success? <==> ResolveUnbound(f, act, oracle).Success?
    ensures r.Success? ==>
      var prefix := if f.instance.Some? && f.instance.value.truthy then [Ref(f.instance.value)] else [];
      r.value.args == prefix + ResolveUnbound(f, act, oracle).value.args
  {
    var r := ResolveUnbound(f, act, oracle);
    if r.Success? && f.instance.Some? && f.instance.value.truthy then
      Success(r.value.(args := [Ref(f.instance.value)] + r.value.args))
    else r
  }

  /** `Function.args` as evidently intended: the bound instance, whenever
      there is one, becomes the first positional argument. */
  function Resolve(f: Function, act: Action, oracle: Oracle): (r: Result<Call, Error>)
    ensures r.Success? <==> ResolveUnbound(f, act, oracle).Success?
    ensures r.Success? ==>
      var prefix := if f.instance.Some? then [Ref(f.instance.value)] else [];
      r.value.args == prefix + ResolveUnbound(f, act, oracle).value.args
  {
    var r := ResolveUnbound(f, act, oracle);
    if r.Success? && f.instance.Some? then Success(r.value.(args := [Ref(f.instance.value)] + r.value.args))
    else r
  }

  /** A method whose owning object is falsy (say it defines `__len__` and is
      empty) is called without its `self` by the code as written, while the
      corrected resolution passes it. */
  lemma FalsyInstanceIsDropped(oracle: Oracle)
    ensures var f := Function(0, Some(Obj(1, false)), false, []);
      var act := Action([f], [], map[]);
      && ResolveAsWritten(f, act, oracle) == Success(Call(f, [], map[]))
      && Resolve(f, act, oracle) == Success(Call(f, [Ref(Obj(1, false))], map[]))
  {
    var f := Function(0, Some(Obj(1, false)), false, []);
    var act := Action([f], [], map[]);
    assert ValuesOf([], oracle) == Success([]);
    assert Remaining(f, act) == [];
    assert NamedValuesOf([], act.kwargs, oracle) == Success(map[]);
    assert ResolveUnbound(f, act, oracle) == Success(Call(f, [], map[]));
    assert [Ref(Obj(1, false))] + [] == [Ref(Obj(1, false))];
    assert ResolveAsWritten(f, act, oracle) == Success(Call(f, [], map[]));
    assert Resolve(f, act, oracle) == Success(Call(f, [Ref(Obj(1, false))], map[]));
  }

  /** With only plain values bound, resolution succeeds exactly when the
      positional arguments fit and every uncovered parameter has a keyword;
      keywords the function does not declare are dropped. */
  lemma {:induction false} ResolvePlain(f: Function, act: Action, oracle: Oracle)
    requires forall i :: 0 <= i < |act.args| ==> act.args[i].Plain?
    requires forall k :: k in act.kwargs ==> act.kwargs[k].Plain?
    ensures Resolve(f, act, oracle).Success?
      <==> |act.args| <= |f.params| && Conditions.ParamSet(Remaining(f, act)) <= act.kwargs.Keys
  {
    if |act.args| <= |f.params| && Conditions.ParamSet(Remaining(f, act)) <= act.kwargs.Keys {
      var remain := Remaining(f, act);
      assert forall i :: 0 <= i < |remain| ==> remain[i] in Conditions.ParamSet(remain);
      assert ValuesOf(act.args, oracle).Success?;
      assert NamedValuesOf(remain, act.kwargs, oracle).Success?;
    }
  }

  /** `action(*args, **kwargs)` on an existing action: nothing to add returns
      the action itself; otherwise positionals are appended and keywords
      merged with the new ones winning. */
  function WithArguments(a: Action, args: seq<Arg>, kwargs: map<string, Arg>): (r: Action)
    ensures args == [] && kwargs == map[] ==> r == a
    ensures r.functions == a.functions && r.args == a.args + args
    ensures r.kwargs.Keys == a.kwargs.Keys + kwargs.Keys
    ensures forall k :: k in r.kwargs ==> r.kwargs[k] == if k in kwargs then kwargs[k] else a.kwargs[k]
  {
    if args == [] && kwargs == map[] then a else Action(a.functions, a.args + args, a.kwargs + kwargs)
  }

  /** Binding twice is binding once with the arguments concatenated and the
      keywords merged. */
  lemma BindTwice(a: Action, p1: seq<Arg>, k1: map<string, Arg>, p2: seq<Arg>, k2: map<string, Arg>)
    ensures WithArguments(WithArguments(a, p1, k1), p2, k2) == WithArguments(a, p1 + p2, k1 + k2)
  {
    if p1 == [] && k1 == map[] {
      assert p1 + p2 == p2 && k1 + k2 == k2;
    } else if p2 == [] && k2 == map[] {
      assert p1 + p2 == p1 && k1 + k2 == k1;
    } else {
      assert p1 + p2 != [] || k1 + k2 != map[] by {
        if p1 + p2 == [] {
          assert p1 == [] && p2 == [];
          var x :| x in k1;
          assert x in k1 + k2;
        }
      }
      assert (a.args + p1) + p2 == a.args + (p1 + p2);
      assert (a.kwargs + k1) + k2 == a.kwargs + (k1 + k2);
    }
  }

  /** `Action.is_async`. */
  predicate IsAsync(a: Action) {
    exists i :: 0 <= i < |a.functions| && a.functions[i].isAsync
  }

  /** `Action.check`: resolve the arguments of every function in order and
      report the first failure. */
  function Check(a: Action, oracle: Oracle): (r: Outcome<Error>)
    ensures r.Pass? <==> forall i :: 0 <= i < |a.functions| ==> Resolve(a.functions[i], a, oracle).Success?
    ensures r.Fail? ==>
      exists i :: FirstFailing(a, 0, i, r.error, oracle)
  {
    CheckFrom(a, 0, oracle)
  }

  /** Function `i` is the first one from `start` on whose arguments do not
      resolve, and resolving them raises `e`. */
  ghost predicate FirstFailing(a: Action, start: nat, i: int, e: Error, oracle: Oracle) {
    && start <= i < |a.functions|
    && Resolve(a.functions[i], a, oracle) == Failure(e)
    && forall j :: start <= j < i ==> Resolve(a.functions[j], a, oracle).Success?
  }

  function CheckFrom(a: Action, start: nat, oracle: Oracle): (r: Outcome<Error>)
    requires start <= |a.functions|
    ensures r.Pass? <==> forall i :: start <= i < |a.functions| ==> Resolve(a.functions[i], a, oracle).Success?
    ensures r.Fail? ==>
      exists i :: FirstFailing(a, start, i, r.error, oracle)
    decreases |a.functions| - start
  {
    if start == |a.functions| then Pass
    else
      var first := Resolve(a.functions[start], a, oracle);
      if first.Failure? then
        assert FirstFailing(a, start, start, first.error, oracle);
        Fail(first.error)
      else
        var rest := CheckFrom(a, start + 1, oracle);
        assert rest.Fail? ==> exists i :: FirstFailing(a, start, i, rest.error, oracle) by {
          if rest.Fail? {
            var i :| FirstFailing(a, start + 1, i, rest.error, oracle);
            assert FirstFailing(a, start, i, rest.error, oracle);
          }
        }
        rest
  }

  /** What running an action did: the calls made, in order, and the error
      that stopped it, if any. */
  datatype Execution = Execution(calls: seq<Call>, error: Option<Error>)

  /** The calls `run`/`async_run` make: functions in tuple order, each with
      freshly resolved arguments, stopping at the first that cannot resolve. */
  function Trace(a: Action, oracle: Oracle): (r: Execution)
    ensures |r.calls| <= |a.functions|
    ensures forall i :: 0 <= i < |r.calls| ==> Resolve(a.functions[i], a, oracle) == Success(r.calls[i])
    ensures r.error.None? <==> |r.calls| == |a.functions|
    ensures r.error.Some? ==> Resolve(a.functions[|r.calls|], a, oracle) == Failure(r.error.value)
  {
    TraceFrom(a.functions, f => Resolve(f, a, oracle))
  }

  /** The calls for the functions `fs`, each resolved by `resolve`, in
      order, stopping at the first that cannot resolve. */
  function TraceFrom(fs: seq<Function>, resolve: Function -> Result<Call, Error>): (r: Execution)
    ensures |r.calls| <= |fs|
    ensures forall i :: 0 <= i < |r.calls| ==> resolve(fs[i]) == Success(r.calls[i])
    ensures r.error.None? <==> |r.calls| == |fs|
    ensures r.error.Some? ==> resolve(fs[|r.calls|]) == Failure(r.error.value)
  {
    if |fs| == 0 then Execution([], None)
    else
      var first := resolve(fs[0]);
      if first.Failure? then Execution([], Some(first.error))
      else
        var rest := TraceFrom(fs[1..], resolve);
        Execution([first.value] + rest.calls, rest.error)
  }

  /** The calls as the code is written: each function's arguments resolved
      by `ResolveAsWritten`. */
  function TraceAsWritten(a: Action, oracle: Oracle): (r: Execution)
    ensures |r.calls| <= |a.functions|
    ensures forall i :: 0 <= i < |r.calls| ==> ResolveAsWritten(a.functions[i], a, oracle) == Success(r.calls[i])
    ensures r.error.None? <==> |r.calls| == |a.functions|
    ensures r.error.Some? ==> ResolveAsWritten(a.functions[|r.calls|], a, oracle) == Failure(r.error.value)
  {
    TraceFrom(a.functions, f => ResolveAsWritten(f, a, oracle))
  }

  /** Resolvers that agree on every function give the same calls. */
  lemma {:induction false} TraceFromSame(fs: seq<Function>, r1: Function -> Result<Call, Error>, r2: Function -> Result<Call, Error>)
    requires forall i :: 0 <= i < |fs| ==> r1(fs[i]) == r2(fs[i])
    ensures TraceFrom(fs, r1) == TraceFrom(fs, r2)
  {
    if |fs| > 0 {
      forall i | 0 <= i < |fs[1..]| ensures r1(fs[1..][i]) == r2(fs[1..][i]) {
        assert fs[1..][i] == fs[i + 1];
      }
      TraceFromSame(fs[1..], r1, r2);
    }
  }

  /** The trace as written and the corrected one differ only in the `self`
      of a method bound to a falsy object: an action without such a method
      makes the same calls either way. */
  lemma TraceAgreesWithoutFalsyInstances(a: Action, oracle: Oracle)
    requires forall i :: 0 <= i < |a.functions| ==> a.functions[i].instance.None? || a.functions[i].instance.value.truthy
    ensures TraceAsWritten(a, oracle) == Trace(a, oracle)
  {
    var written := (f: Function) => ResolveAsWritten(f, a, oracle);
    var corrected := (f: Function) => Resolve(f, a, oracle);
    forall i | 0 <= i < |a.functions| ensures written(a.functions[i]) == corrected(a.functions[i]) {
      var f := a.functions[i];
      assert ResolveAsWritten(f, a, oracle) == Resolve(f, a, oracle);
    }
    TraceFromSame(a.functions, written, corrected);
  }

  /** A run completes without an argument error exactly when `check` passes. */
  lemma CheckPredictsTrace(a: Action, oracle: Oracle)
    ensures Check(a, oracle).Pass? <==> Trace(a, oracle).error.None?
  {
    var t := Trace(a, oracle);
    if t.error.Some? {
      assert Resolve(a.functions[|t.calls|], a, oracle).Failure?;
    }
  }

  /** `Action.run`: refuses an action holding an async function, otherwise
      calls the functions in order. */
  function Run(a: Action, oracle: Oracle): (r: Result<Execution, Error>)
    ensures r.Failure? <==> IsAsync(a)
    ensures r.Success? ==> r.value == Trace(a, oracle)
  {
    if IsAsync(a) then Failure(AssertionFailed("Can not run async action")) else Success(Trace(a, oracle))
  }

  /** `Action.async_run`: the same calls in the same order; async functions
      are awaited, sync ones called inline. */
  function AsyncRun(a: Action, oracle: Oracle): (r: Execution)
    ensures r == Trace(a, oracle)
    ensures r.error.None? <==> Check(a, oracle).Pass?
  {
    CheckPredictsTrace(a, oracle);
    Trace(a, oracle)
  }

  /** `a // b`: `b` may bind no positionals and share no keyword name with
      `a`; the result runs `a`'s functions then `b`'s, all with `a`'s
      arguments (`b`'s keywords are dropped). */
  function Sequence(a: Action, b: Action): (r: Result<Action, Error>)
    ensures r.Success? <==> |b.args| == 0 && a.kwargs.Keys !! b.kwargs.Keys
    ensures r.Success? ==>
      && r.value.functions == a.functions + b.functions
      && r.value.args == a.args
      && r.value.kwargs == a.kwargs
  {
    if |b.args| > 0 then Failure(BadSequence)
    else if !(a.kwargs.Keys !! b.kwargs.Keys) then Failure(BadSequence)
    else Success(Action(a.functions + b.functions, a.args, a.kwargs))
  }

  /** A sequence is async iff either part is. */
  lemma SequenceAsync(a: Action, b: Action)
    requires Sequence(a, b).Success?
    ensures IsAsync(Sequence(a, b).value) <==> IsAsync(a) || IsAsync(b)
  {
    var s := Sequence(a, b).value;
    if IsAsync(a) {
      var i :| 0 <= i < |a.functions| && a.functions[i].isAsync;
      assert s.functions[i] == a.functions[i];
    }
    if IsAsync(b) {
      var i :| 0 <= i < |b.functions| && b.functions[i].isAsync;
      assert s.functions[|a.functions| + i] == b.functions[i];
    }
    if IsAsync(s) {
      var i :| 0 <= i < |s.functions| && s.functions[i].isAsync;
      if i < |a.functions| {
        assert a.functions[i] == s.functions[i];
      } else {
        assert b.functions[i - |a.functions|] == s.functions[i];
      }
    }
  }

  /** A sequence checks exactly when every function of both parts resolves
      against the left action's arguments. */
  lemma SequenceCheck(a: Action, b: Action, oracle: Oracle)
    requires Sequence(a, b).Success?
    ensures Check(Sequence(a, b).value, oracle).Pass?
        <==> Check(a, oracle).Pass? && forall i :: 0 <= i < |b.functions| ==> Resolve(b.functions[i], a, oracle).Success?
  {
    var s := Sequence(a, b).value;
    var n := |a.functions|;
    forall i | 0 <= i < |s.functions| ensures Resolve(s.functions[i], s, oracle) == Resolve(s.functions[i], a, oracle) {
      ResolveDependsOnArguments(s.functions[i], s, a, oracle);
    }
    if Check(s, oracle).Pass? {
      forall i | 0 <= i < n ensures Resolve(a.functions[i], a, oracle).Success? {
        assert s.functions[i] == a.functions[i];
      }
      forall i | 0 <= i < |b.functions| ensures Resolve(b.functions[i], a, oracle).Success? {
        assert s.functions[n + i] == b.functions[i];
      }
    } else {
      var i :| 0 <= i < |s.functions| && !Resolve(s.functions[i], s, oracle).Success?;
      if i < n {
        assert s.functions[i] == a.functions[i];
      } else {
        assert s.functions[i] == b.functions[i - n];
      }
    }
  }

  /** A sequence is async iff either part is, and it checks exactly when every
      function of both parts resolves against the LEFT action's arguments. */
  lemma SequenceProperties(a: Action, b: Action, oracle: Oracle)
    requires Sequence(a, b).Success?
    ensures IsAsync(Sequence(a, b).value) <==> IsAsync(a) || IsAsync(b)
    ensures Check(Sequence(a, b).value, oracle).Pass?
        <==> Check(a, oracle).Pass? && forall i :: 0 <= i < |b.functions| ==> Resolve(b.functions[i], a, oracle).Success?
  {
    SequenceAsync(a, b);
    SequenceCheck(a, b, oracle);
  }

  /** Resolution only looks at an action's arguments, not at its functions. */
  lemma ResolveDependsOnArguments(f: Function, a1: Action, a2: Action, oracle: Oracle)
    requires a1.args == a2.args && a1.kwargs == a2.kwargs
    ensures Resolve(f, a1, oracle) == Resolve(f, a2, oracle)
  {
    assert ResolveUnbound(f, a1, oracle) == ResolveUnbound(f, a2, oracle);
  }

  /** Because `//` keeps only the left keywords, two actions that each check
      can form a sequence that does not. */
  lemma SequenceDropsRightKeywords(oracle: Oracle)
    ensures var a := Action([Function(0, None, false, [])], [], map[]);
      var b := Action([Function(1, None, false, ["y"])], [], map["y" := Plain(Number(1))]);
      && Check(a, oracle).Pass? && Check(b, oracle).Pass?
      && Sequence(a, b).Success? && Check(Sequence(a, b).value, oracle).Fail?
  {
    var a := Action([Function(0, None, false, [])], [], map[]);
    var b := Action([Function(1, None, false, ["y"])], [], map["y" := Plain(Number(1))]);
    assert Resolve(b.functions[0], b, oracle).Success? by {
      ResolvePlain(b.functions[0], b, oracle);
      assert Conditions.ParamSet(["y"]) == {"y"} by {
        assert ["y"][0] == "y";
      }
    }
    var s := Sequence(a, b).value;
    assert Resolve(s.functions[1], s, oracle).Failure? by {
      assert "y" in Conditions.ParamSet(Remaining(s.functions[1], s)) by {
        assert Remaining(s.functions[1], s)[0] == "y";
      }
    }
  }

  /** `Function.create`: parameters come from the signature; an unbound
      method must be given its instance. */
  function CreateFunction(id: nat, signature: seq<string>, isAsync: bool, instance: Option<Obj>): (r: Result<Function, Error>)
    ensures r.Success? <==> !Utils.FunctionOrMethodAndParams(signature).0 || instance.Some?
    ensures r.Success? ==> r.value == Function(id, instance, isAsync, Utils.FunctionOrMethodAndParams(signature).1)
  {
    var (isMethod, params) := Utils.FunctionOrMethodAndParams(signature);
    if isMethod && instance.None? then Failure(AssertionFailed("Instance must be provided for unbound function"))
    else Success(Function(id, instance, isAsync, params))
  }

  /** What `action(...)` is applied to: an existing action or a callable with
      its reported signature. */
  datatype Target =
    | Existing(action: Action)
    | Callable(id: nat, signature: seq<string>, isAsync: bool)

  /** What `action(...)` returns: an action, or for an unbound method a
      descriptor that makes an action once an instance is known. */
  datatype Defined =
    | Made(action: Action)
    | MethodDescriptor(id: nat, signature: seq<string>, isAsync: bool)

  /** `action(func, *args, **kwargs)`. */
  function MakeAction(target: Target, args: seq<Arg>, kwargs: map<string, Arg>): (r: Result<Defined, Error>)
    ensures target.Existing? ==> (r.Success? <==> |args| == 0 && |kwargs| == 0)
    ensures target.Existing? && r.Success? ==> r.value == Made(target.action)
    ensures target.Callable? && !Utils.FunctionOrMethodAndParams(target.signature).0 ==>
      r == Success(Made(Action([Function(target.id, None, target.isAsync, Utils.FunctionOrMethodAndParams(target.signature).1)], args, kwargs)))
    ensures target.Callable? && Utils.FunctionOrMethodAndParams(target.signature).0 ==>
      (r.Success? <==> |args| == 0 && |kwargs| == 0)
    ensures target.Callable? && Utils.FunctionOrMethodAndParams(target.signature).0 && r.Success? ==>
      r.value == MethodDescriptor(target.id, target.signature, target.isAsync)
    ensures target.Callable? && Utils.FunctionOrMethodAndParams(target.signature).0 && r.Failure? ==>
      r.error == BadActionDefinition
  {
    match target
    case Existing(a) =>
      if |args| > 0 || |kwargs| > 0 then Failure(AssertionFailed(""))
      else Success(Made(WithArguments(a, args, kwargs)))
    case Callable(id, signature, isAsync) =>
      var (isMethod, _) := Utils.FunctionOrMethodAndParams(signature);
      if isMethod then
        if |args| > 0 || |kwargs| > 0 then Failure(BadActionDefinition)
        else Success(MethodDescriptor(id, signature, isAsync))
      else
        var f := CreateFunction(id, signature, isAsync, None).value;
        Success(Made(Action([f], args, kwargs)))
  }

  /** `ActionDescriptor.__get__(instance)`: a one-function action bound to
      `instance`, with the parameters after `self`. */
  function BindMethod(d: Defined, instance: Obj): (r: Action)
    requires d.MethodDescriptor? && Utils.FunctionOrMethodAndParams(d.signature).0
    ensures |r.functions| == 1 && r.args == [] && r.kwargs == map[]
    ensures r.functions[0].instance == Some(instance)
    ensures ["self"] + r.functions[0].params == Utils.DropVariadic(d.signature)
    ensures r.functions[0] == Function(d.id, Some(instance), d.isAsync, Utils.FunctionOrMethodAndParams(d.signature).1)
  {
    var f := CreateFunction(d.id, d.signature, d.isAsync, Some(instance));
    Action([f.value], [], map[])
  }
}

=== FILE: bus_event.dfy ===
/** `bus_event.py`: events of the Home Assistant bus, identified by their
    type, filtered by conditions on the event object. */
module BusEvents {
  import opened Wrappers
  import opened Values
  import opened Conditions
  import opened Events
  import StateEvents

  /** `bus_event(event_type)`: the unfiltered event of that type. */
  function BusEventOf(eventType: string): (e: Event)
    ensures e.kind == Bus && e.key == eventType
    ensures Valid(e)
  {
    Event(Bus, eventType, None)
  }

  /** `bus_event_condition(func)`: the condition decorator with the bus
      event's argument set. */
  function BusEventCondition(id: nat, signature: seq<string>): Result<Decorated, Error>
  {
    Decorate(Some(FilterArgs(Bus)), id, signature)
  }

  /** A predicate over `event` becomes an atom with argument set `{event}`,
      which `bus_event(t) >>` accepts; a state filter is rejected by the
      validator. */
  lemma BusConditionFits(id: nat, eventType: string, first: string)
    ensures BusEventCondition(id, ["event"]) == Success(Ready(Leaf(Some(FilterArgs(Bus)), false, User(id, None))))
    ensures var c := Leaf(Some(FilterArgs(Bus)), false, User(id, None));
      Filter(BusEventOf(eventType), c) == Success(Event(Bus, eventType, Some(c)))
    ensures Filter(BusEventOf(eventType), StateEvents.OldStateCondition(id, first, [])) == Failure(EventIncompatible)
  {
    assert Utils.FunctionOrMethodAndParams(["event"]).1 == ["event"];
    assert ParamSet(["event"]) == {"event"} by {
      assert ["event"][0] == "event";
    }
    assert "old" in FilterArgs(StateChange) && "old" !in FilterArgs(Bus);
  }

  /** On a valid bus event, `>> c` with a well-formed `c` succeeds exactly
      when `c` accepts any keywords or exactly `{event}`. */
  lemma BusFilterSucceeds(e: Event, c: Cond)
    requires Valid(e) && e.kind == Bus && WellFormed(c)
    ensures Filter(e, c).Success? <==> (c.args.None? || c.args.value == {"event"})
    ensures Filter(e, c).Success? ==> Filter(e, c).value.key == e.key
  {
    FilterSucceeds(e, c);
  }
}

=== FILE: condition.dfy ===
/** The condition algebra of `condition.py`: atomic predicates, AND/OR
    groups, inversion, the conditional value chooser and the decorator that
    turns a predicate into a condition. */
module Conditions {
  import opened Wrappers
  import opened Values
  import Utils

  /** The keyword names a condition requires; `None` means any keywords are
      accepted and none are passed on to the predicate. */
  type ArgSet = Option<set<string>>

  /** What an atomic condition (`FuncCondition`) calls: a user predicate,
      identified by `id` and possibly bound to an owning instance, or one of
      the two state-membership predicates built by `state_event.py`. Each
      call there defines a fresh closure, and conditions compare their
      function by identity, so those carry a creation `id` too. */
  datatype Atom =
    | User(id: nat, instance: Option<Obj>)
    | OldStateIn(id: nat, states: set<string>)
    | NewStateIn(id: nat, states: set<string>)

  datatype Cond =
    | Leaf(args: ArgSet, inverted: bool, atom: Atom)
    | All(args: ArgSet, inverted: bool, children: seq<Cond>)
    | Any(args: ArgSet, inverted: bool, children: seq<Cond>)

  /** The user predicates: `Oracle(id, instance, kwargs)` is what the Python
      function returns for those arguments. */
  type Oracle = (nat, Option<Obj>, Kwargs) -> bool

  /** The assertion at the top of `Condition.__call__`. */
  predicate Accepts(args: ArgSet, kw: Kwargs) {
    args.None? || kw.Keys == args.value
  }

  /** `condition(**kw)`: check the keyword names, run, then apply the
      inversion flag. */
  function Eval(c: Cond, kw: Kwargs, oracle: Oracle): (r: Result<bool, Error>)
    ensures !Accepts(c.args, kw) ==> r == Failure(ArgumentMismatch)
    ensures Accepts(c.args, kw) && c.Leaf? && c.atom.User? ==>
      r == Success(oracle(c.atom.id, c.atom.instance, if c.args.None? then map[] else kw) != c.inverted)
    decreases c
  {
    if !Accepts(c.args, kw) then Failure(ArgumentMismatch)
    else
      var run := match c
        case Leaf(args, _, atom) => RunAtom(atom, args, kw, oracle)
        case All(_, _, children) => EvalAll(children, kw, oracle)
        case Any(_, _, children) => EvalAny(children, kw, oracle);
      if c.inverted then Not(run) else run
  }

  function Not(r: Result<bool, Error>): Result<bool, Error> {
    if r.Success? then Success(!r.value) else r
  }

  /** `FuncCondition._run`: without a declared argument set the predicate is
      called with no keywords at all. */
  function RunAtom(atom: Atom, args: ArgSet, kw: Kwargs, oracle: Oracle): Result<bool, Error>
  {
    var passed: Kwargs := if args.None? then map[] else kw;
    match atom
    case User(id, instance) => Success(oracle(id, instance, passed))
    case OldStateIn(_, states) => StateIn(passed, "old", states)
    case NewStateIn(_, states) => StateIn(passed, "new", states)
  }

  /** `kw[name].state in states`; reading `.state` of anything but a state
      (Home Assistant passes `None` for a created or removed entity) raises. */
  function StateIn(kw: Kwargs, name: string, states: set<string>): Result<bool, Error>
  {
    if name in kw && kw[name].StateValue? then Success(kw[name].state in states)
    else Failure(PredicateFailed)
  }

  /** `ConditionAnd._run`: children in order, stopping at the first false
      (or raising) child. */
  function EvalAll(children: seq<Cond>, kw: Kwargs, oracle: Oracle): Result<bool, Error>
    decreases children
  {
    if |children| == 0 then Success(true)
    else
      var first := Eval(children[0], kw, oracle);
      if first == Success(true) then EvalAll(children[1..], kw, oracle) else first
  }

  /** `ConditionOr._run`: children in order, stopping at the first true (or
      raising) child. */
  function EvalAny(children: seq<Cond>, kw: Kwargs, oracle: Oracle): Result<bool, Error>
    decreases children
  {
    if |children| == 0 then Success(false)
    else
      var first := Eval(children[0], kw, oracle);
      if first == Success(false) then EvalAny(children[1..], kw, oracle) else first
  }

  /** Left-to-right short-circuit conjunction of two evaluations. */
  function AndThen(a: Result<bool, Error>, b: Result<bool, Error>): Result<bool, Error> {
    if a == Success(true) then b else a
  }

  /** Left-to-right short-circuit disjunction of two evaluations. */
  function OrElse(a: Result<bool, Error>, b: Result<bool, Error>): Result<bool, Error> {
    if a == Success(false) then b else a
  }

  /** The first child that does not evaluate to true decides an AND; the
      children after it are never evaluated. */
  lemma {:induction false} EvalAllFirstNonTrue(children: seq<Cond>, kw: Kwargs, oracle: Oracle, i: nat)
    requires i <= |children|
    requires forall j :: 0 <= j < i ==> Eval(children[j], kw, oracle) == Success(true)
    requires i < |children| ==> Eval(children[i], kw, oracle) != Success(true)
    ensures EvalAll(children, kw, oracle) == if i < |children| then Eval(children[i], kw, oracle) else Success(true)
  {
    if i > 0 {
      assert Eval(children[0], kw, oracle) == Success(true);
      EvalAllFirstNonTrue(children[1..], kw, oracle, i - 1);
    }
  }

  /** The first child that does not evaluate to false decides an OR; the
      children after it are never evaluated. */
  lemma {:induction false} EvalAnyFirstNonFalse(children: seq<Cond>, kw: Kwargs, oracle: Oracle, i: nat)
    requires i <= |children|
    requires forall j :: 0 <= j < i ==> Eval(children[j], kw, oracle) == Success(false)
    requires i < |children| ==> Eval(children[i], kw, oracle) != Success(false)
    ensures EvalAny(children, kw, oracle) == if i < |children| then Eval(children[i], kw, oracle) else Success(false)
  {
    if i > 0 {
      assert Eval(children[0], kw, oracle) == Success(false);
      EvalAnyFirstNonFalse(children[1..], kw, oracle, i - 1);
    }
  }

  /** An AND is true iff every child is true. */
  lemma {:induction false} EvalAllTrueIff(children: seq<Cond>, kw: Kwargs, oracle: Oracle)
    ensures EvalAll(children, kw, oracle) == Success(true)
        <==> forall j :: 0 <= j < |children| ==> Eval(children[j], kw, oracle) == Success(true)
  {
    if |children| > 0 {
      EvalAllTrueIff(children[1..], kw, oracle);
      if Eval(children[0], kw, oracle) == Success(true) {
        assert forall j :: 1 <= j < |children| ==> children[j] == children[1..][j - 1];
      }
    }
  }

  /** Child `i` is the first child that is not false, and it is true. */
  ghost predicate FirstTrueAt(children: seq<Cond>, i: int, kw: Kwargs, oracle: Oracle) {
    && 0 <= i < |children| && Eval(children[i], kw, oracle) == Success(true)
    && forall j :: 0 <= j < i ==> Eval(children[j], kw, oracle) == Success(false)
  }

  /** An OR that is true has a first true child behind only false ones. */
  lemma {:induction false} EvalAnyTrueWitness(children: seq<Cond>, kw: Kwargs, oracle: Oracle)
    requires EvalAny(children, kw, oracle) == Success(true)
    ensures exists i :: FirstTrueAt(children, i, kw, oracle)
  {
    var rest := children[1..];
    if Eval(children[0], kw, oracle) == Success(false) {
      EvalAnyTrueWitness(rest, kw, oracle);
      var i :| FirstTrueAt(rest, i, kw, oracle);
      forall j | 0 < j <= i ensures Eval(children[j], kw, oracle) == Success(false) {
        assert children[j] == rest[j - 1];
      }
      assert children[i + 1] == rest[i];
      assert FirstTrueAt(children, i + 1, kw, oracle);
    } else {
      assert FirstTrueAt(children, 0, kw, oracle);
    }
  }

  /** An OR with a first true child behind only false ones is true. */
  lemma {:induction false} EvalAnyFromWitness(children: seq<Cond>, i: int, kw: Kwargs, oracle: Oracle)
    requires FirstTrueAt(children, i, kw, oracle)
    ensures EvalAny(children, kw, oracle) == Success(true)
    decreases i
  {
    if i > 0 {
      var rest := children[1..];
      assert Eval(children[0], kw, oracle) == Success(false);
      forall j | 0 <= j < i - 1 ensures Eval(rest[j], kw, oracle) == Success(false) {
        assert rest[j] == children[j + 1];
      }
      assert rest[i - 1] == children[i];
      assert FirstTrueAt(rest, i - 1, kw, oracle);
      EvalAnyFromWitness(rest, i - 1, kw, oracle);
    }
  }

  /** An OR is true iff some child is true and every child before it is false. */
  lemma EvalAnyTrueIff(children: seq<Cond>, kw: Kwargs, oracle: Oracle)
    ensures EvalAny(children, kw, oracle) == Success(true)
        <==> exists i :: 0 <= i < |children| && Eval(children[i], kw, oracle) == Success(true)
               && forall j :: 0 <= j < i ==> Eval(children[j], kw, oracle) == Success(false)
  {
    if EvalAny(children, kw, oracle) == Success(true) {
      EvalAnyTrueWitness(children, kw, oracle);
    }
    if exists i :: FirstTrueAt(children, i, kw, oracle) {
      var i :| FirstTrueAt(children, i, kw, oracle);
      EvalAnyFromWitness(children, i, kw, oracle);
    }
  }

  /** `~c` (`attrs.evolve` flipping `is_inverted`). */
  function Invert(c: Cond): (r: Cond)
    ensures r.args == c.args && r.inverted == !c.inverted
  {
    match c
    case Leaf(args, inverted, atom) => Leaf(args, !inverted, atom)
    case All(args, inverted, children) => All(args, !inverted, children)
    case Any(args, inverted, children) => Any(args, !inverted, children)
  }

  /** Inverting twice gives back the same condition, and an inverted
      condition evaluates to the negation of the original. */
  lemma InvertProperties(c: Cond, kw: Kwargs, oracle: Oracle)
    ensures Invert(Invert(c)) == c
    ensures Invert(c) != c
    ensures Eval(Invert(c), kw, oracle) == Not(Eval(c, kw, oracle))
    ensures Eval(c, kw, oracle).Success? ==> Eval(Invert(c), kw, oracle) == Success(!Eval(c, kw, oracle).value)
  {
  }

  /** `is_compatible`: a child fits a node when it accepts anything or has
      exactly the node's argument set. */
  predicate Compatible(node: ArgSet, child: ArgSet) {
    child.None? || child == node
  }

  /** `_validate_filters`, run whenever an AND/OR node is built. */
  function ValidateChildren(args: ArgSet, children: seq<Cond>): (r: Outcome<Error>)
    ensures r.Pass? <==> |children| >= 2 && forall i :: 0 <= i < |children| ==> Compatible(args, children[i].args)
  {
    if |children| < 2 then Fail(TooFewConditions)
    else if exists i :: 0 <= i < |children| && !Compatible(args, children[i].args) then Fail(ConditionIncompatible)
    else Pass
  }

  /** `ConditionAnd(args, inverted, children)` with its validator. */
  function MakeAll(args: ArgSet, inverted: bool, children: seq<Cond>): (r: Result<Cond, Error>)
    ensures r.Success? <==> ValidateChildren(args, children).Pass?
    ensures r.Success? ==> r.value == All(args, inverted, children)
  {
    var v := ValidateChildren(args, children);
    if v.Fail? then Failure(v.error) else Success(All(args, inverted, children))
  }

  /** `ConditionOr(args, inverted, children)` with its validator. */
  function MakeAny(args: ArgSet, inverted: bool, children: seq<Cond>): (r: Result<Cond, Error>)
    ensures r.Success? <==> ValidateChildren(args, children).Pass?
    ensures r.Success? ==> r.value == Any(args, inverted, children)
  {
    var v := ValidateChildren(args, children);
    if v.Fail? then Failure(v.error) else Success(Any(args, inverted, children))
  }

  /** The argument set of a composition: the left one when it is fixed. */
  function JoinArgs(a: ArgSet, b: ArgSet): ArgSet {
    if a.None? then b else a
  }

  /** Two argument sets clash when both are fixed and differ. */
  predicate Clash(a: ArgSet, b: ArgSet) {
    a.Some? && b.Some? && a != b
  }

  /** `a & b`: an uninverted AND absorbs `b` as a further child; anything
      else becomes the left child of a new two-child AND. */
  function Conj(a: Cond, b: Cond): (r: Result<Cond, Error>)
    ensures Clash(a.args, b.args) ==> r.Failure?
    ensures r.Success? ==>
      && r.value.All? && !r.value.inverted && r.value.args == JoinArgs(a.args, b.args)
      && |r.value.children| >= 2 && r.value.children[|r.value.children| - 1] == b
      && r.value.children[..|r.value.children| - 1] == (if a.All? && !a.inverted then a.children else [a])
  {
    var children := if a.All? && !a.inverted then a.children + [b] else [a, b];
    assert children[|children| - 1] == b;
    assert children[..|children| - 1] == if a.All? && !a.inverted then a.children else [a];
    assert Clash(a.args, b.args) ==> !Compatible(JoinArgs(a.args, b.args), children[|children| - 1].args);
    MakeAll(JoinArgs(a.args, b.args), false, children)
  }

  /** `a | b`: an uninverted OR absorbs `b`; anything else becomes the left
      child of a new two-child OR. */
  function Disj(a: Cond, b: Cond): (r: Result<Cond, Error>)
    ensures Clash(a.args, b.args) ==> r.Failure?
    ensures r.Success? ==>
      && r.value.Any? && !r.value.inverted && r.value.args == JoinArgs(a.args, b.args)
      && |r.value.children| >= 2 && r.value.children[|r.value.children| - 1] == b
      && r.value.children[..|r.value.children| - 1] == (if a.Any? && !a.inverted then a.children else [a])
  {
    var children := if a.Any? && !a.inverted then a.children + [b] else [a, b];
    assert children[|children| - 1] == b;
    assert children[..|children| - 1] == if a.Any? && !a.inverted then a.children else [a];
    assert Clash(a.args, b.args) ==> !Compatible(JoinArgs(a.args, b.args), children[|children| - 1].args);
    MakeAny(JoinArgs(a.args, b.args), false, children)
  }

  /** Every node of the tree passed its validator when it was built. */
  ghost predicate WellFormed(c: Cond)
    decreases c
  {
    match c
    case Leaf(_, _, _) => true
    case All(args, _, children) => ValidateChildren(args, children).Pass? && AllWellFormed(children)
    case Any(args, _, children) => ValidateChildren(args, children).Pass? && AllWellFormed(children)
  }

  ghost predicate AllWellFormed(cs: seq<Cond>)
    decreases cs
  {
    |cs| == 0 || (WellFormed(cs[0]) && AllWellFormed(cs[1..]))
  }

  lemma {:induction false} AllWellFormedIndex(cs: seq<Cond>)
    ensures AllWellFormed(cs) <==> forall i :: 0 <= i < |cs| ==> WellFormed(cs[i])
  {
    if |cs| > 0 {
      AllWellFormedIndex(cs[1..]);
      assert forall i :: 1 <= i < |cs| ==> cs[i] == cs[1..][i - 1];
    }
  }

  /** In a well-formed node whose own argument set is `None`, every child
      accepts any keywords too. */
  lemma NoneNodeHasNoneChildren(c: Cond)
    requires WellFormed(c) && !c.Leaf? && c.args.None?
    ensures forall i :: 0 <= i < |c.children| ==> c.children[i].args.None?
  {
  }

  /** `a & b` of well-formed conditions fails exactly when their argument
      sets clash; otherwise it is a well-formed, uninverted AND whose
      argument set is `a`'s when fixed and `b`'s otherwise, and whose children
      are `a`'s plus `b` (flattening) or exactly `[a, b]`. */
  lemma {:induction false} ConjShape(a: Cond, b: Cond)
    requires WellFormed(a) && WellFormed(b)
    ensures Conj(a, b).Failure? <==> Clash(a.args, b.args)
    ensures Conj(a, b).Success? ==>
      var r := Conj(a, b).value;
      && r.All? && !r.inverted && r.args == JoinArgs(a.args, b.args) && WellFormed(r)
      && r.children == (if a.All? && !a.inverted then a.children + [b] else [a, b])
  {
    var children := if a.All? && !a.inverted then a.children + [b] else [a, b];
    var args := JoinArgs(a.args, b.args);
    if a.All? && !a.inverted {
      if a.args.None? {
        NoneNodeHasNoneChildren(a);
      }
      assert forall i :: 0 <= i < |a.children| ==> children[i] == a.children[i];
      AllWellFormedIndex(a.children);
      AllWellFormedIndex(children);
    } else {
      assert children[1..] == [b];
      assert children[1..][1..] == [];
      AllWellFormedIndex(children);
    }
    if !Clash(a.args, b.args) {
      assert ValidateChildren(args, children).Pass?;
    } else {
      assert !Compatible(args, children[|children| - 1].args);
    }
  }

  /** `a | b` of well-formed conditions: the same shape law as for `&`. */
  lemma {:induction false} DisjShape(a: Cond, b: Cond)
    requires WellFormed(a) && WellFormed(b)
    ensures Disj(a, b).Failure? <==> Clash(a.args, b.args)
    ensures Disj(a, b).Success? ==>
      var r := Disj(a, b).value;
      && r.Any? && !r.inverted && r.args == JoinArgs(a.args, b.args) && WellFormed(r)
      && r.children == (if a.Any? && !a.inverted then a.children + [b] else [a, b])
  {
    var children := if a.Any? && !a.inverted then a.children + [b] else [a, b];
    var args := JoinArgs(a.args, b.args);
    if a.Any? && !a.inverted {
      if a.args.None? {
        NoneNodeHasNoneChildren(a);
      }
      assert forall i :: 0 <= i < |a.children| ==> children[i] == a.children[i];
      AllWellFormedIndex(a.children);
      AllWellFormedIndex(children);
    } else {
      assert children[1..] == [b];
      assert children[1..][1..] == [];
      AllWellFormedIndex(children);
    }
    if !Clash(a.args, b.args) {
      assert ValidateChildren(args, children).Pass?;
    } else {
      assert !Compatible(args, children[|children| - 1].args);
    }
  }

  lemma {:induction false} EvalAllAppend(cs: seq<Cond>, b: Cond, kw: Kwargs, oracle: Oracle)
    ensures EvalAll(cs + [b], kw, oracle) == AndThen(EvalAll(cs, kw, oracle), Eval(b, kw, oracle))
  {
    if |cs| == 0 {
      assert [b][1..] == [];
    } else {
      assert (cs + [b])[1..] == cs[1..] + [b];
      EvalAllAppend(cs[1..], b, kw, oracle);
    }
  }

  lemma {:induction false} EvalAnyAppend(cs: seq<Cond>, b: Cond, kw: Kwargs, oracle: Oracle)
    ensures EvalAny(cs + [b], kw, oracle) == OrElse(EvalAny(cs, kw, oracle), Eval(b, kw, oracle))
  {
    if |cs| == 0 {
      assert [b][1..] == [];
    } else {
      assert (cs + [b])[1..] == cs[1..] + [b];
      EvalAnyAppend(cs[1..], b, kw, oracle);
    }
  }

  /** Whenever `a & b` is built and called with keywords it accepts, it
      evaluates `a` and, only when that is true, `b`; flattening changes
      nothing about the value. */
  lemma {:induction false} ConjEval(a: Cond, b: Cond, kw: Kwargs, oracle: Oracle)
    requires Conj(a, b).Success?
    requires Accepts(Conj(a, b).value.args, kw)
    ensures Eval(Conj(a, b).value, kw, oracle) == AndThen(Eval(a, kw, oracle), Eval(b, kw, oracle))
  {
    var r := Conj(a, b).value;
    if a.All? && !a.inverted {
      EvalAllAppend(a.children, b, kw, oracle);
      assert Accepts(a.args, kw);
    } else {
      assert [a, b][1..] == [b];
      assert [a, b][1..][1..] == [];
      assert EvalAll([b], kw, oracle) == Eval(b, kw, oracle);
      assert Eval(r, kw, oracle) == EvalAll([a, b], kw, oracle);
    }
  }

  /** The same law for `a | b`. */
  lemma {:induction false} DisjEval(a: Cond, b: Cond, kw: Kwargs, oracle: Oracle)
    requires Disj(a, b).Success?
    requires Accepts(Disj(a, b).value.args, kw)
    ensures Eval(Disj(a, b).value, kw, oracle) == OrElse(Eval(a, kw, oracle), Eval(b, kw, oracle))
  {
    var r := Disj(a, b).value;
    if a.Any? && !a.inverted {
      EvalAnyAppend(a.children, b, kw, oracle);
      assert Accepts(a.args, kw);
    } else {
      assert [a, b][1..] == [b];
      assert [a, b][1..][1..] == [];
      assert EvalAny([b], kw, oracle) == Eval(b, kw, oracle);
      assert Eval(r, kw, oracle) == EvalAny([a, b], kw, oracle);
    }
  }

  /** `acc & c1 & c2 & ...`, left to right, starting from `c1` itself when
      there is no `acc`: how `>>` chains and the builder's base condition
      accumulate filters. */
  function ConjAll(acc: Option<Cond>, cs: seq<Cond>): (r: Result<Option<Cond>, Error>)
    ensures |cs| == 0 ==> r == Success(acc)
    ensures |cs| > 0 && r.Success? ==> r.value.Some?
    decreases |cs|
  {
    if |cs| == 0 then Success(acc)
    else
      var next :- if acc.None? then Success(cs[0]) else Conj(acc.value, cs[0]);
      ConjAll(Some(next), cs[1..])
  }

  /** The conditions an optional one stands for. */
  function Listed(c: Option<Cond>): seq<Cond> {
    if c.None? then [] else [c.value]
  }

  lemma EvalAllCons(c: Cond, cs: seq<Cond>, kw: Kwargs, oracle: Oracle)
    ensures EvalAll([c] + cs, kw, oracle) == AndThen(Eval(c, kw, oracle), EvalAll(cs, kw, oracle))
  {
    assert ([c] + cs)[1..] == cs;
  }

  /** Once the fold holds a condition with a fixed argument set, the result
      keeps that set. */
  lemma {:induction false} ConjAllArgs(c: Cond, cs: seq<Cond>)
    requires ConjAll(Some(c), cs).Success? && c.args.Some?
    ensures ConjAll(Some(c), cs).value == Some(ConjAll(Some(c), cs).value.value) && ConjAll(Some(c), cs).value.value.args == c.args
    decreases |cs|
  {
    if |cs| > 0 {
      var next := Conj(c, cs[0]).value;
      ConjAllArgs(next, cs[1..]);
    }
  }

  /** Called with keywords it accepts, a left fold of `&` evaluates its
      parts in order and is true exactly when all of them are: it is the
      short-circuit AND of the starting condition followed by every `cs[i]`. */
  lemma {:induction false} ConjAllEval(acc: Option<Cond>, cs: seq<Cond>, kw: Kwargs, oracle: Oracle)
    requires ConjAll(acc, cs).Success? && ConjAll(acc, cs).value.Some?
    requires Accepts(ConjAll(acc, cs).value.value.args, kw)
    ensures Eval(ConjAll(acc, cs).value.value, kw, oracle) == EvalAll(Listed(acc) + cs, kw, oracle)
    decreases |cs|
  {
    var whole := ConjAll(acc, cs).value.value;
    if |cs| == 0 {
      assert Listed(acc) + cs == [whole];
      EvalAllCons(whole, [], kw, oracle);
    } else {
      var next := if acc.None? then cs[0] else Conj(acc.value, cs[0]).value;
      var rest := cs[1..];
      assert ConjAll(acc, cs) == ConjAll(Some(next), rest);
      if next.args.Some? {
        ConjAllArgs(next, rest);
      }
      ConjAllEval(Some(next), rest, kw, oracle);
      EvalAllCons(next, rest, kw, oracle);
      ConjAllEvalStep(acc, cs, kw, oracle);
    }
  }

  /** One step of the fold: conjoining the first condition onto the
      accumulator and then the rest evaluates like all of them in a row. */
  lemma ConjAllEvalStep(acc: Option<Cond>, cs: seq<Cond>, kw: Kwargs, oracle: Oracle)
    requires |cs| > 0
    requires acc.Some? ==> Conj(acc.value, cs[0]).Success? && Accepts(Conj(acc.value, cs[0]).value.args, kw)
    ensures var next := if acc.None? then cs[0] else Conj(acc.value, cs[0]).value;
      AndThen(Eval(next, kw, oracle), EvalAll(cs[1..], kw, oracle)) == EvalAll(Listed(acc) + cs, kw, oracle)
  {
    var rest := cs[1..];
    EvalAllCons(cs[0], rest, kw, oracle);
    assert [cs[0]] + rest == cs;
    if acc.Some? {
      ConjEval(acc.value, cs[0], kw, oracle);
      EvalAllCons(acc.value, cs, kw, oracle);
      assert Listed(acc) + cs == [acc.value] + cs;
    } else {
      assert Listed(acc) + cs == cs;
    }
  }

  /** A condition called with keywords other than its fixed set fails; one
      whose set is `None` ignores the keywords entirely. */
  lemma {:induction false} ArgumentsChecked(c: Cond, kw: Kwargs, kw2: Kwargs, oracle: Oracle)
    ensures c.args.Some? && kw.Keys != c.args.value ==> Eval(c, kw, oracle) == Failure(ArgumentMismatch)
    ensures c.Leaf? && c.args.None? ==> Eval(c, kw, oracle) == Eval(c, kw2, oracle)
  {
  }

  /** `ConditionValue`: the value `c[t, f]` chooses between. */
  datatype Chooser = Chooser(condition: Cond, trueCase: Value, falseCase: Value)

  /** `ConditionValue.__call__(**kw)`: `t` exactly when the condition holds,
      `f` exactly when it does not, and whatever the condition raises. */
  function Choose(v: Chooser, kw: Kwargs, oracle: Oracle): (r: Result<Value, Error>)
    ensures Eval(v.condition, kw, oracle) == Success(true) ==> r == Success(v.trueCase)
    ensures Eval(v.condition, kw, oracle) == Success(false) ==> r == Success(v.falseCase)
    ensures r.Failure? <==> Eval(v.condition, kw, oracle).Failure?
    ensures r.Failure? ==> r.error == Eval(v.condition, kw, oracle).error
  {
    var holds := Eval(v.condition, kw, oracle);
    if holds.Failure? then Failure(holds.error)
    else if holds.value then Success(v.trueCase) else Success(v.falseCase)
  }

  /** The result of the condition decorator: a method becomes a descriptor
      that binds its instance on attribute access; anything else becomes an
      atomic condition straight away. */
  datatype Decorated =
    | Descriptor(args: ArgSet, id: nat)
    | Ready(condition: Cond)

  /** `condition_decorator_factory(arguments)(func)`, where `signature` is
      the parameter list `inspect.signature` reports for `func`. */
  function Decorate(arguments: ArgSet, id: nat, signature: seq<string>): (r: Result<Decorated, Error>)
    ensures var params := Utils.FunctionOrMethodAndParams(signature).1;
      r.Success? <==> if arguments.None? then |params| == 0 else ParamSet(params) == arguments.value
    ensures r.Failure? ==> r.error == BadConditionSignature
    ensures r.Success? ==> (r.value.Descriptor? <==> Utils.FunctionOrMethodAndParams(signature).0)
    ensures r.Success? && r.value.Ready? ==> r.value.condition == Leaf(arguments, false, User(id, None))
    ensures r.Success? && r.value.Descriptor? ==> r.value.args == arguments && r.value.id == id
  {
    var (isMethod, params) := Utils.FunctionOrMethodAndParams(signature);
    if (arguments.None? && |params| > 0) || (arguments.Some? && ParamSet(params) != arguments.value) then
      Failure(BadConditionSignature)
    else if isMethod then Success(Descriptor(arguments, id))
    else Success(Ready(Leaf(arguments, false, User(id, None))))
  }

  function ParamSet(params: seq<string>): set<string> {
    set i | 0 <= i < |params| :: params[i]
  }

  /** `ConditionDescriptor.__get__(instance)`. */
  function Bind(d: Decorated, instance: Obj): Cond
    requires d.Descriptor?
  {
    Leaf(d.args, false, User(d.id, Some(instance)))
  }
}

=== FILE: events.dfy ===
/** What `StateEvent` and `BusEvent` share: an immutable key (entity id or
    event type) with an optional filter condition, the validator that checks
    the filter's argument set, and `>>`, which conjoins a further filter. */
module Events {
  import opened Wrappers
  import opened Values
  import opened Conditions

  /** Which of the two event classes a value belongs to. */
  datatype Kind = StateChange | Bus

  /** `StateEvent(entity_id, condition)` or `BusEvent(event_type, condition)`. */
  datatype Event = Event(kind: Kind, key: string, condition: Option<Cond>)

  /** `STATE_EVENT_FILTER_ARGS` and `EVENT_FILTER_ARGS`: the keywords a
      filter of that kind of event is called with. */
  function FilterArgs(kind: Kind): set<string> {
    match kind
    case StateChange => {"entity_id", "old", "new"}
    case Bus => {"event"}
  }

  /** The `condition` validator: no filter, or one that accepts any
      keywords, or one whose argument set is exactly the event's. */
  predicate Admissible(kind: Kind, condition: Option<Cond>) {
    condition.None? || condition.value.args.None? || condition.value.args.value == FilterArgs(kind)
  }

  /** Building an event, which `attrs` does on construction and on every
      `attrs.evolve`: the validator raises for an inadmissible filter. */
  function MakeEvent(kind: Kind, key: string, condition: Option<Cond>): (r: Result<Event, Error>)
    ensures r.Success? <==> Admissible(kind, condition)
    ensures r.Success? ==> r.value == Event(kind, key, condition)
    ensures r.Failure? ==> r.error == EventIncompatible
  {
    if Admissible(kind, condition) then Success(Event(kind, key, condition)) else Failure(EventIncompatible)
  }

  /** An event as the validator and the condition constructors leave it. */
  ghost predicate Valid(e: Event) {
    Admissible(e.kind, e.condition) && (e.condition.Some? ==> WellFormed(e.condition.value))
  }

  /** `e >> c`: `c` becomes the filter of an unfiltered event, otherwise the
      filter becomes `e.condition & c`; the result is validated again. */
  function Filter(e: Event, c: Cond): (r: Result<Event, Error>)
    ensures r.Success? ==> r.value.kind == e.kind && r.value.key == e.key && r.value.condition.Some?
    ensures e.condition.None? ==> r == MakeEvent(e.kind, e.key, Some(c))
  {
    if e.condition.None? then MakeEvent(e.kind, e.key, Some(c))
    else
      var joined := Conj(e.condition.value, c);
      if joined.Failure? then Failure(joined.error) else MakeEvent(e.kind, e.key, Some(joined.value))
  }

  /** On a valid event, `>> c` with a well-formed `c` succeeds exactly when
      `c` alone would pass the validator, and the result is valid again. */
  lemma FilterSucceeds(e: Event, c: Cond)
    requires Valid(e) && WellFormed(c)
    ensures Filter(e, c).Success? <==> Admissible(e.kind, Some(c))
    ensures Filter(e, c).Success? ==> Valid(Filter(e, c).value)
  {
    if e.condition.Some? {
      ConjShape(e.condition.value, c);
    }
  }

  /** A filtered event's condition evaluates the old filter and then, only
      when that holds, the new one. */
  lemma FilterEval(e: Event, c: Cond, kw: Kwargs, oracle: Oracle)
    requires Filter(e, c).Success?
    requires Accepts(Filter(e, c).value.condition.value.args, kw)
    ensures Eval(Filter(e, c).value.condition.value, kw, oracle)
         == if e.condition.None? then Eval(c, kw, oracle) else AndThen(Eval(e.condition.value, kw, oracle), Eval(c, kw, oracle))
  {
    if e.condition.Some? {
      ConjEval(e.condition.value, c, kw, oracle);
    }
  }

  /** For an unfiltered event, `e >> c1 >> c2` and `e >> (c1 & c2)` agree:
      one succeeds exactly when the other does, with the same event. */
  lemma FilterChain(e: Event, c1: Cond, c2: Cond)
    requires e.condition.None?
    ensures (Filter(e, c1).Success? && Filter(Filter(e, c1).value, c2).Success?)
        <==> (Conj(c1, c2).Success? && Filter(e, Conj(c1, c2).value).Success?)
    ensures Filter(e, c1).Success? && Filter(Filter(e, c1).value, c2).Success? ==>
      Filter(Filter(e, c1).value, c2).value == Filter(e, Conj(c1, c2).value).value
  {
    if Conj(c1, c2).Success? {
      var j := Conj(c1, c2).value;
      assert j.args == JoinArgs(c1.args, c2.args);
    }
  }
}

=== FILE: home_script.dfy ===
/** `home_script/__init__.py`: the engine a host loads once (a registry of
    state-event triggers and the scripts), the registration of a whole event
    schema under a named script, the delivery of one state change, and the
    logger naming rule. */
module HomeScript {
  import opened Wrappers
  import opened Values
  import opened Conditions
  import opened Actions
  import opened Events
  import opened Tables
  import opened Schema
  import opened Scripts
  import opened Dispatch

  /** `HomeScript`: the state-event registry, the scripts by name, and the
      id the host will give the next task it creates. */
  datatype Engine = Engine(registry: Registry, scripts: Manager, nextTask: TaskId)

  /** The module globals `home_script` and `logger_name`. */
  datatype Globals = Globals(engine: Option<Engine>, loggerName: Option<string>)

  const Unloaded := Globals(None, None)

  /** `HomeScript.load`: nothing registered, no scripts. */
  const Fresh := Engine(map[], Manager(map[]), 0)

  /** `init`: refused when already initialised. */
  function Init(g: Globals, loggerName: string): (r: Result<Globals, Error>)
    ensures r.Success? <==> g.engine.None?
    ensures r.Failure? ==> r.error == AssertionFailed("Init before unload")
    ensures r.Success? ==> r.value.engine.Some? && r.value.loggerName == Some(loggerName)
  {
    if g.engine.Some? then Failure(AssertionFailed("Init before unload"))
    else Success(Globals(Some(Fresh), Some(loggerName)))
  }

  /** `unload`: refused when not initialised; the logger name stays. */
  function Unload(g: Globals): (r: Result<Globals, Error>)
    ensures r.Success? <==> g.engine.Some?
    ensures r.Failure? ==> r.error == AssertionFailed("Unload without load")
    ensures r.Success? ==> r.value.engine.None? && r.value.loggerName == g.loggerName
  {
    if g.engine.None? then Failure(AssertionFailed("Unload without load"))
    else Success(g.(engine := None))
  }

  /** Loading and unloading alternate: a second `init` fails, an `unload`
      after `init` succeeds and leaves a state in which `init` works again,
      and a second `unload` fails. */
  lemma Lifecycle(g: Globals, name: string, other: string)
    requires g.engine.None?
    ensures var g1 := Init(g, name).value;
      && Init(g1, other).Failure?
      && Unload(g1).Success?
      && Unload(Unload(g1).value).Failure?
      && Init(Unload(g1).value, other).Success?
      && Init(Unload(g1).value, other).value.engine == g1.engine
  {
  }

  const LibraryPrefix := "home_script."

  /** `name.startswith(prefix)`. */
  predicate StartsWith(name: string, prefix: string) {
    |prefix| <= |name| && name[..|prefix|] == prefix
  }

  /** `get_logger(name)`: the library's own loggers keep their name; any
      other name goes under `<logger_name>.custom_module.`, which fails while
      there is no logger name yet. */
  function GetLogger(g: Globals, name: string): (r: Result<string, Error>)
    ensures StartsWith(name, LibraryPrefix) ==> r == Success(name)
    ensures !StartsWith(name, LibraryPrefix) ==>
      && (r.Success? <==> g.loggerName.Some?)
      && (r.Success? ==> r.value == g.loggerName.value + ".custom_module." + name)
  {
    if StartsWith(name, LibraryPrefix) then Success(name)
    else if g.loggerName.None? then Failure(MissingLoggerName)
    else Success(g.loggerName.value + ".custom_module." + name)
  }

  /** When the integration's own logger lives under the library prefix,
      naming is idempotent: a logger name once produced is kept as it is. */
  lemma GetLoggerIdempotent(g: Globals, name: string)
    requires g.loggerName.Some? && StartsWith(g.loggerName.value, LibraryPrefix)
    ensures GetLogger(g, name).Success?
    ensures GetLogger(g, GetLogger(g, name).value) == GetLogger(g, name)
  {
    var r := GetLogger(g, name).value;
    if !StartsWith(name, LibraryPrefix) {
      assert r[..|LibraryPrefix|] == g.loggerName.value[..|LibraryPrefix|];
    }
  }

  /** `_add_state_event_actions`: every action is added in turn; the first
      refusal stops, keeping what was added before it. */
  function RegisterActions(reg: Registry, event: Event, script: string, actions: seq<Action>): (r: (Registry, Outcome<Error>))
    decreases |actions|
  {
    if |actions| == 0 then (reg, Pass)
    else
      var added := Add(reg, event, script, actions[0]);
      if added.Failure? then (reg, Fail(added.error))
      else RegisterActions(added.value, event, script, actions[1..])
  }

  /** The registrations of one script's actions under one event. */
  function Registrations(event: Event, script: string, actions: seq<Action>): (r: seq<Registration>)
    ensures |r| == |actions|
    ensures forall i :: 0 <= i < |r| ==> r[i] == Registration(event, script, actions[i])
  {
    if |actions| == 0 then [] else [Registration(event, script, actions[0])] + Registrations(event, script, actions[1..])
  }

  /** With an entity id, all actions are registered in list order after the
      entity's earlier registrations, and no other entity changes; without
      one, the first action is refused and nothing changes. */
  lemma {:induction false} RegisterActionsSemantics(reg: Registry, event: Event, script: string, actions: seq<Action>, id: string)
    ensures event.key != "" ==>
      && RegisterActions(reg, event, script, actions).1 == Pass
      && Triggers(RegisterActions(reg, event, script, actions).0, id)
         == Triggers(reg, id) + (if id == event.key then Registrations(event, script, actions) else [])
    ensures event.key == "" && |actions| > 0 ==> RegisterActions(reg, event, script, actions) == (reg, Fail(AssertionFailed("Empty entity ID in entity state trigger")))
    decreases |actions|
  {
    if |actions| > 0 && event.key != "" {
      var next := Add(reg, event, script, actions[0]).value;
      RegisterActionsSemantics(next, event, script, actions[1..], id);
      if id == event.key {
        ConcatAssoc(Triggers(reg, id), [Registration(event, script, actions[0])], Registrations(event, script, actions[1..]));
      }
    }
  }

  /** An entry `add_event_script` accepts: a state event whose actions can
      be added. */
  predicate Registrable(entry: (Event, seq<Action>)) {
    entry.0.kind == StateChange && (entry.0.key != "" || |entry.1| == 0)
  }

  /** The loop of `add_event_script` over the normalised schema: a bus event
      raises, and what was registered before stays. */
  function RegisterAll(reg: Registry, table: Table<Event, Action>, script: string): (r: (Registry, Outcome<Error>))
    decreases |table|
  {
    if |table| == 0 then (reg, Pass)
    else if table[0].0.kind == Bus then (reg, Fail(AssertionFailed("Unknown event")))
    else
      var (next, o) := RegisterActions(reg, table[0].0, script, table[0].1);
      if o.Fail? then (next, o) else RegisterAll(next, table[1..], script)
  }

  /** All registrations of a schema for one entity, in table order. */
  function RegistrationsFor(table: Table<Event, Action>, script: string, id: string): seq<Registration> {
    if |table| == 0 then []
    else (if table[0].0.key == id then Registrations(table[0].0, script, table[0].1) else []) + RegistrationsFor(table[1..], script, id)
  }

  /** Registering a table succeeds exactly when every entry is registrable. */
  lemma {:induction false} RegisterAllPass(reg: Registry, table: Table<Event, Action>, script: string)
    ensures RegisterAll(reg, table, script).1 == Pass <==> forall i :: 0 <= i < |table| ==> Registrable(table[i])
    decreases |table|
  {
    if |table| > 0 {
      var (event, actions) := table[0];
      var rest := table[1..];
      assert forall i :: 1 <= i < |table| ==> table[i] == rest[i - 1];
      if event.kind != Bus {
        RegisterActionsSemantics(reg, event, script, actions, event.key);
        var (next, o) := RegisterActions(reg, event, script, actions);
        assert o == Pass <==> Registrable(table[0]);
        if o == Pass {
          assert RegisterAll(reg, table, script) == RegisterAll(next, rest, script);
          RegisterAllPass(next, rest, script);
        }
      }
    }
  }

  /** After a successful registration each entity's registrations are its
      earlier ones followed by those of every entry for it, in table order. */
  lemma {:induction false} RegisterAllTriggers(reg: Registry, table: Table<Event, Action>, script: string, id: string)
    requires RegisterAll(reg, table, script).1 == Pass
    ensures Triggers(RegisterAll(reg, table, script).0, id) == Triggers(reg, id) + RegistrationsFor(table, script, id)
    decreases |table|
  {
    if |table| > 0 {
      var (event, actions) := table[0];
      var rest := table[1..];
      RegisterActionsSemantics(reg, event, script, actions, id);
      var (next, o) := RegisterActions(reg, event, script, actions);
      assert RegisterAll(reg, table, script) == RegisterAll(next, rest, script);
      var mine := if event.key == id then Registrations(event, script, actions) else [];
      assert RegistrationsFor(table, script, id) == mine + RegistrationsFor(rest, script, id);
      if |actions| == 0 {
        assert next == reg && mine == [];
      }
      assert Triggers(next, id) == Triggers(reg, id) + mine;
      RegisterAllTriggers(next, rest, script, id);
      ConcatAssoc(Triggers(reg, id), mine, RegistrationsFor(rest, script, id));
    }
  }

  /** Registering a table succeeds exactly when every entry is registrable,
      and then each entity's registrations are its earlier ones followed by
      those of every entry for it, in table order. */
  lemma RegisterAllSemantics(reg: Registry, table: Table<Event, Action>, script: string, id: string)
    ensures RegisterAll(reg, table, script).1 == Pass <==> forall i :: 0 <= i < |table| ==> Registrable(table[i])
    ensures RegisterAll(reg, table, script).1 == Pass ==>
      Triggers(RegisterAll(reg, table, script).0, id) == Triggers(reg, id) + RegistrationsFor(table, script, id)
  {
    RegisterAllPass(reg, table, script);
    if RegisterAll(reg, table, script).1 == Pass {
      RegisterAllTriggers(reg, table, script, id);
    }
  }

  /** A bus event in the table: everything registered for the entries
      before it stays, and nothing after it is registered. */
  lemma {:induction false} RegisterAllStopsAtBus(reg: Registry, table: Table<Event, Action>, script: string, j: nat)
    requires j < |table| && table[j].0.kind == Bus
    requires forall i :: 0 <= i < j ==> Registrable(table[i])
    ensures RegisterAll(reg, table, script) == (RegisterAll(reg, table[..j], script).0, Fail(AssertionFailed("Unknown event")))
    decreases j
  {
    if j > 0 {
      var (event, actions) := table[0];
      RegisterActionsSemantics(reg, event, script, actions, event.key);
      var next := RegisterActions(reg, event, script, actions).0;
      if event.key == "" {
        assert RegisterActions(reg, event, script, actions) == (reg, Pass);
      }
      assert table[1..][j - 1] == table[j];
      assert forall i :: 0 <= i < j - 1 ==> table[1..][i] == table[i + 1];
      RegisterAllStopsAtBus(next, table[1..], script, j - 1);
      assert table[..j][1..] == table[1..][..j - 1];
      assert table[..j][0] == table[0];
    }
  }

  /** `add_event_script(script_name, event_schema)`: the script is looked up
      (and created) first, the whole schema is normalised before anything is
      registered, then every entry's actions are registered under the
      script. */
  function AddEventScript(e: Engine, name: string, schema: EventSchema, oracle: Oracle): (r: (Engine, Outcome<Error>))
    ensures name == "" ==> r == (e, Fail(AssertionFailed("Empty script name")))
    ensures name != "" ==> name in r.0.scripts.scripts && r.0.nextTask == e.nextTask
    ensures name != "" && NormalizeSchema(schema, oracle).Failure? ==>
      r.0.registry == e.registry && r.1 == Fail(NormalizeSchema(schema, oracle).error)
    ensures r.1 == Pass <==>
      && name != ""
      && NormalizeSchema(schema, oracle).Success?
      && forall i :: 0 <= i < |NormalizeSchema(schema, oracle).value| ==> Registrable(NormalizeSchema(schema, oracle).value[i])
  {
    var got := GetScript(e.scripts, name);
    if got.Failure? then (e, Fail(got.error))
    else
      var e1 := e.(scripts := got.value.0);
      var table := NormalizeSchema(schema, oracle);
      if table.Failure? then (e1, Fail(table.error))
      else
        RegisterAllPass(e1.registry, table.value, name);
        var (reg, o) := RegisterAll(e1.registry, table.value, name);
        (e1.(registry := reg), o)
  }

  /** After a successful `add_event_script` each entity has its earlier
      registrations followed by the schema's registrations for it, in the
      order of the normalised table. */
  lemma AddEventScriptSemantics(e: Engine, name: string, schema: EventSchema, oracle: Oracle, id: string)
    ensures AddEventScript(e, name, schema, oracle).1 == Pass ==>
      Triggers(AddEventScript(e, name, schema, oracle).0.registry, id)
        == Triggers(e.registry, id) + RegistrationsFor(NormalizeSchema(schema, oracle).value, name, id)
  {
    var table := NormalizeSchema(schema, oracle);
    if name != "" && table.Success? {
      RegisterAllSemantics(e.registry, table.value, name, id);
    }
  }

  /** The engine invariant: scripts filed by name and valid, every task id
      already handed out, and every registration naming a script that
      exists. */
  ghost predicate EngineValid(e: Engine) {
    && ManagerValid(e.scripts)
    && (forall n, t :: n in e.scripts.scripts && t in e.scripts.scripts[n].tasks ==> t < e.nextTask)
    && Named(e.registry, e.scripts)
  }

  /** Every registration names a script of the manager. */
  ghost predicate Named(reg: Registry, m: Manager) {
    forall id, r :: id in reg && r in reg[id] ==> r.script in m.scripts
  }

  /** Carrying out one of the listener's calls: `cancel_all_tasks` or
      `run_action` on the named script. A script of a registration always
      exists in a valid engine; the first branch keeps the function total. */
  function ApplyOne(e: Engine, effect: Effect, oracle: Oracle): (r: Result<Engine, Error>)
    ensures r.Success? ==>
      && r.value.registry == e.registry
      && r.value.scripts.scripts.Keys == e.scripts.scripts.Keys
      && r.value.nextTask >= e.nextTask
      && forall n :: n in e.scripts.scripts && n != effect.script ==> r.value.scripts.scripts[n] == e.scripts.scripts[n]
    ensures effect.script !in e.scripts.scripts ==> r == Success(e)
    ensures effect.script in e.scripts.scripts && effect.Cancel? ==>
      && r.Success? && r.value.nextTask == e.nextTask
      && r.value.scripts.scripts[effect.script] == CancelAllTasks(e.scripts.scripts[effect.script])
    ensures effect.script in e.scripts.scripts && effect.Start? ==>
      var ran := RunAction(e.scripts.scripts[effect.script], effect.action, e.nextTask, oracle);
      && (r.Success? <==> ran.Success?)
      && (r.Success? ==>
            && r.value.scripts.scripts[effect.script] == ran.value.0
            && (r.value.nextTask == e.nextTask + 1 <==> ran.value.1.Spawned?)
            && (r.value.nextTask == e.nextTask <==> !ran.value.1.Spawned?))
  {
    var name := effect.script;
    if name !in e.scripts.scripts then Success(e)
    else
      var s := e.scripts.scripts[name];
      match effect
      case Cancel(_) => Success(e.(scripts := Manager(e.scripts.scripts[name := CancelAllTasks(s)])))
      case Start(_, a) =>
        var (s', ran) :- RunAction(s, a, e.nextTask, oracle);
        var next := if ran.Spawned? then e.nextTask + 1 else e.nextTask;
        Success(Engine(e.registry, Manager(e.scripts.scripts[name := s']), next))
  }

  /** Carrying out the listener's calls on the scripts, in order. */
  function Apply(e: Engine, effects: seq<Effect>, oracle: Oracle): (r: Result<Engine, Error>)
    ensures r.Success? ==>
      && r.value.registry == e.registry
      && r.value.scripts.scripts.Keys == e.scripts.scripts.Keys
      && r.value.nextTask >= e.nextTask
    decreases |effects|
  {
    if |effects| == 0 then Success(e)
    else
      var e1 :- ApplyOne(e, effects[0], oracle);
      Apply(e1, effects[1..], oracle)
  }

  /** Whether an effect concerns the named script. */
  predicate Mentions(effects: seq<Effect>, name: string) {
    exists i :: 0 <= i < |effects| && effects[i].script == name
  }

  /** How one call changes the script it names, `next` being the id of the
      next task: `cancel_all_tasks` asks every live task to cancel and
      starts none; `run_action` of an async action on a running script adds
      task `next`, which it did not hold, and otherwise leaves the tasks
      alone. No task is removed and no cancellation request withdrawn. */
  ghost predicate Transition(s: Script, effect: Effect, next: TaskId, s': Script, next': TaskId) {
    var spawns := effect.Start? && !s.stopped && IsAsync(effect.action);
    && s.tasks <= s'.tasks && s.cancelling <= s'.cancelling
    && s'.stopped == s.stopped
    && (effect.Cancel? ==> s'.tasks == s.tasks && s'.cancelling == s.cancelling + s.tasks)
    && (effect.Start? ==> s'.tasks == s.tasks + (if spawns then {next} else {}) && s'.cancelling == s.cancelling)
    && next' == next + (if spawns then 1 else 0)
    && (spawns ==> next !in s.tasks)
  }

  /** On a valid engine, one call moves the script it names by `Transition`. */
  lemma ApplyOneNamed(e: Engine, effect: Effect, oracle: Oracle)
    requires EngineValid(e) && effect.script in e.scripts.scripts
    ensures ApplyOne(e, effect, oracle).Success?
    ensures var e' := ApplyOne(e, effect, oracle).value;
      Transition(e.scripts.scripts[effect.script], effect, e.nextTask, e'.scripts.scripts[effect.script], e'.nextTask)
  {
    var s := e.scripts.scripts[effect.script];
    assert e.nextTask !in s.tasks;
  }

  /** One call on a valid engine: it never fails (the next task id is
      fresh), keeps the engine valid, never touches the registry, keeps the
      set of scripts and their stopped flags, moves the script it names by
      `Transition` and changes no other script. */
  lemma ApplyOneSemantics(e: Engine, effect: Effect, oracle: Oracle)
    requires EngineValid(e)
    ensures ApplyOne(e, effect, oracle).Success?
    ensures var e' := ApplyOne(e, effect, oracle).value;
      && EngineValid(e')
      && e'.registry == e.registry
      && e'.scripts.scripts.Keys == e.scripts.scripts.Keys
      && e'.nextTask >= e.nextTask
      && (forall n :: n in e.scripts.scripts ==> e'.scripts.scripts[n].stopped == e.scripts.scripts[n].stopped)
      && (forall n :: n in e.scripts.scripts && n != effect.script ==> e'.scripts.scripts[n] == e.scripts.scripts[n])
      && (effect.script in e.scripts.scripts ==>
            Transition(e.scripts.scripts[effect.script], effect, e.nextTask, e'.scripts.scripts[effect.script], e'.nextTask))
  {
    var name := effect.script;
    if name in e.scripts.scripts {
      ApplyOneNamed(e, effect, oracle);
    }
    if name in e.scripts.scripts && effect.Start? {
      var s := e.scripts.scripts[name];
      assert e.nextTask !in s.tasks;
      var (s', ran) := RunAction(s, effect.action, e.nextTask, oracle).value;
      assert s'.tasks <= s.tasks + {e.nextTask};
    }
  }

  /** How many of the actions are async, each of which becomes a task. */
  function AsyncCount(actions: seq<Action>): (k: nat)
    ensures k <= |actions|
    ensures k == 0 <==> forall i :: 0 <= i < |actions| ==> !IsAsync(actions[i])
  {
    if |actions| == 0 then 0
    else
      var k := AsyncCount(actions[1..]);
      assert forall i :: 1 <= i < |actions| ==> actions[i] == actions[1..][i - 1];
      (if IsAsync(actions[0]) then 1 else 0) + k
  }

  lemma AsyncCountCons(a: Action, rest: seq<Action>)
    ensures AsyncCount([a] + rest) == (if IsAsync(a) then 1 else 0) + AsyncCount(rest)
  {
    assert ([a] + rest)[1..] == rest;
  }

  /** What a run of calls does to the script `s` named `n`, leaving `s'`:
      no task is removed and no cancellation request withdrawn; once `n` has
      been cancelled, every task it held before is asked to cancel, and if it
      never is, no new request appears; unless it is stopped, it gains one
      task per async action started on it. */
  ghost predicate Affected(s: Script, effects: seq<Effect>, n: string, s': Script) {
    && s.tasks <= s'.tasks && s.cancelling <= s'.cancelling
    && (CancelCount(effects, n) > 0 ==> s.tasks <= s'.cancelling)
    && (CancelCount(effects, n) == 0 ==> s'.cancelling == s.cancelling)
    && |s'.tasks| == |s.tasks| + (if s.stopped then 0 else AsyncCount(StartsFor(effects, n)))
  }

  /** Applying effects to a valid engine moves each of its scripts by
      `Affected`. */
  lemma {:induction false} ApplyScript(e: Engine, effects: seq<Effect>, oracle: Oracle, n: string)
    requires EngineValid(e) && n in e.scripts.scripts
    ensures Apply(e, effects, oracle).Success?
    ensures Affected(e.scripts.scripts[n], effects, n, Apply(e, effects, oracle).value.scripts.scripts[n])
    decreases |effects|
  {
    var s := e.scripts.scripts[n];
    if |effects| == 0 {
      assert Apply(e, effects, oracle) == Success(e);
    } else {
      var rest := effects[1..];
      ApplyOneSemantics(e, effects[0], oracle);
      var e1 := ApplyOne(e, effects[0], oracle).value;
      assert Apply(e, effects, oracle) == Apply(e1, rest, oracle);
      ApplyScript(e1, rest, oracle, n);
      AffectedStep(s, effects, n, e.nextTask, e1.scripts.scripts[n], e1.nextTask, Apply(e1, rest, oracle).value.scripts.scripts[n]);
    }
  }

  /** One call followed by the rest: `Affected` composes with the call's
      `Transition` (or with no change, for a call on another script). */
  lemma AffectedStep(s: Script, effects: seq<Effect>, n: string, next: TaskId, s1: Script, next1: TaskId, s': Script)
    requires |effects| > 0
    requires if effects[0].script == n then Transition(s, effects[0], next, s1, next1) else s1 == s
    requires Affected(s1, effects[1..], n, s')
    ensures Affected(s, effects, n, s')
  {
    var rest := effects[1..];
    if effects[0].script == n {
      if effects[0].Start? {
        var a := effects[0].action;
        assert StartsFor(effects, n) == [a] + StartsFor(rest, n);
        AsyncCountCons(a, StartsFor(rest, n));
        if !s.stopped && IsAsync(a) {
          assert |s1.tasks| == |s.tasks| + 1;
        }
      } else {
        assert StartsFor(effects, n) == StartsFor(rest, n);
      }
    } else {
      assert StartsFor(effects, n) == StartsFor(rest, n);
    }
  }

  /** Applying effects to a valid engine never fails (task ids are never
      reused), keeps it valid, never touches the registry, keeps the set of
      scripts and their stopped flags, moves every script by `Affected`, and
      leaves every script the effects do not mention exactly as it was. */
  lemma {:induction false} ApplySemantics(e: Engine, effects: seq<Effect>, oracle: Oracle)
    requires EngineValid(e)
    ensures Apply(e, effects, oracle).Success?
    ensures var e' := Apply(e, effects, oracle).value;
      && EngineValid(e')
      && e'.registry == e.registry
      && e'.scripts.scripts.Keys == e.scripts.scripts.Keys
      && e'.nextTask >= e.nextTask
      && (forall n :: n in e.scripts.scripts ==> e'.scripts.scripts[n].stopped == e.scripts.scripts[n].stopped)
      && (forall n :: n in e.scripts.scripts && !Mentions(effects, n) ==> e'.scripts.scripts[n] == e.scripts.scripts[n])
      && (forall n :: n in e.scripts.scripts ==> Affected(e.scripts.scripts[n], effects, n, e'.scripts.scripts[n]))
    decreases |effects|
  {
    forall n | n in e.scripts.scripts
      ensures Apply(e, effects, oracle).Success?
      ensures Affected(e.scripts.scripts[n], effects, n, Apply(e, effects, oracle).value.scripts.scripts[n])
    {
      ApplyScript(e, effects, oracle, n);
    }
    if |effects| > 0 {
      var rest := effects[1..];
      forall n | Mentions(rest, n) ensures Mentions(effects, n) {
        var i :| 0 <= i < |rest| && rest[i].script == n;
        assert effects[i + 1].script == n;
      }
      assert Mentions(effects, effects[0].script) by {
        assert effects[0].script == effects[0].script;
      }
      ApplyOneSemantics(e, effects[0], oracle);
      var e1 := ApplyOne(e, effects[0], oracle).value;
      assert Apply(e, effects, oracle) == Apply(e1, rest, oracle);
      ApplySemantics(e1, rest, oracle);
    }
  }

  /** The state-changed listener: plan from the registry, then act on the
      scripts. */
  function HandleStateChanged(e: Engine, entityId: string, before: Value, after: Value, oracle: Oracle): (r: Result<Engine, Error>)
    ensures Plan(e.registry, entityId, before, after, oracle).Failure? ==>
      r == Failure(Plan(e.registry, entityId, before, after, oracle).error)
    ensures r.Success? ==> r.value.registry == e.registry && r.value.scripts.scripts.Keys == e.scripts.scripts.Keys
  {
    var effects :- Plan(e.registry, entityId, before, after, oracle);
    Apply(e, effects, oracle)
  }

  /** A state change on a valid engine fails only when a filter raises; it
      keeps the engine valid and the registrations as they were, and leaves
      every script without a matching registration untouched. A script with
      one is preempted: every task it held is asked to cancel, and unless it
      is stopped it gains one task per matched async action. */
  lemma HandleStateChangedSemantics(e: Engine, entityId: string, before: Value, after: Value, oracle: Oracle, n: string)
    requires EngineValid(e)
    ensures HandleStateChanged(e, entityId, before, after, oracle).Success? <==> Plan(e.registry, entityId, before, after, oracle).Success?
    ensures HandleStateChanged(e, entityId, before, after, oracle).Success? ==>
      var e' := HandleStateChanged(e, entityId, before, after, oracle).value;
      var matched := Matches(Triggers(e.registry, entityId), entityId, before, after, oracle).value;
      && EngineValid(e')
      && e'.registry == e.registry
      && e'.scripts.scripts.Keys == e.scripts.scripts.Keys
      && (n in e.scripts.scripts && n !in PairKeys(matched) ==> e'.scripts.scripts[n] == e.scripts.scripts[n])
      && (n in e.scripts.scripts && n in PairKeys(matched) ==>
            var s := e.scripts.scripts[n];
            var s' := e'.scripts.scripts[n];
            && s.tasks <= s'.tasks && s.tasks <= s'.cancelling
            && |s'.tasks| == |s.tasks| + (if s.stopped then 0 else AsyncCount(Select(matched, n))))
  {
    var p := Plan(e.registry, entityId, before, after, oracle);
    if p.Success? {
      ApplySemantics(e, p.value, oracle);
      if n in e.scripts.scripts {
        PlanSemantics(e.registry, entityId, before, after, oracle, n);
        ApplyScript(e, p.value, oracle, n);
      }
      var matched := Matches(Triggers(e.registry, entityId), entityId, before, after, oracle).value;
      if n !in PairKeys(matched) {
        UnmatchedNotMentioned(e.registry, entityId, before, after, oracle, n);
      }
    }
  }

  /** A script with no matching registration is not mentioned by the plan. */
  lemma UnmatchedNotMentioned(reg: Registry, entityId: string, before: Value, after: Value, oracle: Oracle, n: string)
    requires Plan(reg, entityId, before, after, oracle).Success?
    requires n !in PairKeys(Matches(Triggers(reg, entityId), entityId, before, after, oracle).value)
    ensures !Mentions(Plan(reg, entityId, before, after, oracle).value, n)
  {
    var matched := Matches(Triggers(reg, entityId), entityId, before, after, oracle).value;
    PlanSemantics(reg, entityId, before, after, oracle, n);
    GroupSelects(matched);
    GetAbsent(Group(matched), n);
    NotMentioned(Plan(reg, entityId, before, after, oracle).value, n);
  }

  /** A script neither cancelled nor started is not mentioned. */
  lemma {:induction false} NotMentioned(effects: seq<Effect>, n: string)
    requires CancelCount(effects, n) == 0 && StartsFor(effects, n) == []
    ensures !Mentions(effects, n)
    decreases |effects|
  {
    if |effects| > 0 {
      NotMentioned(effects[1..], n);
      assert effects[0].script != n;
      forall i | 0 < i < |effects| ensures effects[i].script != n {
        assert effects[i] == effects[1..][i - 1];
      }
    }
  }

  /** Registration keeps the engine valid: the script it names exists. */
  lemma AddEventScriptKeepsValid(e: Engine, name: string, schema: EventSchema, oracle: Oracle)
    requires EngineValid(e)
    ensures EngineValid(AddEventScript(e, name, schema, oracle).0)
  {
    var got := GetScript(e.scripts, name);
    if got.Success? {
      GetScriptOnce(e.scripts, name);
      var table := NormalizeSchema(schema, oracle);
      if table.Success? {
        var e1 := e.(scripts := got.value.0);
        RegisterAllNames(e1.registry, table.value, name, e1.scripts);
      }
    }
  }

  /** Registering under an existing script only adds registrations naming
      it. */
  lemma {:induction false} RegisterAllNames(reg: Registry, table: Table<Event, Action>, name: string, m: Manager)
    requires name in m.scripts && Named(reg, m)
    ensures Named(RegisterAll(reg, table, name).0, m)
    decreases |table|
  {
    if |table| > 0 && table[0].0.kind != Bus {
      RegisterActionsNames(reg, table[0].0, name, table[0].1, m);
      var next := RegisterActions(reg, table[0].0, name, table[0].1);
      if next.1.Pass? {
        RegisterAllNames(next.0, table[1..], name, m);
        assert RegisterAll(reg, table, name) == RegisterAll(next.0, table[1..], name);
      } else {
        assert RegisterAll(reg, table, name) == next;
      }
    }
  }

  lemma {:induction false} RegisterActionsNames(reg: Registry, event: Event, name: string, actions: seq<Action>, m: Manager)
    requires name in m.scripts && Named(reg, m)
    ensures Named(RegisterActions(reg, event, name, actions).0, m)
    decreases |actions|
  {
    if |actions| > 0 {
      var added := Add(reg, event, name, actions[0]);
      if added.Success? {
        var added1 := Registration(event, name, actions[0]);
        forall id, r | id in added.value && r in added.value[id] ensures r.script in m.scripts {
          if id != event.key {
            assert added.value[id] == reg[id];
          } else {
            assert added.value[id] == Triggers(reg, id) + [added1];
            if r != added1 {
              assert r in Triggers(reg, id);
              assert id in reg;
            }
          }
        }
        RegisterActionsNames(added.value, event, name, actions[1..], m);
      }
    }
  }
}

=== FILE: schema.dfy ===
/** `schema.py`: compiling a nested condition schema into a flat table of
    condition paths, and folding each path into its event with `>>`. */
module Schema {
  import opened Wrappers
  import opened Values
  import opened Conditions
  import opened Actions
  import opened Events
  import opened Tables

  /** `ACTION_SCHEMA`: one action, a list of actions, or a mapping from
      conditions to further schemas (dict iteration order kept). Keys that
      are not conditions and leaves that are not actions are excluded by
      the types. */
  datatype ActionSchema =
    | Single(action: Action)
    | Many(actions: seq<Action>)
    | Mapping(entries: seq<(Cond, ActionSchema)>)

  /** A tuple of conditions on the way from the root to a leaf. */
  type Path = seq<Cond>

  /** `normalize_action_schema`. */
  function NormalizeActionSchema(s: ActionSchema): (r: Table<Path, Action>)
    ensures DistinctKeys(r)
    decreases s
  {
    match s
    case Single(a) => [([], [a])]
    case Many(actions) => if |actions| == 0 then [] else [([], actions)]
    case Mapping(entries) => NormalizeEntries(entries, [])
  }

  /** The loop over the mapping's items, `acc` being the result so far. */
  function NormalizeEntries(entries: seq<(Cond, ActionSchema)>, acc: Table<Path, Action>): (r: Table<Path, Action>)
    ensures DistinctKeys(acc) ==> DistinctKeys(r)
    decreases entries
  {
    if |entries| == 0 then acc
    else
      var entry := entries[0];
      assert entry in entries && entry.1 < entry;
      NormalizeEntries(entries[1..], AddPrefixed(acc, entry.0, NormalizeActionSchema(entry.1)))
  }

  /** `result.setdefault((key,) + sub_conditions, []).extend(actions)` for
      every entry of the child's table, in order. */
  function AddPrefixed(acc: Table<Path, Action>, key: Cond, sub: Table<Path, Action>): (r: Table<Path, Action>)
    ensures DistinctKeys(acc) ==> DistinctKeys(r)
    decreases |sub|
  {
    if |sub| == 0 then acc
    else
      var next := Extend(acc, [key] + sub[0].0, sub[0].1);
      assert DistinctKeys(acc) ==> DistinctKeys(next) by {
        if DistinctKeys(acc) {
          ExtendKeepsDistinct(acc, [key] + sub[0].0, sub[0].1);
        }
      }
      AddPrefixed(next, key, sub[1..])
  }

  /** Reference reading of a schema: every action with the path leading to
      it, in the order a depth-first walk meets them. */
  function Leaves(s: ActionSchema): seq<(Path, Action)>
    decreases s
  {
    match s
    case Single(a) => [([], a)]
    case Many(actions) => AtRoot(actions)
    case Mapping(entries) => EntryLeaves(entries)
  }

  function EntryLeaves(entries: seq<(Cond, ActionSchema)>): seq<(Path, Action)>
    decreases entries
  {
    if |entries| == 0 then []
    else
      var entry := entries[0];
      assert entry in entries && entry.1 < entry;
      Prefixed(entry.0, Leaves(entry.1)) + EntryLeaves(entries[1..])
  }

  function AtRoot(actions: seq<Action>): (r: seq<(Path, Action)>)
    ensures |r| == |actions|
  {
    if |actions| == 0 then [] else [([], actions[0])] + AtRoot(actions[1..])
  }

  function Prefixed(key: Cond, pairs: seq<(Path, Action)>): (r: seq<(Path, Action)>)
    ensures |r| == |pairs|
  {
    if |pairs| == 0 then [] else [([key] + pairs[0].0, pairs[0].1)] + Prefixed(key, pairs[1..])
  }

  lemma {:induction false} SelectAtRoot(actions: seq<Action>, p: Path)
    ensures Select(AtRoot(actions), p) == if p == [] then actions else []
  {
    if |actions| > 0 {
      SelectAtRoot(actions[1..], p);
      SelectAppend([([], actions[0])], AtRoot(actions[1..]), p);
      assert Select([([], actions[0])], p) == Select([([], actions[0])][..0], p) + (if [] == p then [actions[0]] else []);
      assert [actions[0]] + actions[1..] == actions;
    }
  }

  lemma {:induction false} SelectPrefixed(key: Cond, pairs: seq<(Path, Action)>, p: Path)
    ensures Select(Prefixed(key, pairs), p) == if |p| > 0 && p[0] == key then Select(pairs, p[1..]) else []
  {
    if |pairs| > 0 {
      var head := ([key] + pairs[0].0, pairs[0].1);
      SelectPrefixed(key, pairs[1..], p);
      SelectAppend([head], Prefixed(key, pairs[1..]), p);
      assert Select([head], p) == Select([head][..0], p) + (if head.0 == p then [head.1] else []);
      if |p| > 0 && p[0] == key {
        SelectAppend([pairs[0]], pairs[1..], p[1..]);
        assert [pairs[0]] + pairs[1..] == pairs;
        assert Select([pairs[0]], p[1..]) == Select([pairs[0]][..0], p[1..]) + (if pairs[0].0 == p[1..] then [pairs[0].1] else []);
        PrefixedPathEq(key, pairs[0].0, p);
      } else {
        assert head.0 != p;
      }
    }
  }

  /** `(key,) + q == p` splits into the head and the tail of `p`. */
  lemma PrefixedPathEq(key: Cond, q: Path, p: Path)
    ensures [key] + q == p <==> |p| > 0 && p[0] == key && q == p[1..]
  {
    if |p| > 0 && p[0] == key && q == p[1..] {
      assert p == [p[0]] + p[1..];
    }
    if [key] + q == p {
      assert p[1..] == ([key] + q)[1..] == q;
    }
  }

  /** Prefixing a child's table: under a path that starts with `key` the
      result gains what the child stores under the rest of the path;
      nothing else changes. */
  lemma {:induction false} GetAddPrefixed(acc: Table<Path, Action>, key: Cond, sub: Table<Path, Action>, p: Path)
    requires DistinctKeys(acc)
    ensures Get(AddPrefixed(acc, key, sub), p) == Get(acc, p) + if |p| > 0 && p[0] == key then Get(sub, p[1..]) else []
    decreases |sub|
  {
    if |sub| > 0 {
      var k := [key] + sub[0].0;
      var next := Extend(acc, k, sub[0].1);
      ExtendKeepsDistinct(acc, k, sub[0].1);
      GetAddPrefixed(next, key, sub[1..], p);
      GetExtend(acc, k, sub[0].1, p);
      PrefixedPathEq(key, sub[0].0, p);
      var here: seq<Action> := if p == k then sub[0].1 else [];
      var tail: seq<Action> := if |p| > 0 && p[0] == key then Get(sub[1..], p[1..]) else [];
      assert (if |p| > 0 && p[0] == key then Get(sub, p[1..]) else []) == here + tail;
      assert AddPrefixed(acc, key, sub) == AddPrefixed(next, key, sub[1..]);
      assert Get(next, p) == Get(acc, p) + here;
      assert Get(AddPrefixed(next, key, sub[1..]), p) == Get(next, p) + tail;
      ConcatAssoc(Get(acc, p), here, tail);
    }
  }

  /** The table a schema compiles to stores under every path exactly the
      actions reached along that path, in walk order: equal paths are
      merged, an empty list contributes nothing. */
  lemma {:induction false} NormalizeSelects(s: ActionSchema, p: Path)
    ensures Get(NormalizeActionSchema(s), p) == Select(Leaves(s), p)
    decreases s
  {
    match s
    case Single(a) =>
      assert Select([([], a)], p) == Select([([], a)][..0], p) + (if [] == p then [a] else []);
      var t: Table<Path, Action> := [([], [a])];
      assert t[1..] == [];
    case Many(actions) =>
      SelectAtRoot(actions, p);
      if |actions| > 0 {
        var t: Table<Path, Action> := [([], actions)];
        assert t[1..] == [];
      }
    case Mapping(entries) =>
      EntriesSelect(entries, [], p);
      var t: Table<Path, Action> := [];
      assert Get(t, p) == [];
  }

  lemma {:induction false} EntriesSelect(entries: seq<(Cond, ActionSchema)>, acc: Table<Path, Action>, p: Path)
    requires DistinctKeys(acc)
    ensures Get(NormalizeEntries(entries, acc), p) == Get(acc, p) + Select(EntryLeaves(entries), p)
    decreases entries
  {
    if |entries| == 0 {
      var none: seq<(Path, Action)> := [];
      assert Select(none, p) == [];
    } else {
      var entry := entries[0];
      assert entry in entries && entry.1 < entry;
      var sub := NormalizeActionSchema(entry.1);
      var next := AddPrefixed(acc, entry.0, sub);
      GetAddPrefixed(acc, entry.0, sub, p);
      EntriesSelect(entries[1..], next, p);
      SelectAppend(Prefixed(entry.0, Leaves(entry.1)), EntryLeaves(entries[1..]), p);
      SelectPrefixed(entry.0, Leaves(entry.1), p);
      if |p| > 0 && p[0] == entry.0 {
        NormalizeSelects(entry.1, p[1..]);
      }
      var here := Select(Prefixed(entry.0, Leaves(entry.1)), p);
      var later := Select(EntryLeaves(entries[1..]), p);
      assert NormalizeEntries(entries, acc) == NormalizeEntries(entries[1..], next);
      assert Get(next, p) == Get(acc, p) + here;
      assert Select(EntryLeaves(entries), p) == here + later;
      ConcatAssoc(Get(acc, p), here, later);
    }
  }

  /** `_apply_conditions`: fold `>>` over the path, left to right. */
  function ApplyConditions(e: Event, conditions: Path): (r: Result<Event, Error>)
    ensures |conditions| == 0 ==> r == Success(e)
    ensures r.Success? ==> r.value.kind == e.kind && r.value.key == e.key
    decreases |conditions|
  {
    if |conditions| == 0 then Success(e)
    else
      var next := Filter(e, conditions[0]);
      if next.Failure? then Failure(next.error) else ApplyConditions(next.value, conditions[1..])
  }

  /** Applying a path conjoins its conditions, in order, onto the event's
      own filter: the resulting filter is the left fold of `&` that starts
      from `e.condition` and takes each path condition in turn. */
  lemma {:induction false} ApplyConditionsFold(e: Event, conditions: Path)
    requires ApplyConditions(e, conditions).Success?
    ensures ConjAll(e.condition, conditions).Success?
    ensures ApplyConditions(e, conditions).value == Event(e.kind, e.key, ConjAll(e.condition, conditions).value)
    decreases |conditions|
  {
    if |conditions| > 0 {
      var next := Filter(e, conditions[0]).value;
      ApplyConditionsFold(next, conditions[1..]);
    }
  }

  /** The filter a path leaves on an event holds exactly when the event's
      own filter and then every condition of the path hold, in that order
      and stopping at the first that does not. */
  lemma ApplyConditionsEval(e: Event, conditions: Path, kw: Kwargs, oracle: Oracle)
    requires ApplyConditions(e, conditions).Success? && ApplyConditions(e, conditions).value.condition.Some?
    requires Accepts(ApplyConditions(e, conditions).value.condition.value.args, kw)
    ensures Eval(ApplyConditions(e, conditions).value.condition.value, kw, oracle)
         == EvalAll(Listed(e.condition) + conditions, kw, oracle)
  {
    ApplyConditionsFold(e, conditions);
    ConjAllEval(e.condition, conditions, kw, oracle);
  }

  /** `item.check()` for every action of a list, stopping at the first failure. */
  function CheckAll(actions: seq<Action>, oracle: Oracle): (r: Outcome<Error>)
    ensures r.Pass? <==> forall i :: 0 <= i < |actions| ==> Check(actions[i], oracle).Pass?
  {
    if |actions| == 0 then Pass
    else
      var first := Check(actions[0], oracle);
      if first.Fail? then first
      else
        assert forall i :: 1 <= i < |actions| ==> actions[i] == actions[1..][i - 1];
        CheckAll(actions[1..], oracle)
  }

  /** `EVENT_SCHEMA`: event sources with their schemas, in dict order. */
  type EventSchema = seq<(Event, ActionSchema)>

  /** `normalize_schema`. */
  function NormalizeSchema(schema: EventSchema, oracle: Oracle): (r: Result<Table<Event, Action>, Error>)
    ensures r.Success? <==> forall i :: 0 <= i < |schema| ==> SourceOk(schema[i].0, schema[i].1, oracle)
    ensures r.Success? ==> DistinctKeys(r.value)
    ensures r.Success? ==> forall e :: Get(r.value, e) == Get(SchemaApplied(schema), e)
  {
    var empty: Table<Event, Action> := [];
    NormalizeSourcesPass(schema, empty, oracle);
    var r := NormalizeSources(schema, empty, oracle);
    assert r.Success? ==> DistinctKeys(r.value) && forall e :: Get(r.value, e) == Get(SchemaApplied(schema), e) by {
      if r.Success? {
        forall e ensures Get(r.value, e) == Get(SchemaApplied(schema), e) {
          NormalizeSourcesGet(schema, empty, oracle, e);
          assert Get(empty, e) == [];
        }
        NormalizeSourcesGet(schema, empty, oracle, Event(StateChange, "", None));
      }
    }
    r
  }

  function NormalizeSources(schema: EventSchema, acc: Table<Event, Action>, oracle: Oracle): Result<Table<Event, Action>, Error>
    decreases |schema|
  {
    if |schema| == 0 then Success(acc)
    else
      var next :- AddPaths(acc, schema[0].0, NormalizeActionSchema(schema[0].1), oracle);
      NormalizeSources(schema[1..], next, oracle)
  }

  /** One source: for every path, check its actions, fold the path into the
      source and extend the entry of the resulting event. */
  function AddPaths(acc: Table<Event, Action>, source: Event, sub: Table<Path, Action>, oracle: Oracle): Result<Table<Event, Action>, Error>
    decreases |sub|
  {
    if |sub| == 0 then Success(acc)
    else
      var checked := CheckAll(sub[0].1, oracle);
      if checked.Fail? then Failure(checked.error)
      else
        var e :- ApplyConditions(source, sub[0].0);
        AddPaths(Extend(acc, e, sub[0].1), source, sub[1..], oracle)
  }

  /** The paths of one source that fold into an event, each with its
      actions; a list with repeated events. */
  function Applied(source: Event, sub: Table<Path, Action>): seq<(Event, seq<Action>)>
    decreases |sub|
  {
    if |sub| == 0 then []
    else
      var e := ApplyConditions(source, sub[0].0);
      (if e.Success? then [(e.value, sub[0].1)] else []) + Applied(source, sub[1..])
  }

  /** Every path is checked and folded: one source succeeds exactly when all
      its actions check and all its paths fold into events. */
  lemma {:induction false} AddPathsSucceeds(acc: Table<Event, Action>, source: Event, sub: Table<Path, Action>, oracle: Oracle)
    ensures AddPaths(acc, source, sub, oracle).Success?
        <==> forall i :: 0 <= i < |sub| ==> CheckAll(sub[i].1, oracle).Pass? && ApplyConditions(source, sub[i].0).Success?
    decreases |sub|
  {
    if |sub| > 0 {
      var ok := (x: (Path, seq<Action>)) => CheckAll(x.1, oracle).Pass? && ApplyConditions(source, x.0).Success?;
      AllCons(sub, ok);
      var applied := ApplyConditions(source, sub[0].0);
      if CheckAll(sub[0].1, oracle).Pass? && applied.Success? {
        AddPathsSucceeds(Extend(acc, applied.value, sub[0].1), source, sub[1..], oracle);
      }
    }
  }

  /** When one source succeeds, the table keeps its keys distinct and each
      event's list gains the actions of every path folding into it, in
      table order. */
  lemma {:induction false} AddPathsGet(acc: Table<Event, Action>, source: Event, sub: Table<Path, Action>, oracle: Oracle, e: Event)
    requires DistinctKeys(acc)
    requires AddPaths(acc, source, sub, oracle).Success?
    ensures DistinctKeys(AddPaths(acc, source, sub, oracle).value)
    ensures Get(AddPaths(acc, source, sub, oracle).value, e) == Get(acc, e) + Get(Applied(source, sub), e)
    decreases |sub|
  {
    if |sub| == 0 {
      var t: Table<Event, Action> := [];
      assert Get(t, e) == [];
    } else {
      var applied := ApplyConditions(source, sub[0].0);
      var next := Extend(acc, applied.value, sub[0].1);
      ExtendKeepsDistinct(acc, applied.value, sub[0].1);
      AddPathsGet(next, source, sub[1..], oracle, e);
      GetExtend(acc, applied.value, sub[0].1, e);
      var head: seq<(Event, seq<Action>)> := [(applied.value, sub[0].1)];
      var here: seq<Action> := if applied.value == e then sub[0].1 else [];
      var later := Get(Applied(source, sub[1..]), e);
      assert Applied(source, sub) == head + Applied(source, sub[1..]);
      assert (head + Applied(source, sub[1..]))[1..] == Applied(source, sub[1..]);
      assert Get(Applied(source, sub), e) == here + later;
      assert AddPaths(acc, source, sub, oracle) == AddPaths(next, source, sub[1..], oracle);
      ConcatAssoc(Get(acc, e), here, later);
    }
  }

  /** Every action of the source's schema checks and every path folds. */
  predicate SourceOk(source: Event, s: ActionSchema, oracle: Oracle) {
    var sub := NormalizeActionSchema(s);
    forall i :: 0 <= i < |sub| ==> CheckAll(sub[i].1, oracle).Pass? && ApplyConditions(source, sub[i].0).Success?
  }

  /** Every (event, actions) pair the whole schema folds into, in order. */
  function SchemaApplied(schema: EventSchema): seq<(Event, seq<Action>)>
    decreases |schema|
  {
    if |schema| == 0 then [] else Applied(schema[0].0, NormalizeActionSchema(schema[0].1)) + SchemaApplied(schema[1..])
  }

  lemma {:induction false} GetAppend<K, V>(a: seq<(K, seq<V>)>, b: seq<(K, seq<V>)>, k: K)
    ensures Get(a + b, k) == Get(a, k) + Get(b, k)
  {
    if |a| > 0 {
      assert (a + b)[1..] == a[1..] + b;
      GetAppend(a[1..], b, k);
      var h: seq<V> := if a[0].0 == k then a[0].1 else [];
      ConcatAssoc(h, Get(a[1..], k), Get(b, k));
    } else {
      assert a + b == b;
    }
  }

  /** The sources are processed in order and the first failure propagates,
      so the whole schema succeeds exactly when every source does. */
  lemma {:induction false} NormalizeSourcesPass(schema: EventSchema, acc: Table<Event, Action>, oracle: Oracle)
    ensures NormalizeSources(schema, acc, oracle).Success?
        <==> forall i :: 0 <= i < |schema| ==> SourceOk(schema[i].0, schema[i].1, oracle)
    decreases |schema|
  {
    if |schema| > 0 {
      var rest := schema[1..];
      var sub := NormalizeActionSchema(schema[0].1);
      AddPathsSucceeds(acc, schema[0].0, sub, oracle);
      var step := AddPaths(acc, schema[0].0, sub, oracle);
      SourcesOkCons(schema, oracle);
      if step.Success? {
        assert NormalizeSources(schema, acc, oracle) == NormalizeSources(rest, step.value, oracle);
        NormalizeSourcesPass(rest, step.value, oracle);
      }
    }
  }

  /** Every source of a non-empty schema is accepted exactly when the first
      one and every later one are. */
  lemma SourcesOkCons(schema: EventSchema, oracle: Oracle)
    requires |schema| > 0
    ensures (forall i :: 0 <= i < |schema| ==> SourceOk(schema[i].0, schema[i].1, oracle))
        <==> (SourceOk(schema[0].0, schema[0].1, oracle)
              && forall i :: 0 <= i < |schema[1..]| ==> SourceOk(schema[1..][i].0, schema[1..][i].1, oracle))
  {
    var ok := (x: (Event, ActionSchema)) => SourceOk(x.0, x.1, oracle);
    AllCons(schema, ok);
  }

  /** A property holds of every element of a non-empty list exactly when it
      holds of the first and of every later one. */
  lemma AllCons<T>(xs: seq<T>, p: T -> bool)
    requires |xs| > 0
    ensures (forall i :: 0 <= i < |xs| ==> p(xs[i]))
        <==> (p(xs[0]) && forall i :: 0 <= i < |xs[1..]| ==> p(xs[1..][i]))
  {
    var rest := xs[1..];
    if forall i :: 0 <= i < |rest| ==> p(rest[i]) {
      forall i | 0 < i < |xs| ensures p(xs[i]) {
        assert xs[i] == rest[i - 1];
      }
    }
  }

  /** After a successful normalisation, each event holds what it held before
      followed by the actions of every path folding into it, source by
      source, and no event is stored twice. */
  lemma {:induction false} NormalizeSourcesGet(schema: EventSchema, acc: Table<Event, Action>, oracle: Oracle, e: Event)
    requires DistinctKeys(acc)
    requires NormalizeSources(schema, acc, oracle).Success?
    ensures DistinctKeys(NormalizeSources(schema, acc, oracle).value)
    ensures Get(NormalizeSources(schema, acc, oracle).value, e) == Get(acc, e) + Get(SchemaApplied(schema), e)
    decreases |schema|
  {
    if |schema| == 0 {
      var t: seq<(Event, seq<Action>)> := [];
      assert Get(t, e) == [];
    } else {
      var rest := schema[1..];
      var sub := NormalizeActionSchema(schema[0].1);
      var step := AddPaths(acc, schema[0].0, sub, oracle);
      assert NormalizeSources(schema, acc, oracle) == NormalizeSources(rest, step.value, oracle);
      AddPathsGet(acc, schema[0].0, sub, oracle, e);
      NormalizeSourcesGet(rest, step.value, oracle, e);
      var here := Get(Applied(schema[0].0, sub), e);
      var later := Get(SchemaApplied(rest), e);
      assert SchemaApplied(schema) == Applied(schema[0].0, sub) + SchemaApplied(rest);
      GetAppend(Applied(schema[0].0, sub), SchemaApplied(rest), e);
      ConcatAssoc(Get(acc, e), here, later);
    }
  }

  /** `normalize_schema` succeeds exactly when every action checks and every
      path folds (the first failure propagates); then under every event it
      stores the actions of all the paths folding into that event, source
      by source, with no event twice. */
  lemma NormalizeSchemaSemantics(schema: EventSchema, acc: Table<Event, Action>, oracle: Oracle, e: Event)
    requires DistinctKeys(acc)
    ensures NormalizeSources(schema, acc, oracle).Success?
        <==> forall i :: 0 <= i < |schema| ==> SourceOk(schema[i].0, schema[i].1, oracle)
    ensures NormalizeSources(schema, acc, oracle).Success? ==>
      && DistinctKeys(NormalizeSources(schema, acc, oracle).value)
      && Get(NormalizeSources(schema, acc, oracle).value, e) == Get(acc, e) + Get(SchemaApplied(schema), e)
  {
    NormalizeSourcesPass(schema, acc, oracle);
    if NormalizeSources(schema, acc, oracle).Success? {
      NormalizeSourcesGet(schema, acc, oracle, e);
    }
  }

  /** `normalize_action_schema` of a one-entry mapping is the child's table
      with the key in front of every path. */
  lemma OneEntry(key: Cond, s: ActionSchema)
    ensures NormalizeActionSchema(Mapping([(key, s)])) == AddPrefixed([], key, NormalizeActionSchema(s))
  {
    var entries := [(key, s)];
    var once := AddPrefixed([], key, NormalizeActionSchema(s));
    assert entries[0] == (key, s) && entries[1..] == [];
    assert NormalizeEntries(entries, []) == NormalizeEntries(entries[1..], once);
    assert NormalizeEntries([], once) == once;
  }

  /** For an unfiltered event, the nested schema `{c1: {c2: a}}` compiles to
      the same table as `{c1 & c2: a}`. */
  lemma NestedEqualsConjoined(e: Event, c1: Cond, c2: Cond, a: Action, oracle: Oracle)
    requires e.condition.None? && Conj(c1, c2).Success?
    ensures NormalizeSchema([(e, Mapping([(c1, Mapping([(c2, Single(a))]))]))], oracle)
         == NormalizeSchema([(e, Mapping([(Conj(c1, c2).value, Single(a))]))], oracle)
  {
    var j := Conj(c1, c2).value;
    var inner := Mapping([(c2, Single(a))]);
    var leaf: Table<Path, Action> := [([], [a])];
    OneEntry(c2, Single(a));
    assert AddPrefixed([], c2, leaf) == [([c2], [a])] by {
      assert [c2] + [] == [c2];
      assert leaf[1..] == [];
    }
    OneEntry(c1, inner);
    assert AddPrefixed([], c1, [([c2], [a])]) == [([c1, c2], [a])] by {
      assert [c1] + [c2] == [c1, c2];
    }
    OneEntry(j, Single(a));
    assert AddPrefixed([], j, leaf) == [([j], [a])] by {
      assert [j] + [] == [j];
      assert leaf[1..] == [];
    }
    FilterChain(e, c1, c2);
    assert ApplyConditions(e, [c1, c2]) == ApplyConditions(e, [j]) by {
      assert [c1, c2][1..] == [c2] && [c2][1..] == [] && [j][1..] == [];
    }
    var s1: Table<Path, Action> := [([c1, c2], [a])];
    var s2: Table<Path, Action> := [([j], [a])];
    assert AddPaths([], e, s1, oracle) == AddPaths([], e, s2, oracle) by {
      assert s1[1..] == [] && s2[1..] == [];
    }
    var schema1: EventSchema := [(e, Mapping([(c1, inner)]))];
    var schema2: EventSchema := [(e, Mapping([(j, Single(a))]))];
    assert schema1[1..] == [] && schema2[1..] == [];
    assert NormalizeActionSchema(schema1[0].1) == s1;
    assert NormalizeActionSchema(schema2[0].1) == s2;
  }
}

=== FILE: script.dfy ===
/** `script.py`: a script starts work for its triggers and keeps the tasks
    it started; a new trigger usually cancels what is still running. Tasks
    are abstract ids; cancellation requests and task completion are explicit
    steps instead of asyncio machinery. */
module Scripts {
  import opened Wrappers
  import opened Values
  import opened Conditions
  import opened Actions

  type TaskId = nat

  /** A script: its name, whether it was stopped, the tasks it started that
      have not finished (`tasks`), and those among them asked to cancel. */
  datatype Script = Script(name: string, stopped: bool, tasks: set<TaskId>, cancelling: set<TaskId>)

  /** Only live tasks can have a pending cancellation. */
  ghost predicate Valid(s: Script) {
    s.cancelling <= s.tasks
  }

  /** `Script(hass, name)`: running, with no tasks. */
  function NewScript(name: string): (s: Script)
    ensures s.name == name && !s.stopped && s.tasks == {}
    ensures Valid(s)
  {
    Script(name, false, {}, {})
  }

  /** What `run_action` did. */
  datatype Ran =
      /** The script was stopped: nothing happened. */
    | Skipped
      /** A sync action ran in place; these are its calls, and an error that
          stopped it was logged and swallowed. */
    | Inline(execution: Execution)
      /** An async action was scheduled as a new task; errors and cancellation
          inside it are swallowed when it runs. */
    | Spawned(task: TaskId, action: Action)

  /** `cancel_all_tasks`: every live task is asked to cancel; none is removed
      until it actually finishes. */
  function CancelAllTasks(s: Script): (r: Script)
    ensures r.name == s.name && r.stopped == s.stopped && r.tasks == s.tasks
    ensures s.tasks <= r.cancelling && s.cancelling <= r.cancelling
    ensures Valid(s) ==> r.cancelling == s.tasks
  {
    s.(cancelling := s.cancelling + s.tasks)
  }

  /** `stop`: set the flag, then cancel all tasks. */
  function Stop(s: Script): (r: Script)
    ensures r.stopped && r.name == s.name && r.tasks == s.tasks && s.tasks <= r.cancelling
  {
    CancelAllTasks(s.(stopped := true))
  }

  /** `_add_task`: a task already held is an assertion failure. */
  function AddTask(s: Script, t: TaskId): (r: Result<Script, Error>)
    ensures r.Success? <==> t !in s.tasks
    ensures r.Failure? ==> r.error == AssertionFailed("Duplication of task is impossible")
    ensures r.Success? ==> r.value == s.(tasks := s.tasks + {t})
  {
    if t in s.tasks then Failure(AssertionFailed("Duplication of task is impossible"))
    else Success(s.(tasks := s.tasks + {t}))
  }

  /** The done callback `tasks.discard`: a finished task (completed, failed
      or cancelled) leaves the script. */
  function Complete(s: Script, t: TaskId): (r: Script)
    ensures r.tasks == s.tasks - {t} && r.cancelling == s.cancelling - {t}
    ensures r.name == s.name && r.stopped == s.stopped
  {
    s.(tasks := s.tasks - {t}, cancelling := s.cancelling - {t})
  }

  /** `run_action(action)`, `newTask` being the task the host would create. */
  function RunAction(s: Script, a: Action, newTask: TaskId, oracle: Oracle): (r: Result<(Script, Ran), Error>)
    ensures s.stopped ==> r == Success((s, Skipped))
    ensures !s.stopped && IsAsync(a) ==>
      && (r.Success? <==> newTask !in s.tasks)
      && (r.Success? ==> r.value.0.tasks == s.tasks + {newTask} && r.value.0.cancelling == s.cancelling
                          && r.value.1 == Spawned(newTask, a))
    ensures !s.stopped && !IsAsync(a) ==> r == Success((s, Inline(Trace(a, oracle))))
    ensures r.Success? ==> r.value.0.name == s.name && r.value.0.stopped == s.stopped
  {
    if s.stopped then Success((s, Skipped))
    else if IsAsync(a) then
      var next :- AddTask(s, newTask);
      Success((next, Spawned(newTask, a)))
    else
      Success((s, Inline(Run(a, oracle).value)))
  }

  /** Every step keeps pending cancellations among the live tasks. */
  lemma StepsKeepValid(s: Script, a: Action, t: TaskId, oracle: Oracle)
    requires Valid(s)
    ensures Valid(CancelAllTasks(s)) && Valid(Stop(s)) && Valid(Complete(s, t))
    ensures RunAction(s, a, t, oracle).Success? ==> Valid(RunAction(s, a, t, oracle).value.0)
  {
  }

  /** After `stop`, running any action does nothing at all, and the tasks
      that were live are all asked to cancel. */
  lemma StopThenRun(s: Script, a: Action, t: TaskId, oracle: Oracle)
    ensures RunAction(Stop(s), a, t, oracle) == Success((Stop(s), Skipped))
    ensures forall u :: u in s.tasks ==> u in Stop(s).tasks && u in Stop(s).cancelling
  {
  }

  /** A cancellation request followed by completion of every live task
      leaves a script with nothing running and nothing pending. */
  lemma {:induction false} CancelThenDrain(s: Script, order: seq<TaskId>)
    requires Valid(s)
    requires forall t :: t in s.tasks ==> t in order
    ensures var r := Drain(CancelAllTasks(s), order); r.tasks == {} && r.cancelling == {}
  {
    DrainRemoves(CancelAllTasks(s), order);
  }

  /** Completing the given tasks one after another. */
  function Drain(s: Script, order: seq<TaskId>): Script
    decreases |order|
  {
    if |order| == 0 then s else Drain(Complete(s, order[0]), order[1..])
  }

  lemma {:induction false} DrainRemoves(s: Script, order: seq<TaskId>)
    ensures Drain(s, order).tasks == s.tasks - set i | 0 <= i < |order| :: order[i]
    ensures Drain(s, order).cancelling == s.cancelling - set i | 0 <= i < |order| :: order[i]
    decreases |order|
  {
    if |order| > 0 {
      DrainRemoves(Complete(s, order[0]), order[1..]);
      var all := set i | 0 <= i < |order| :: order[i];
      var rest := set i | 0 <= i < |order[1..]| :: order[1..][i];
      assert all == {order[0]} + rest by {
        forall x | x in all ensures x in {order[0]} + rest {
          var i :| 0 <= i < |order| && order[i] == x;
          if i > 0 {
            assert order[1..][i - 1] == x;
          }
        }
      }
    }
  }

  /** `ScriptManager`: the scripts by name. */
  datatype Manager = Manager(scripts: map<string, Script>)

  /** Every script is filed under its own name. */
  ghost predicate ManagerValid(m: Manager) {
    forall n :: n in m.scripts ==> m.scripts[n].name == n && Valid(m.scripts[n])
  }

  /** `ScriptManager[name]`: an empty name is an assertion failure; a known
      name gives its script; an unknown one creates and files a new script. */
  function GetScript(m: Manager, name: string): (r: Result<(Manager, Script), Error>)
    ensures r.Success? <==> name != ""
    ensures r.Success? ==>
      && name in r.value.0.scripts && r.value.0.scripts[name] == r.value.1
      && r.value.1.name == (if name in m.scripts then m.scripts[name].name else name)
      && (name in m.scripts ==> r.value == (m, m.scripts[name]))
      && (name !in m.scripts ==> r.value.1 == NewScript(name) && r.value.0.scripts == m.scripts[name := NewScript(name)])
  {
    if name == "" then Failure(AssertionFailed("Empty script name"))
    else if name in m.scripts then Success((m, m.scripts[name]))
    else Success((Manager(m.scripts[name := NewScript(name)]), NewScript(name)))
  }

  /** Looking a name up twice gives the same script and changes nothing the
      second time; the manager stays valid. */
  lemma GetScriptOnce(m: Manager, name: string)
    requires ManagerValid(m) && name != ""
    ensures var (m1, s1) := GetScript(m, name).value;
      && ManagerValid(m1)
      && s1.name == name
      && GetScript(m1, name) == Success((m1, s1))
      && forall n :: n in m.scripts ==> n in m1.scripts && m1.scripts[n] == m.scripts[n]
  {
  }

  /** `ScriptManager.stop`: stop every script. */
  function StopAll(m: Manager): (r: Manager)
    ensures r.scripts.Keys == m.scripts.Keys
  {
    Manager(map n | n in m.scripts :: Stop(m.scripts[n]))
  }

  /** After stopping all, every script is stopped, keeps its name and live
      tasks, has all of them asked to cancel, and ignores every action. */
  lemma StopAllStops(m: Manager, a: Action, t: TaskId, oracle: Oracle)
    requires ManagerValid(m)
    ensures ManagerValid(StopAll(m))
    ensures forall n :: n in StopAll(m).scripts ==>
      var s := StopAll(m).scripts[n];
      && s.stopped && s.tasks == m.scripts[n].tasks && s.cancelling == s.tasks
      && RunAction(s, a, t, oracle) == Success((s, Skipped))
  {
  }

  /** Put a script back under its name. */
  function Store(m: Manager, s: Script): (r: Manager)
    ensures r.scripts == m.scripts[s.name := s]
  {
    Manager(m.scripts[s.name := s])
  }
}

=== FILE: state_event.dfy ===
/** `state_event.py`: events about an entity's state changing, and the
    `old(...)`/`new(...)` filters on the state before and after. */
module StateEvents {
  import opened Wrappers
  import opened Values
  import opened Conditions
  import opened Events

  /** `state_event(entity)`: the unfiltered event of one entity. */
  function StateEventOf(entityId: string): (e: Event)
    ensures e.kind == StateChange && e.key == entityId
    ensures Valid(e)
  {
    Event(StateChange, entityId, None)
  }

  /** `state_event_condition(f)`: the condition decorator with the state
      event's argument set. */
  function StateEventCondition(id: nat, signature: seq<string>): Result<Decorated, Error>
  {
    Decorate(Some(FilterArgs(StateChange)), id, signature)
  }

  /** `{acceptable_state, *args}`. */
  function StateSet(first: string, rest: seq<string>): (s: set<string>)
    ensures forall x :: x in s <==> x == first || x in rest
  {
    {first} + ParamSet(rest)
  }

  /** `old_state_condition(first, *rest)`; `id` tells apart the closures
      of different calls. */
  function OldStateCondition(id: nat, first: string, rest: seq<string>): Cond
  {
    Leaf(Some(FilterArgs(StateChange)), false, OldStateIn(id, StateSet(first, rest)))
  }

  /** `new_state_condition(first, *rest)`. */
  function NewStateCondition(id: nat, first: string, rest: seq<string>): Cond
  {
    Leaf(Some(FilterArgs(StateChange)), false, NewStateIn(id, StateSet(first, rest)))
  }

  /** `e.old(first, *rest)`, the call making closure `id`. */
  function Old(e: Event, id: nat, first: string, rest: seq<string>): Result<Event, Error>
  {
    Filter(e, OldStateCondition(id, first, rest))
  }

  /** `e.new(first, *rest)`, the call making closure `id`. */
  function New(e: Event, id: nat, first: string, rest: seq<string>): Result<Event, Error>
  {
    Filter(e, NewStateCondition(id, first, rest))
  }

  /** The keywords a state event's filter is called with. */
  function StateKwargs(entityId: string, before: Value, after: Value): (kw: Kwargs)
    ensures kw.Keys == FilterArgs(StateChange)
    ensures kw["entity_id"] == Text(entityId) && kw["old"] == before && kw["new"] == after
  {
    map["entity_id" := Text(entityId), "old" := before, "new" := after]
  }

  /** The predicate behind `old(...)` is the function `_condition(entity_id,
      old, new)` given to the decorator; the decorator accepts exactly such
      signatures and makes an uninverted atom with the state argument set. */
  lemma StateConditionSignature(id: nat)
    ensures StateEventCondition(id, ["entity_id", "old", "new"]) == Success(Ready(Leaf(Some(FilterArgs(StateChange)), false, User(id, None))))
    ensures StateEventCondition(id, ["entity_id", "old"]).Failure?
  {
    StateSignatureAccepted(id);
    StateSignatureRefused(id);
  }

  lemma StateSignatureAccepted(id: nat)
    ensures StateEventCondition(id, ["entity_id", "old", "new"]) == Success(Ready(Leaf(Some(FilterArgs(StateChange)), false, User(id, None))))
  {
    var s := ["entity_id", "old", "new"];
    assert s[0] == "entity_id" && s[1] == "old" && s[2] == "new";
    Utils.DropVariadicKeeps(s);
    assert Utils.FunctionOrMethodAndParams(s) == (false, s);
    assert ParamSet(s) == FilterArgs(StateChange);
  }

  lemma StateSignatureRefused(id: nat)
    ensures StateEventCondition(id, ["entity_id", "old"]).Failure?
  {
    assert Utils.FunctionOrMethodAndParams(["entity_id", "old"]).1 == ["entity_id", "old"];
    assert "new" !in ParamSet(["entity_id", "old"]);
  }

  /** `old(...)` holds exactly when the old state is one of the listed
      states; `new(...)` likewise for the new state. Reading the state of
      something that is not a state raises. */
  lemma OldNewMatch(id: nat, first: string, rest: seq<string>, entityId: string, before: Value, after: Value, oracle: Oracle)
    ensures Eval(OldStateCondition(id, first, rest), StateKwargs(entityId, before, after), oracle)
         == if before.StateValue? then Success(before.state in StateSet(first, rest)) else Failure(PredicateFailed)
    ensures Eval(NewStateCondition(id, first, rest), StateKwargs(entityId, before, after), oracle)
         == if after.StateValue? then Success(after.state in StateSet(first, rest)) else Failure(PredicateFailed)
  {
  }

  /** `old(...)` and `new(...)` always pass the validator of a valid state
      event, keep its entity and conjoin their filter with the existing one. */
  lemma OldNewAlwaysAdmissible(e: Event, id: nat, first: string, rest: seq<string>)
    requires Valid(e) && e.kind == StateChange
    ensures Old(e, id, first, rest).Success? && Valid(Old(e, id, first, rest).value)
    ensures New(e, id, first, rest).Success? && Valid(New(e, id, first, rest).value)
    ensures Old(e, id, first, rest).value.key == e.key && New(e, id, first, rest).value.key == e.key
  {
    FilterSucceeds(e, OldStateCondition(id, first, rest));
    FilterSucceeds(e, NewStateCondition(id, first, rest));
  }

  /** On an unfiltered state event, `old(...)` sets exactly the old-state
      filter; chaining `old(...).new(...)` is `>>` of their conjunction. */
  lemma OldThenNew(entityId: string, i: nat, a: string, j: nat, b: string)
    ensures Old(StateEventOf(entityId), i, a, []) == Success(Event(StateChange, entityId, Some(OldStateCondition(i, a, []))))
    ensures var both := Conj(OldStateCondition(i, a, []), NewStateCondition(j, b, []));
      && both.Success?
      && New(Old(StateEventOf(entityId), i, a, []).value, j, b, []) == Filter(StateEventOf(entityId), both.value)
  {
    FilterChain(StateEventOf(entityId), OldStateCondition(i, a, []), NewStateCondition(j, b, []));
  }

  /** Two `old(...)` filters made by different calls are different
      conditions, even for the same states, so events filtered by them are
      different keys of a schema. */
  lemma SeparateCallsDiffer(e: Event, i: nat, j: nat, first: string, rest: seq<string>)
    requires Valid(e) && e.kind == StateChange && i != j
    ensures OldStateCondition(i, first, rest) != OldStateCondition(j, first, rest)
    ensures Old(e, i, first, rest).value != Old(e, j, first, rest).value
  {
    var ci := OldStateCondition(i, first, rest);
    var cj := OldStateCondition(j, first, rest);
    OldNewAlwaysAdmissible(e, i, first, rest);
    OldNewAlwaysAdmissible(e, j, first, rest);
    if e.condition.Some? {
      ConjShape(e.condition.value, ci);
      ConjShape(e.condition.value, cj);
      var ki := Conj(e.condition.value, ci).value.children;
      var kj := Conj(e.condition.value, cj).value.children;
      assert ki[|ki| - 1] == ci && kj[|kj| - 1] == cj;
    }
  }
}

=== FILE: state_event_manager.dfy ===
/** `state_event_manager.py`: the registrations of state events by entity,
    and what one state-change notification makes happen: the matching
    registrations grouped by script, each matched script cancelled once and
    then given its actions in order. */
module Dispatch {
  import opened Wrappers
  import opened Values
  import opened Conditions
  import opened Actions
  import opened Events
  import opened StateEvents
  import opened Tables

  /** One `(state_event, script, action)` triple; the script is named (the
      script manager hands out exactly one script per name). */
  datatype Registration = Registration(event: Event, script: string, action: Action)

  /** `entity_state_triggers`: registrations by entity id, in order. */
  type Registry = map<string, seq<Registration>>

  /** `entity_state_triggers.get(entity_id, [])`. */
  function Triggers(reg: Registry, entityId: string): seq<Registration> {
    if entityId in reg then reg[entityId] else []
  }

  /** `add`: an empty entity id is an assertion failure; otherwise the triple
      is appended to that entity's list, duplicates included. */
  function Add(reg: Registry, event: Event, script: string, action: Action): (r: Result<Registry, Error>)
    ensures r.Success? <==> event.key != ""
    ensures r.Success? ==>
      && Triggers(r.value, event.key) == Triggers(reg, event.key) + [Registration(event, script, action)]
      && r.value.Keys == reg.Keys + {event.key}
      && forall id :: id != event.key ==> Triggers(r.value, id) == Triggers(reg, id)
  {
    if event.key == "" then Failure(AssertionFailed("Empty entity ID in entity state trigger"))
    else Success(reg[event.key := Triggers(reg, event.key) + [Registration(event, script, action)]])
  }

  /** `_test_state_event`: an unfiltered event matches every change;
      otherwise its filter is called with `entity_id`, `old` and `new`. */
  function TestStateEvent(e: Event, entityId: string, before: Value, after: Value, oracle: Oracle): Result<bool, Error>
  {
    if e.condition.None? then Success(true)
    else Eval(e.condition.value, StateKwargs(entityId, before, after), oracle)
  }

  /** The first loop of `_event_listener`: the (script, action) pairs of the
      registrations whose event matches, in registration order; a filter
      that raises aborts the whole notification. */
  function Matches(regs: seq<Registration>, entityId: string, before: Value, after: Value, oracle: Oracle): (r: Result<seq<(string, Action)>, Error>)
    ensures r.Success? ==> |r.value| <= |regs|
  {
    if |regs| == 0 then Success([])
    else
      var hit :- TestStateEvent(regs[0].event, entityId, before, after, oracle);
      var rest :- Matches(regs[1..], entityId, before, after, oracle);
      Success((if hit then [(regs[0].script, regs[0].action)] else []) + rest)
  }

  /** Calls the listener makes on scripts, in order. */
  datatype Effect = Cancel(script: string) | Start(script: string, action: Action)

  /** `script.run_action(a)` for every action of one script. */
  function Starts(script: string, actions: seq<Action>): (r: seq<Effect>)
    ensures |r| == |actions|
    ensures forall i :: 0 <= i < |r| ==> r[i] == Start(script, actions[i])
  {
    if |actions| == 0 then [] else [Start(script, actions[0])] + Starts(script, actions[1..])
  }

  /** The second loop: per script, in plan order, cancel then start; no
      script is started before it has been cancelled. */
  function Effects(plan: Table<string, Action>): (r: seq<Effect>)
    ensures CancelledBeforeStart(r)
  {
    if |plan| == 0 then []
    else
      var k := plan[0].0;
      var starts := Starts(k, plan[0].1);
      var rest := Effects(plan[1..]);
      var e := [Cancel(k)] + starts + rest;
      assert CancelledBeforeStart(e) by {
        forall j | 0 <= j < |e| && e[j].Start? ensures exists i :: 0 <= i < j && e[i] == Cancel(e[j].script) {
          if j <= |starts| {
            assert e[j] == starts[j - 1];
            assert e[0] == Cancel(k);
          } else {
            var j' := j - 1 - |starts|;
            assert e[j] == rest[j'];
            var i' :| 0 <= i' < j' && rest[i'] == Cancel(rest[j'].script);
            assert e[i' + 1 + |starts|] == rest[i'];
          }
        }
      }
      e
  }

  /** `_event_listener` for a change of `entityId` from `before` to `after`:
      it fails exactly when some registered filter raises, and then no
      script is started before it has been cancelled. */
  function Plan(reg: Registry, entityId: string, before: Value, after: Value, oracle: Oracle): (r: Result<seq<Effect>, Error>)
    ensures r.Success? <==> forall i :: 0 <= i < |Triggers(reg, entityId)| ==>
      TestStateEvent(Triggers(reg, entityId)[i].event, entityId, before, after, oracle).Success?
    ensures r.Success? ==> CancelledBeforeStart(r.value)
  {
    MatchesSucceeds(Triggers(reg, entityId), entityId, before, after, oracle);
    var matched :- Matches(Triggers(reg, entityId), entityId, before, after, oracle);
    Success(Effects(Group(matched)))
  }

  /** A registration matches: its event is unfiltered or its filter holds. */
  predicate Hit(r: Registration, entityId: string, before: Value, after: Value, oracle: Oracle) {
    TestStateEvent(r.event, entityId, before, after, oracle) == Success(true)
  }

  /** Matching succeeds exactly when no filter raises. */
  lemma {:induction false} MatchesSucceeds(regs: seq<Registration>, entityId: string, before: Value, after: Value, oracle: Oracle)
    ensures Matches(regs, entityId, before, after, oracle).Success?
        <==> forall i :: 0 <= i < |regs| ==> TestStateEvent(regs[i].event, entityId, before, after, oracle).Success?
  {
    if |regs| > 0 {
      var rest := regs[1..];
      MatchesSucceeds(rest, entityId, before, after, oracle);
      forall i | 1 <= i < |regs| ensures regs[i] == rest[i - 1] { }
    }
  }

  /** When matching succeeds, a pair is matched exactly when some
      registration with that script and action hits. */
  lemma {:induction false} MatchesMembers(regs: seq<Registration>, entityId: string, before: Value, after: Value, oracle: Oracle, s: string, a: Action)
    requires Matches(regs, entityId, before, after, oracle).Success?
    ensures (s, a) in Matches(regs, entityId, before, after, oracle).value
        <==> exists i :: 0 <= i < |regs| && regs[i].script == s && regs[i].action == a && Hit(regs[i], entityId, before, after, oracle)
  {
    if |regs| > 0 {
      var tail := regs[1..];
      MatchesMembers(tail, entityId, before, after, oracle, s, a);
      var rest := Matches(tail, entityId, before, after, oracle).value;
      if (s, a) in rest {
        var i :| 0 <= i < |tail| && tail[i].script == s && tail[i].action == a && Hit(tail[i], entityId, before, after, oracle);
        assert regs[i + 1] == tail[i];
      }
      if exists i :: 0 <= i < |regs| && regs[i].script == s && regs[i].action == a && Hit(regs[i], entityId, before, after, oracle) {
        var i :| 0 <= i < |regs| && regs[i].script == s && regs[i].action == a && Hit(regs[i], entityId, before, after, oracle);
        if i > 0 {
          assert tail[i - 1] == regs[i];
        }
      }
    }
  }

  /** Matching a concatenation of registration lists is matching each in
      turn: the first raising filter aborts, and otherwise the pairs of the
      first list come before those of the second. */
  lemma {:induction false} MatchesAppend(a: seq<Registration>, b: seq<Registration>, entityId: string, before: Value, after: Value, oracle: Oracle)
    ensures Matches(a + b, entityId, before, after, oracle)
         == Joined(Matches(a, entityId, before, after, oracle), Matches(b, entityId, before, after, oracle))
  {
    var mb := Matches(b, entityId, before, after, oracle);
    if |a| == 0 {
      assert a + b == b;
      assert Matches(a, entityId, before, after, oracle) == Success([]);
      if mb.Success? {
        assert [] + mb.value == mb.value;
      }
    } else {
      assert (a + b)[0] == a[0];
      assert (a + b)[1..] == a[1..] + b;
      MatchesAppend(a[1..], b, entityId, before, after, oracle);
      MatchesAppendStep(a, b, entityId, before, after, oracle);
    }
  }

  /** Two matching results one after the other: the first failure wins,
      otherwise the pairs are concatenated. */
  function Joined(ma: Result<seq<(string, Action)>, Error>, mb: Result<seq<(string, Action)>, Error>): (r: Result<seq<(string, Action)>, Error>)
  {
    if ma.Failure? then Failure(ma.error) else if mb.Failure? then Failure(mb.error) else Success(ma.value + mb.value)
  }

  /** The inductive step of `MatchesAppend`: the first registration of `a`
      is tested before anything of `b`. */
  lemma MatchesAppendStep(a: seq<Registration>, b: seq<Registration>, entityId: string, before: Value, after: Value, oracle: Oracle)
    requires |a| > 0
    requires Matches(a[1..] + b, entityId, before, after, oracle)
          == Joined(Matches(a[1..], entityId, before, after, oracle), Matches(b, entityId, before, after, oracle))
    ensures Matches(a + b, entityId, before, after, oracle)
         == Joined(Matches(a, entityId, before, after, oracle), Matches(b, entityId, before, after, oracle))
  {
    assert (a + b)[0] == a[0];
    assert (a + b)[1..] == a[1..] + b;
    MatchesStep(a, entityId, before, after, oracle);
    MatchesStep(a + b, entityId, before, after, oracle);
    JoinedAssoc(Tested(a[0], entityId, before, after, oracle), Matches(a[1..], entityId, before, after, oracle), Matches(b, entityId, before, after, oracle));
  }

  lemma JoinedAssoc(x: Result<seq<(string, Action)>, Error>, y: Result<seq<(string, Action)>, Error>, z: Result<seq<(string, Action)>, Error>)
    ensures Joined(x, Joined(y, z)) == Joined(Joined(x, y), z)
  {
    if x.Success? && y.Success? && z.Success? {
      assert x.value + (y.value + z.value) == (x.value + y.value) + z.value;
    }
  }

  /** What testing one registration contributes to the matches: its pair
      when it hits, nothing when it does not, the error when its filter
      raises. */
  function Tested(reg: Registration, entityId: string, before: Value, after: Value, oracle: Oracle): Result<seq<(string, Action)>, Error> {
    var hit := TestStateEvent(reg.event, entityId, before, after, oracle);
    if hit.Failure? then Failure(hit.error) else Success(if hit.value then [(reg.script, reg.action)] else [])
  }

  /** One step of the matching loop. */
  lemma MatchesStep(regs: seq<Registration>, entityId: string, before: Value, after: Value, oracle: Oracle)
    requires |regs| > 0
    ensures Matches(regs, entityId, before, after, oracle)
         == Joined(Tested(regs[0], entityId, before, after, oracle), Matches(regs[1..], entityId, before, after, oracle))
  {
  }

  /** A single registration contributes its pair exactly when it hits, and
      its raising filter aborts. */
  lemma MatchesOne(reg: Registration, entityId: string, before: Value, after: Value, oracle: Oracle)
    ensures var hit := TestStateEvent(reg.event, entityId, before, after, oracle);
      Matches([reg], entityId, before, after, oracle)
        == if hit.Failure? then Failure(hit.error) else Success(if hit.value then [(reg.script, reg.action)] else [])
  {
    var none: seq<Registration> := [];
    assert [reg][1..] == none;
    assert Matches(none, entityId, before, after, oracle) == Success([]);
    var hit := TestStateEvent(reg.event, entityId, before, after, oracle);
    if hit.Success? {
      var here: seq<(string, Action)> := if hit.value then [(reg.script, reg.action)] else [];
      assert here + [] == here;
    }
  }

  /** Matching succeeds exactly when no filter raises, and then a pair is
      matched exactly when some registration with that script and action
      hits. */
  lemma MatchesSemantics(regs: seq<Registration>, entityId: string, before: Value, after: Value, oracle: Oracle)
    ensures Matches(regs, entityId, before, after, oracle).Success?
        <==> forall i :: 0 <= i < |regs| ==> TestStateEvent(regs[i].event, entityId, before, after, oracle).Success?
    ensures Matches(regs, entityId, before, after, oracle).Success? ==>
      forall s, a :: (s, a) in Matches(regs, entityId, before, after, oracle).value
        <==> exists i :: 0 <= i < |regs| && regs[i].script == s && regs[i].action == a && Hit(regs[i], entityId, before, after, oracle)
  {
    MatchesSucceeds(regs, entityId, before, after, oracle);
    if Matches(regs, entityId, before, after, oracle).Success? {
      forall s, a ensures (s, a) in Matches(regs, entityId, before, after, oracle).value
          <==> exists i :: 0 <= i < |regs| && regs[i].script == s && regs[i].action == a && Hit(regs[i], entityId, before, after, oracle) {
        MatchesMembers(regs, entityId, before, after, oracle, s, a);
      }
    }
  }

  /** A change of an entity nobody registered for does nothing. */
  lemma UnknownEntity(reg: Registry, entityId: string, before: Value, after: Value, oracle: Oracle)
    requires entityId !in reg
    ensures Plan(reg, entityId, before, after, oracle) == Success([])
  {
    var none: seq<(string, Action)> := [];
    assert Group(none) == [];
  }

  /** The actions started for `script`, in order. */
  function StartsFor(effects: seq<Effect>, script: string): seq<Action>
  {
    if |effects| == 0 then []
    else (if effects[0].Start? && effects[0].script == script then [effects[0].action] else []) + StartsFor(effects[1..], script)
  }

  /** How often `script` is cancelled. */
  function CancelCount(effects: seq<Effect>, script: string): nat
  {
    if |effects| == 0 then 0 else (if effects[0] == Cancel(script) then 1 else 0) + CancelCount(effects[1..], script)
  }

  /** Every start of a script comes after a cancellation of that script. */
  ghost predicate CancelledBeforeStart(effects: seq<Effect>) {
    forall j :: 0 <= j < |effects| && effects[j].Start? ==>
      exists i :: 0 <= i < j && effects[i] == Cancel(effects[j].script)
  }

  lemma {:induction false} StartsFacts(script: string, actions: seq<Action>, rest: seq<Effect>, s: string)
    ensures StartsFor(Starts(script, actions) + rest, s) == (if s == script then actions else []) + StartsFor(rest, s)
    ensures CancelCount(Starts(script, actions) + rest, s) == CancelCount(rest, s)
  {
    if |actions| > 0 {
      var tail := Starts(script, actions[1..]) + rest;
      assert Starts(script, actions) + rest == [Start(script, actions[0])] + tail;
      assert ([Start(script, actions[0])] + tail)[1..] == tail;
      StartsFacts(script, actions[1..], rest, s);
      assert [actions[0]] + actions[1..] == actions;
    } else {
      assert Starts(script, actions) + rest == rest;
    }
  }

  /** The effects of a non-empty plan: its first script's cancellation and
      starts, then the effects of the rest. */
  lemma EffectsCons(plan: Table<string, Action>, s: string)
    requires |plan| > 0
    ensures StartsFor(Effects(plan), s)
        == (if s == plan[0].0 then plan[0].1 else []) + StartsFor(Effects(plan[1..]), s)
    ensures CancelCount(Effects(plan), s)
        == (if s == plan[0].0 then 1 else 0) + CancelCount(Effects(plan[1..]), s)
  {
    var body := Starts(plan[0].0, plan[0].1) + Effects(plan[1..]);
    assert Effects(plan) == [Cancel(plan[0].0)] + body;
    assert ([Cancel(plan[0].0)] + body)[1..] == body;
    StartsFacts(plan[0].0, plan[0].1, Effects(plan[1..]), s);
  }

  /** For a plan with each script once, the effects cancel each planned
      script exactly once and no other script. */
  lemma {:induction false} EffectsCancels(plan: Table<string, Action>, s: string)
    requires DistinctKeys(plan)
    ensures CancelCount(Effects(plan), s) == if s in Keys(plan) then 1 else 0
  {
    if |plan| > 0 {
      HeadNotInTail(plan);
      KeysCons(plan);
      EffectsCancels(plan[1..], s);
      EffectsCons(plan, s);
    }
  }

  /** The effects start for each script exactly its planned actions, in
      order. */
  lemma {:induction false} EffectsStarts(plan: Table<string, Action>, s: string)
    ensures StartsFor(Effects(plan), s) == Get(plan, s)
  {
    if |plan| > 0 {
      EffectsStarts(plan[1..], s);
      EffectsCons(plan, s);
    }
  }

  /** For a plan with each script once, the effects cancel each planned
      script exactly once, cancel no other script, and start for each script
      exactly its planned actions, in order. */
  lemma EffectsFacts(plan: Table<string, Action>, s: string)
    requires DistinctKeys(plan)
    ensures CancelCount(Effects(plan), s) == if s in Keys(plan) then 1 else 0
    ensures StartsFor(Effects(plan), s) == Get(plan, s)
  {
    EffectsCancels(plan, s);
    EffectsStarts(plan, s);
  }

  /** One notification: each script with a matching registration is
      cancelled exactly once and before any of its starts, then started with
      the actions of its matching registrations in registration order;
      scripts without a match are neither cancelled nor started. */
  lemma PlanSemantics(reg: Registry, entityId: string, before: Value, after: Value, oracle: Oracle, s: string)
    requires Plan(reg, entityId, before, after, oracle).Success?
    ensures var effects := Plan(reg, entityId, before, after, oracle).value;
      var matched := Matches(Triggers(reg, entityId), entityId, before, after, oracle).value;
      && CancelledBeforeStart(effects)
      && CancelCount(effects, s) == (if s in PairKeys(matched) then 1 else 0)
      && StartsFor(effects, s) == Select(matched, s)
  {
    var matched := Matches(Triggers(reg, entityId), entityId, before, after, oracle).value;
    GroupSelects(matched);
    EffectsFacts(Group(matched), s);
  }
}

=== FILE: state_machine.dfy ===
/** `state_machine.py`: named states with a condition, the events that enter
    them (directly, filtered by the condition, or derived from the states they
    depend on), and the builder that turns the declared states into a schema
    from events to side-effect actions.

    The manager of declared states is a value passed in and out; Python keeps
    it in a module-level global that every `State(...)` registers itself in. */
module StateMachine {
  import opened Wrappers
  import opened Values
  import opened Conditions
  import opened Actions
  import opened Events
  import opened Tables

  /** A field holding either a single item or a list of items. */
  datatype OneOrMany<+T> = One(item: T) | Many(items: seq<T>)

  /** `x if isinstance(x, list) else [x]`. */
  function Listed<T>(x: OneOrMany<T>): seq<T> {
    match x
    case One(i) => [i]
    case Many(items) => items
  }

  /** A frozen `State`. Equality compares every field, as attrs' generated
      `__eq__` does (the fields marked `hash=False` only leave the hash). A
      `depend_on` tuple is `One`, a list of tuples `Many`. */
  datatype State = State(
    name: string,
    condition: Cond,
    sideEffect: Option<OneOrMany<Action>>,
    activatedBy: Option<OneOrMany<Event>>,
    affectBy: Option<OneOrMany<Event>>,
    dependOn: Option<OneOrMany<seq<State>>>)

  /** One `[base_states, base_condition]` entry of `state_bases`. */
  datatype Base = Base(states: seq<State>, condition: Option<Cond>)

  /** `StateManager`: the declared states in declaration order (Python keeps
      a set and iterates it in hash order) and the three per-state tables. */
  datatype StateManager = StateManager(
    states: seq<State>,
    activateEvents: Table<State, Event>,
    stateEvents: Table<State, Event>,
    bases: Table<State, Base>)

  const EmptyManager := StateManager([], [], [], [])

  /** States are declared once each, every table has one entry per state and
      only declared states have entries. */
  ghost predicate ManagerValid(m: StateManager) {
    && (forall i, j :: 0 <= i < j < |m.states| ==> m.states[i] != m.states[j])
    && DistinctKeys(m.activateEvents) && DistinctKeys(m.stateEvents) && DistinctKeys(m.bases)
    && (forall s :: s in Keys(m.activateEvents) ==> s in m.states)
    && (forall s :: s in Keys(m.stateEvents) ==> s in m.states)
    && (forall s :: s in Keys(m.bases) ==> s in m.states)
  }

  /** `setdefault(state, []).extend(list)` when the field is set. */
  function RegisterField<V>(t: Table<State, V>, s: State, field: Option<OneOrMany<V>>): Table<State, V> {
    if field.None? then t else Extend(t, s, Listed(field.value))
  }

  /** `[list(i), None]` for every dependency tuple. */
  function BasesOf(tuples: seq<seq<State>>): (r: seq<Base>)
    ensures |r| == |tuples|
    ensures forall i :: 0 <= i < |r| ==> r[i] == Base(tuples[i], None)
  {
    if |tuples| == 0 then [] else [Base(tuples[0], None)] + BasesOf(tuples[1..])
  }

  /** `StateManager.add`, run by every `State(...)` after construction. */
  function AddState(m: StateManager, s: State): (r: StateManager)
    ensures s in r.states
    ensures forall y :: y in m.states ==> y in r.states
    ensures |r.states| == |m.states| + (if s in m.states then 0 else 1)
    ensures ManagerValid(m) ==> ManagerValid(r)
  {
    var states := if s in m.states then m.states else m.states + [s];
    assert forall y :: y in m.states ==> y in states;
    assert ManagerValid(m) ==> ManagerValid(StateManager(states, RegisterField(m.activateEvents, s, s.activatedBy),
      RegisterField(m.stateEvents, s, s.affectBy), RegisterField(m.bases, s, DependencyEntries(s.dependOn)))) by {
      if ManagerValid(m) {
        FieldDeclared(m.activateEvents, m.states, s, s.activatedBy);
        FieldDeclared(m.stateEvents, m.states, s, s.affectBy);
        FieldDeclared(m.bases, m.states, s, DependencyEntries(s.dependOn));
        DeclareDistinct(m.states, s);
      }
    }
    StateManager(
      states,
      RegisterField(m.activateEvents, s, s.activatedBy),
      RegisterField(m.stateEvents, s, s.affectBy),
      RegisterField(m.bases, s, DependencyEntries(s.dependOn)))
  }

  /** The `state_bases` entries of a `depend_on` field, when it is set. */
  function DependencyEntries(dependOn: Option<OneOrMany<seq<State>>>): Option<OneOrMany<Base>> {
    if dependOn.None? then None else Some(Many(BasesOf(Listed(dependOn.value))))
  }

  /** Registering one field extends only that state's list, keeps one entry
      per state and creates no entry for another state. */
  lemma RegisterFieldSemantics<V>(t: Table<State, V>, s: State, field: Option<OneOrMany<V>>, x: State)
    requires DistinctKeys(t)
    ensures var r := RegisterField(t, s, field);
      && DistinctKeys(r)
      && Keys(r) <= Keys(t) + {s}
      && Get(r, x) == Get(t, x) + (if x == s && field.Some? then Listed(field.value) else [])
  {
    if field.Some? {
      ExtendKeepsDistinct(t, s, Listed(field.value));
      GetExtend(t, s, Listed(field.value), x);
    }
  }

  /** Declaring a state keeps the declared states distinct. */
  lemma DeclareDistinct(states: seq<State>, s: State)
    requires forall i, j :: 0 <= i < j < |states| ==> states[i] != states[j]
    ensures var r := if s in states then states else states + [s];
      forall i, j :: 0 <= i < j < |r| ==> r[i] != r[j]
  {
    if s !in states {
      var r := states + [s];
      forall i, j | 0 <= i < j < |r| ensures r[i] != r[j] {
        if j == |states| {
          assert r[i] == states[i];
        }
      }
    }
  }

  /** Registering a state declares it once, appends its activation events,
      affect events and dependency entries after whatever that state already
      had, and touches no other state; the manager stays valid. */
  lemma AddStateSemantics(m: StateManager, s: State, x: State)
    requires ManagerValid(m)
    ensures var r := AddState(m, s);
      && ManagerValid(r)
      && s in r.states
      && (forall y :: y in m.states ==> y in r.states)
      && |r.states| == |m.states| + (if s in m.states then 0 else 1)
      && Get(r.activateEvents, x) == Get(m.activateEvents, x) + (if x == s && s.activatedBy.Some? then Listed(s.activatedBy.value) else [])
      && Get(r.stateEvents, x) == Get(m.stateEvents, x) + (if x == s && s.affectBy.Some? then Listed(s.affectBy.value) else [])
      && Get(r.bases, x) == Get(m.bases, x) + (if x == s && s.dependOn.Some? then BasesOf(Listed(s.dependOn.value)) else [])
  {
    RegisterFieldSemantics(m.activateEvents, s, s.activatedBy, x);
    RegisterFieldSemantics(m.stateEvents, s, s.affectBy, x);
    RegisterFieldSemantics(m.bases, s, DependencyEntries(s.dependOn), x);
  }

  /** Registering one field of a newly declared state keeps one entry per
      state, each of a declared state. */
  lemma FieldDeclared<V>(t: Table<State, V>, states: seq<State>, s: State, field: Option<OneOrMany<V>>)
    requires DistinctKeys(t) && forall k :: k in Keys(t) ==> k in states
    ensures var r := RegisterField(t, s, field);
      var declared := if s in states then states else states + [s];
      && DistinctKeys(r)
      && forall k :: k in Keys(r) ==> k in declared
  {
    RegisterFieldSemantics(t, s, field, s);
    var declared := if s in states then states else states + [s];
    assert s in declared;
    assert forall y :: y in states ==> y in declared;
  }

  /** `~state`: refused for a state with side effects; otherwise the same
      state named `"NOT " + name` with the inverted condition. */
  function InvertState(s: State): (r: Result<State, Error>)
    ensures r.Success? <==> s.sideEffect.None?
    ensures r.Failure? ==> r.error == InvertWithSideEffect
    ensures r.Success? ==>
      && r.value.name == "NOT " + s.name
      && r.value.sideEffect == s.sideEffect && r.value.activatedBy == s.activatedBy
      && r.value.affectBy == s.affectBy && r.value.dependOn == s.dependOn
      && r.value != s
  {
    if s.sideEffect.Some? then Failure(InvertWithSideEffect)
    else
      var r := s.(name := "NOT " + s.name, condition := Invert(s.condition));
      assert |r.name| != |s.name|;
      Success(r)
  }

  /** The inverted state holds exactly when the original does not. */
  lemma InvertStateEval(s: State, kw: Kwargs, oracle: Oracle)
    requires s.sideEffect.None?
    ensures InvertState(s).value.condition.args == s.condition.args
    ensures Eval(InvertState(s).value.condition, kw, oracle) == Not(Eval(s.condition, kw, oracle))
  {
    InvertProperties(s.condition, kw, oracle);
  }

  /** `~state` as written: the inverted state is built by `attrs.evolve`,
      which runs the constructor and so registers it, with the original's
      events and dependencies. */
  function DeclareInverted(m: StateManager, s: State): (r: Result<(StateManager, State), Error>)
    ensures r.Success? <==> s.sideEffect.None?
    ensures r.Success? ==>
      && r.value.1.name == "NOT " + s.name
      && r.value.1 in r.value.0.states
      && (forall y :: y in m.states ==> y in r.value.0.states)
      && (s.activatedBy.Some? ==> r.value.1 in Keys(r.value.0.activateEvents))
      && (s.affectBy.Some? ==> r.value.1 in Keys(r.value.0.stateEvents))
    ensures r.Success? && ManagerValid(m) ==> var (m', t) := r.value;
      && ManagerValid(m')
      && forall x ::
        && Get(m'.activateEvents, x) == Get(m.activateEvents, x) + (if x == t && s.activatedBy.Some? then Listed(s.activatedBy.value) else [])
        && Get(m'.stateEvents, x) == Get(m.stateEvents, x) + (if x == t && s.affectBy.Some? then Listed(s.affectBy.value) else [])
        && Get(m'.bases, x) == Get(m.bases, x) + (if x == t && s.dependOn.Some? then BasesOf(Listed(s.dependOn.value)) else [])
  {
    var t :- InvertState(s);
    var m' := AddState(m, t);
    assert ManagerValid(m) ==> forall x ::
        && Get(m'.activateEvents, x) == Get(m.activateEvents, x) + (if x == t && s.activatedBy.Some? then Listed(s.activatedBy.value) else [])
        && Get(m'.stateEvents, x) == Get(m.stateEvents, x) + (if x == t && s.affectBy.Some? then Listed(s.affectBy.value) else [])
        && Get(m'.bases, x) == Get(m.bases, x) + (if x == t && s.dependOn.Some? then BasesOf(Listed(s.dependOn.value)) else []) by {
      if ManagerValid(m) {
        forall x ensures Get(m'.activateEvents, x) == Get(m.activateEvents, x) + (if x == t && s.activatedBy.Some? then Listed(s.activatedBy.value) else [])
          && Get(m'.stateEvents, x) == Get(m.stateEvents, x) + (if x == t && s.affectBy.Some? then Listed(s.affectBy.value) else [])
          && Get(m'.bases, x) == Get(m.bases, x) + (if x == t && s.dependOn.Some? then BasesOf(Listed(s.dependOn.value)) else []) {
          AddStateSemantics(m, t, x);
        }
      }
    }
    Success((m', t))
  }

  /** The events derived so far (`state_to_events`) and the manager's
      dependency table, which the builder consumes as it goes. */
  datatype Build = Build(toEvents: Table<State, Event>, bases: Table<State, Base>)

  /** `setdefault(k, []).append(v)` for each `v` in turn: nothing at all
      happens for an empty list, not even the key's creation. */
  function AppendAll<V>(t: Table<State, V>, k: State, vs: seq<V>): Table<State, V> {
    if |vs| == 0 then t else Extend(t, k, vs)
  }

  lemma AppendAllSemantics<V>(t: Table<State, V>, k: State, vs: seq<V>, x: State)
    requires DistinctKeys(t)
    ensures DistinctKeys(AppendAll(t, k, vs))
    ensures Keys(AppendAll(t, k, vs)) == Keys(t) + (if |vs| == 0 then {} else {k})
    ensures Get(AppendAll(t, k, vs), x) == Get(t, x) + (if x == k then vs else [])
  {
    if |vs| > 0 {
      ExtendKeepsDistinct(t, k, vs);
      GetExtend(t, k, vs, x);
    }
  }

  /** `[e >> c for e in events]`, the first refusal aborting. */
  function FilterAll(events: seq<Event>, c: Cond): (r: Result<seq<Event>, Error>)
    ensures r.Success? <==> forall i :: 0 <= i < |events| ==> Filter(events[i], c).Success?
    ensures r.Success? ==>
      && |r.value| == |events|
      && forall i :: 0 <= i < |events| ==> r.value[i] == Filter(events[i], c).value
  {
    if |events| == 0 then Success([])
    else
      var first :- Filter(events[0], c);
      var rest :- FilterAll(events[1..], c);
      assert forall i :: 1 <= i < |events| ==> events[i] == events[1..][i - 1];
      Success([first] + rest)
  }

  /** `_try_activate_events`: a state with activation events gets them as
      they are; one that also has affect events is an assertion failure. The
      flag says whether the state is done. */
  function TryActivate(m: StateManager, b: Build, s: State): (r: Result<(Build, bool), Error>)
    ensures s !in Keys(m.activateEvents) ==> r == Success((b, false))
    ensures s in Keys(m.activateEvents) && s in Keys(m.stateEvents) ==> r.Failure?
    ensures s in Keys(m.activateEvents) && s !in Keys(m.stateEvents) ==>
      && r.Success? && r.value.1 && r.value.0.bases == b.bases
      && (DistinctKeys(b.toEvents) ==> forall x :: Get(r.value.0.toEvents, x) == Get(b.toEvents, x) + (if x == s then Get(m.activateEvents, s) else []))
  {
    if s !in Keys(m.activateEvents) then Success((b, false))
    else if s in Keys(m.stateEvents) then Failure(AssertionFailed("both in activated event and state event"))
    else
      var t := AppendAll(b.toEvents, s, Get(m.activateEvents, s));
      assert DistinctKeys(b.toEvents) ==> forall x :: Get(t, x) == Get(b.toEvents, x) + (if x == s then Get(m.activateEvents, s) else []) by {
        if DistinctKeys(b.toEvents) {
          forall x ensures Get(t, x) == Get(b.toEvents, x) + (if x == s then Get(m.activateEvents, s) else []) {
            AppendAllSemantics(b.toEvents, s, Get(m.activateEvents, s), x);
          }
        }
      }
      Success((b.(toEvents := t), true))
  }

  /** `_try_events`: a state with affect events gets each of them filtered
      by the state's own condition. */
  function TryEvents(m: StateManager, b: Build, s: State): (r: Result<(Build, bool), Error>)
    ensures s !in Keys(m.stateEvents) ==> r == Success((b, false))
    ensures s in Keys(m.stateEvents) ==>
      && (r.Success? <==> FilterAll(Get(m.stateEvents, s), s.condition).Success?)
      && (r.Success? ==> r.value.1 && r.value.0.bases == b.bases)
      && (r.Success? && DistinctKeys(b.toEvents) ==>
            forall x :: Get(r.value.0.toEvents, x) == Get(b.toEvents, x) + (if x == s then FilterAll(Get(m.stateEvents, s), s.condition).value else []))
  {
    if s !in Keys(m.stateEvents) then Success((b, false))
    else
      var affect := Get(m.stateEvents, s);
      var events :- FilterAll(affect, s.condition);
      var t := AppendAll(b.toEvents, s, events);
      assert DistinctKeys(b.toEvents) ==> forall x :: Get(t, x) == Get(b.toEvents, x) + (if x == s then events else []) by {
        if DistinctKeys(b.toEvents) {
          forall x ensures Get(t, x) == Get(b.toEvents, x) + (if x == s then events else []) {
            AppendAllSemantics(b.toEvents, s, events, x);
          }
        }
      }
      Success((b.(toEvents := t), true))
  }

  /** Folding the other base states' conditions onto `base_condition` with
      `&`, starting from the first one when there is none yet. */
  function Combine(acc: Option<Cond>, states: seq<State>): (r: Result<Option<Cond>, Error>)
    ensures |states| == 0 ==> r == Success(acc)
    ensures |states| > 0 && r.Success? ==> r.value.Some?
  {
    ConjAll(acc, ConditionsOf(states))
  }

  /** The conditions of a list of states, in order. */
  function ConditionsOf(states: seq<State>): (r: seq<Cond>)
    ensures |r| == |states|
    ensures forall i :: 0 <= i < |states| ==> r[i] == states[i].condition
  {
    if |states| == 0 then [] else [states[0].condition] + ConditionsOf(states[1..])
  }

  /** The combined condition holds exactly when the base condition and then
      every other state's condition hold, in list order. */
  lemma CombineEval(acc: Option<Cond>, states: seq<State>, kw: Kwargs, oracle: Oracle)
    requires Combine(acc, states).Success? && Combine(acc, states).value.Some?
    requires Accepts(Combine(acc, states).value.value.args, kw)
    ensures Eval(Combine(acc, states).value.value, kw, oracle) == EvalAll(Conditions.Listed(acc) + ConditionsOf(states), kw, oracle)
  {
    ConjAllEval(acc, ConditionsOf(states), kw, oracle);
  }

  /** `event if cond is None else event >> cond` for each event. */
  function Restrict(events: seq<Event>, cond: Option<Cond>): Result<seq<Event>, Error> {
    if cond.None? then Success(events) else FilterAll(events, cond.value)
  }

  /** The list without its element at `i`. */
  function Without<T>(xs: seq<T>, i: nat): (r: seq<T>)
    requires i < |xs|
    ensures |r| == |xs| - 1
    ensures forall y :: y in r ==> y in xs
  {
    xs[..i] + xs[i + 1..]
  }

  /** The loop over base states in `_try_base_states` from position `idx`:
      the events of each base state, restricted by the combined condition of
      the others, are appended to the dependent state. `snapshot` holds the
      event lists as they were when the call began. */
  function AddBaseEvents(t: Table<State, Event>, main: State, base: Base, snapshot: seq<seq<Event>>, idx: nat): (r: Result<Table<State, Event>, Error>)
    requires |snapshot| == |base.states|
    ensures r.Success? && DistinctKeys(t) ==> DistinctKeys(r.value) && Keys(r.value) <= Keys(t) + {main}
    decreases |snapshot| - idx
  {
    if idx >= |snapshot| then Success(t)
    else
      var events :- BaseContribution(base, snapshot, idx);
      assert DistinctKeys(t) ==> DistinctKeys(AppendAll(t, main, events)) && Keys(AppendAll(t, main, events)) <= Keys(t) + {main} by {
        if DistinctKeys(t) {
          AppendAllSemantics(t, main, events, main);
        }
      }
      AddBaseEvents(AppendAll(t, main, events), main, base, snapshot, idx + 1)
  }

  /** What base state `i` contributes: each of its events as they were when
      the call began, restricted by the combined condition of the others
      when there is one. */
  function BaseContribution(base: Base, snapshot: seq<seq<Event>>, i: nat): (r: Result<seq<Event>, Error>)
    requires |snapshot| == |base.states| && i < |snapshot|
    ensures var cond := Combine(base.condition, Without(base.states, i));
      && (cond.Failure? ==> r == Failure(cond.error))
      && (cond.Success? && cond.value.None? ==> r == Success(snapshot[i]))
      && (cond.Success? && cond.value.Some? ==>
            && (r.Success? <==> forall k :: 0 <= k < |snapshot[i]| ==> Filter(snapshot[i][k], cond.value.value).Success?)
            && (r.Success? ==> |r.value| == |snapshot[i]| && forall k :: 0 <= k < |snapshot[i]| ==> r.value[k] == Filter(snapshot[i][k], cond.value.value).value))
  {
    var cond :- Combine(base.condition, Without(base.states, i));
    Restrict(snapshot[i], cond)
  }

  /** The contributions of the base states from `idx` on, one after another;
      the first failure aborts. */
  function Contributions(base: Base, snapshot: seq<seq<Event>>, idx: nat): (r: Result<seq<Event>, Error>)
    requires |snapshot| == |base.states|
    ensures r.Success? <==> forall i :: idx <= i < |snapshot| ==> BaseContribution(base, snapshot, i).Success?
    decreases |snapshot| - idx
  {
    if idx >= |snapshot| then Success([])
    else
      var here :- BaseContribution(base, snapshot, idx);
      var later :- Contributions(base, snapshot, idx + 1);
      Success(here + later)
  }

  /** The loop over base states appends, to the dependent state only, every
      base state's contribution in list order, and fails exactly when one of
      them does, with its error. */
  lemma {:induction false} AddBaseEventsGet(t: Table<State, Event>, main: State, base: Base, snapshot: seq<seq<Event>>, idx: nat, x: State)
    requires |snapshot| == |base.states| && DistinctKeys(t)
    ensures AddBaseEvents(t, main, base, snapshot, idx).Success? <==> Contributions(base, snapshot, idx).Success?
    ensures AddBaseEvents(t, main, base, snapshot, idx).Failure? ==>
      AddBaseEvents(t, main, base, snapshot, idx).error == Contributions(base, snapshot, idx).error
    ensures AddBaseEvents(t, main, base, snapshot, idx).Success? ==>
      Get(AddBaseEvents(t, main, base, snapshot, idx).value, x) == Get(t, x) + (if x == main then Contributions(base, snapshot, idx).value else [])
    decreases |snapshot| - idx
  {
    if idx < |snapshot| {
      var here := BaseContribution(base, snapshot, idx);
      if here.Success? {
        var next := AppendAll(t, main, here.value);
        AppendAllSemantics(t, main, here.value, x);
        AddBaseEventsGet(next, main, base, snapshot, idx + 1, x);
        if Contributions(base, snapshot, idx + 1).Success? {
          ConcatAssoc(Get(t, x), if x == main then here.value else [], if x == main then Contributions(base, snapshot, idx + 1).value else []);
        }
      }
    }
  }

  /** The events recorded so far for each state of a list. */
  function Snapshot(t: Table<State, Event>, states: seq<State>): (r: seq<seq<Event>>)
    ensures |r| == |states|
    ensures forall i :: 0 <= i < |states| ==> r[i] == Get(t, states[i])
  {
    if |states| == 0 then [] else [Get(t, states[0])] + Snapshot(t, states[1..])
  }

  /** `_try_base_states`: `None` while some base state has no events yet;
      otherwise the table with the derived events added. */
  function TryBaseStates(t: Table<State, Event>, main: State, base: Base): (r: Result<Option<Table<State, Event>>, Error>)
    ensures (exists st :: st in base.states && st !in Keys(t)) <==> r == Success(None)
  {
    if exists st :: st in base.states && st !in Keys(t) then Success(None)
    else
      var t' :- AddBaseEvents(t, main, base, Snapshot(t, base.states), 0);
      Success(Some(t'))
  }

  /** Once every base state has events, the dependent state gains, in order,
      each base state's events filtered by the conjunction of the base
      condition and the other base states' conditions; no other state
      changes. */
  lemma TryBaseStatesGet(t: Table<State, Event>, main: State, base: Base, x: State)
    requires DistinctKeys(t)
    requires forall st :: st in base.states ==> st in Keys(t)
    ensures var snapshot := Snapshot(t, base.states);
      && (TryBaseStates(t, main, base).Success? <==> Contributions(base, snapshot, 0).Success?)
      && (TryBaseStates(t, main, base).Success? ==>
            && TryBaseStates(t, main, base).value.Some?
            && Get(TryBaseStates(t, main, base).value.value, x) == Get(t, x) + (if x == main then Contributions(base, snapshot, 0).value else []))
  {
    AddBaseEventsGet(t, main, base, Snapshot(t, base.states), 0, x);
  }

  /** The loop over the dependency entries in `_try_bases` from `idx`: the
      position of the first entry whose base states all have events, with
      the table after it. */
  function FirstBase(t: Table<State, Event>, main: State, list: seq<Base>, idx: nat): (r: Result<(Table<State, Event>, Option<nat>), Error>)
    ensures r.Success? && r.value.1.Some? ==> idx <= r.value.1.value < |list|
    ensures r.Success? && r.value.1.None? ==> r.value.0 == t
  {
    var found :- FirstFound(b => TryBaseStates(t, main, b), list, idx);
    if found.Some? then Success((found.value.0, Some(found.value.1))) else Success((t, None))
  }

  /** A loop `for x in list[idx:]: if (y := f(x)) is not None: break`: the
      first thing found with its position; a failure on the way stops it. */
  function FirstFound<B, T>(f: B -> Result<Option<T>, Error>, list: seq<B>, idx: nat): (r: Result<Option<(T, nat)>, Error>)
    ensures r.Success? && r.value.Some? ==> idx <= r.value.value.1 < |list|
    decreases |list| - idx
  {
    if idx >= |list| then Success(None)
    else
      var found :- f(list[idx]);
      if found.Some? then Success(Some((found.value, idx))) else FirstFound(f, list, idx + 1)
  }

  /** The position found is the first where `f` gives something, `f`
      giving nothing before it; when nothing is found `f` gives nothing
      anywhere; a failure is the failure of `f` at some position. */
  lemma {:induction false} FirstFoundSemantics<B, T>(f: B -> Result<Option<T>, Error>, list: seq<B>, idx: nat)
    ensures var r := FirstFound(f, list, idx);
      && (r.Success? && r.value.Some? ==>
            && f(list[r.value.value.1]) == Success(Some(r.value.value.0))
            && forall j :: idx <= j < r.value.value.1 ==> f(list[j]) == Success(None))
      && (r.Success? && r.value.None? ==> forall j :: idx <= j < |list| ==> f(list[j]) == Success(None))
      && (r.Failure? ==> exists j :: idx <= j < |list| && f(list[j]) == Failure(r.error))
    decreases |list| - idx
  {
    if idx < |list| {
      var tried := f(list[idx]);
      if tried.Success? && tried.value.None? {
        assert FirstFound(f, list, idx) == FirstFound(f, list, idx + 1);
        FirstFoundSemantics(f, list, idx + 1);
      }
    }
  }

  /** The entry used is the first whose base states all have events, every
      entry before it waiting; when none is used, every entry waits; a
      failure is the failure of some entry. */
  lemma FirstBaseSemantics(t: Table<State, Event>, main: State, list: seq<Base>, idx: nat)
    ensures var r := FirstBase(t, main, list, idx);
      && (r.Success? && r.value.1.Some? ==>
            && TryBaseStates(t, main, list[r.value.1.value]) == Success(Some(r.value.0))
            && forall j :: idx <= j < r.value.1.value ==> TryBaseStates(t, main, list[j]) == Success(None))
      && (r.Success? && r.value.1.None? ==>
            forall j :: idx <= j < |list| ==> TryBaseStates(t, main, list[j]) == Success(None))
      && (r.Failure? ==> exists j :: idx <= j < |list| && TryBaseStates(t, main, list[j]) == Failure(r.error))
  {
    var f := b => TryBaseStates(t, main, b);
    FirstFoundSemantics(f, list, idx);
    assert forall j :: 0 <= j < |list| ==> f(list[j]) == TryBaseStates(t, main, list[j]);
  }

  /** `_try_bases`: at most one dependency entry is used per call and then
      deleted from the manager; the state is done once no entry is left. */
  function TryBases(b: Build, s: State): (r: Result<(Build, bool), Error>)
    ensures s !in Keys(b.bases) ==> r == Success((b, false))
    ensures r.Success? && s in Keys(b.bases) && DistinctKeys(b.bases) ==>
      && |Get(r.value.0.bases, s)| <= |Get(b.bases, s)|
      && (r.value.1 <==> Get(r.value.0.bases, s) == [])
      && (Get(r.value.0.bases, s) == Get(b.bases, s) ==> r.value.0.toEvents == b.toEvents)
      && forall x :: x != s ==> Get(r.value.0.bases, x) == Get(b.bases, x)
  {
    if s !in Keys(b.bases) then Success((b, false))
    else
      var list := Get(b.bases, s);
      var found :- FirstBase(b.toEvents, s, list, 0);
      var rest := if found.1.Some? && found.1.value < |list| then Without(list, found.1.value) else list;
      var bases := Replace(b.bases, s, rest);
      assert DistinctKeys(b.bases) ==> forall x :: Get(bases, x) == if x == s then rest else Get(b.bases, x) by {
        if DistinctKeys(b.bases) {
          forall x ensures Get(bases, x) == if x == s then rest else Get(b.bases, x) {
            GetReplace(b.bases, s, rest, x);
          }
        }
      }
      Success((Build(found.0, bases), rest == []))
  }

  /** One pass of the `for` loop in `build_state_to_event` from position
      `i`: the position of the first state found done, with the builder after
      every attempt made until then (attempts that return `False` may still
      have used a dependency entry). */
  function Scan(m: StateManager, b: Build, pending: seq<State>, i: nat): (r: Result<(Build, Option<nat>), Error>)
    ensures r.Success? && r.value.1.Some? ==> i <= r.value.1.value < |pending|
    decreases |pending| - i
  {
    if i >= |pending| then Success((b, None))
    else
      var a :- Attempt(m, b, pending[i]);
      if a.1 then Success((a.0, Some(i))) else Scan(m, a.0, pending, i + 1)
  }

  /** `_try_activate_events(state) or _try_events(state) or
      _try_bases(state)`: the attempts in order, stopping at the first that
      finishes the state. A state that is not finished has neither
      activation nor affect events. */
  function Attempt(m: StateManager, b: Build, s: State): (r: Result<(Build, bool), Error>)
    ensures r.Success? && !r.value.1 ==> s !in Keys(m.activateEvents) && s !in Keys(m.stateEvents)
  {
    var a :- TryActivate(m, b, s);
    if a.1 then Success(a)
    else
      var e :- TryEvents(m, a.0, s);
      if e.1 then Success(e) else TryBases(e.0, s)
  }

  /** One iteration of the `while` loop: a scan, and the state found done
      leaves the pending list. */
  function Round(m: StateManager, b: Build, pending: seq<State>): (r: Result<(Build, seq<State>), Error>)
    ensures r.Success? ==> |r.value.1| <= |pending| && forall s :: s in r.value.1 ==> s in pending
  {
    var (b', found) :- Scan(m, b, pending, 0);
    if found.Some? && found.value < |pending| then Success((b', Without(pending, found.value))) else Success((b', pending))
  }

  /** The entry `_try_bases` uses is the first one whose base states all
      have events: that entry and no other leaves the state's list, and its
      derived events are the new table. When no entry is ready nothing
      changes. */
  lemma TryBasesSemantics(b: Build, s: State)
    requires s in Keys(b.bases) && DistinctKeys(b.bases) && TryBases(b, s).Success?
    ensures var r := TryBases(b, s).value; var list := Get(b.bases, s);
      && ((forall j :: 0 <= j < |list| ==> TryBaseStates(b.toEvents, s, list[j]) == Success(None)) ==>
            r.0.toEvents == b.toEvents && Get(r.0.bases, s) == list)
      && forall k :: (0 <= k < |list| && TryBaseStates(b.toEvents, s, list[k]).Success? && TryBaseStates(b.toEvents, s, list[k]).value.Some?
            && (forall j :: 0 <= j < k ==> TryBaseStates(b.toEvents, s, list[j]) == Success(None))) ==>
            (r.0.toEvents == TryBaseStates(b.toEvents, s, list[k]).value.value && Get(r.0.bases, s) == Without(list, k))
  {
    var list := Get(b.bases, s);
    if forall j :: 0 <= j < |list| ==> TryBaseStates(b.toEvents, s, list[j]) == Success(None) {
      TryBasesWaits(b, s);
    }
    forall k | 0 <= k < |list| && TryBaseStates(b.toEvents, s, list[k]).Success? && TryBaseStates(b.toEvents, s, list[k]).value.Some?
        && (forall j :: 0 <= j < k ==> TryBaseStates(b.toEvents, s, list[j]) == Success(None))
      ensures TryBases(b, s).value.0.toEvents == TryBaseStates(b.toEvents, s, list[k]).value.value
      ensures Get(TryBases(b, s).value.0.bases, s) == Without(list, k)
    {
      TryBasesUses(b, s, k);
    }
  }

  /** What `_try_bases` leaves, in terms of the entry the loop found. */
  lemma TryBasesFound(b: Build, s: State)
    requires s in Keys(b.bases) && DistinctKeys(b.bases) && TryBases(b, s).Success?
    ensures var list := Get(b.bases, s);
      var found := FirstBase(b.toEvents, s, list, 0);
      && found.Success?
      && TryBases(b, s).value.0.toEvents == found.value.0
      && Get(TryBases(b, s).value.0.bases, s) == if found.value.1.Some? then Without(list, found.value.1.value) else list
  {
    var list := Get(b.bases, s);
    var found := FirstBase(b.toEvents, s, list, 0).value;
    var rest := if found.1.Some? && found.1.value < |list| then Without(list, found.1.value) else list;
    GetReplace(b.bases, s, rest, s);
    assert TryBases(b, s).value.0 == Build(found.0, Replace(b.bases, s, rest));
  }

  /** When every entry waits, `_try_bases` changes nothing. */
  lemma TryBasesWaits(b: Build, s: State)
    requires s in Keys(b.bases) && DistinctKeys(b.bases) && TryBases(b, s).Success?
    requires forall j :: 0 <= j < |Get(b.bases, s)| ==> TryBaseStates(b.toEvents, s, Get(b.bases, s)[j]) == Success(None)
    ensures TryBases(b, s).value.0.toEvents == b.toEvents && Get(TryBases(b, s).value.0.bases, s) == Get(b.bases, s)
  {
    var list := Get(b.bases, s);
    TryBasesFound(b, s);
    FirstBaseSemantics(b.toEvents, s, list, 0);
  }

  /** The first entry that does not wait is used and removed. */
  lemma TryBasesUses(b: Build, s: State, k: nat)
    requires s in Keys(b.bases) && DistinctKeys(b.bases) && TryBases(b, s).Success?
    requires k < |Get(b.bases, s)|
    requires TryBaseStates(b.toEvents, s, Get(b.bases, s)[k]).Success? && TryBaseStates(b.toEvents, s, Get(b.bases, s)[k]).value.Some?
    requires forall j :: 0 <= j < k ==> TryBaseStates(b.toEvents, s, Get(b.bases, s)[j]) == Success(None)
    ensures TryBases(b, s).value.0.toEvents == TryBaseStates(b.toEvents, s, Get(b.bases, s)[k]).value.value
    ensures Get(TryBases(b, s).value.0.bases, s) == Without(Get(b.bases, s), k)
  {
    var list := Get(b.bases, s);
    TryBasesFound(b, s);
    FirstBaseSemantics(b.toEvents, s, list, 0);
    var found := FirstBase(b.toEvents, s, list, 0).value;
    assert found.1.Some?;
    assert found.1.value == k;
  }

  /** A scan passes over only states with neither activation nor affect
      events: every state before the one it stops at has none. */
  lemma {:induction false} ScanSkipsBefore(m: StateManager, b: Build, pending: seq<State>, i: nat)
    requires Scan(m, b, pending, i).Success? && Scan(m, b, pending, i).value.1.Some?
    ensures forall j :: i <= j < Scan(m, b, pending, i).value.1.value ==> pending[j] !in Keys(m.activateEvents) && pending[j] !in Keys(m.stateEvents)
    decreases |pending| - i
  {
    if i < |pending| {
      var a := Attempt(m, b, pending[i]).value;
      if !a.1 {
        assert Scan(m, b, pending, i) == Scan(m, a.0, pending, i + 1);
        assert pending[i] !in Keys(m.activateEvents) && pending[i] !in Keys(m.stateEvents);
        ScanSkipsBefore(m, a.0, pending, i + 1);
        var k := Scan(m, b, pending, i).value.1.value;
        assert forall j :: i + 1 <= j < k ==> pending[j] !in Keys(m.activateEvents) && pending[j] !in Keys(m.stateEvents);
      } else {
        assert Scan(m, b, pending, i) == Success((a.0, Some(i)));
      }
    }
  }

  /** A scan that stops nowhere met no state with activation or affect
      events. */
  lemma {:induction false} ScanSkipsAll(m: StateManager, b: Build, pending: seq<State>, i: nat)
    requires Scan(m, b, pending, i).Success? && Scan(m, b, pending, i).value.1.None?
    ensures forall j :: i <= j < |pending| ==> pending[j] !in Keys(m.activateEvents) && pending[j] !in Keys(m.stateEvents)
    decreases |pending| - i
  {
    if i < |pending| {
      var a := Attempt(m, b, pending[i]).value;
      assert Scan(m, b, pending, i).value.1.None?;
      assert !a.1;
      assert Scan(m, b, pending, i) == Scan(m, a.0, pending, i + 1);
      assert pending[i] !in Keys(m.activateEvents) && pending[i] !in Keys(m.stateEvents);
      ScanSkipsAll(m, a.0, pending, i + 1);
      assert forall j :: i + 1 <= j < |pending| ==> pending[j] !in Keys(m.activateEvents) && pending[j] !in Keys(m.stateEvents);
    }
  }

  /** A state with activation or affect events finishes the scan when it is
      reached: such a state is never passed over. */
  lemma ScanStops(m: StateManager, b: Build, pending: seq<State>, i: nat)
    requires Scan(m, b, pending, i).Success?
    requires i < |pending| && (pending[i] in Keys(m.activateEvents) || pending[i] in Keys(m.stateEvents))
    ensures Scan(m, b, pending, i).value.1 == Some(i)
  {
  }

  /** An iteration of the `while` loop removes exactly the state the scan
      stopped at, or none when it stopped nowhere. */
  lemma RoundSemantics(m: StateManager, b: Build, pending: seq<State>)
    requires Round(m, b, pending).Success?
    ensures var r := Round(m, b, pending).value;
      || (r.1 == pending && forall j :: 0 <= j < |pending| ==> pending[j] !in Keys(m.activateEvents) && pending[j] !in Keys(m.stateEvents))
      || (exists k :: 0 <= k < |pending| && r.1 == Without(pending, k)
            && forall j :: 0 <= j < k ==> pending[j] !in Keys(m.activateEvents) && pending[j] !in Keys(m.stateEvents))
  {
    if Scan(m, b, pending, 0).value.1.Some? {
      ScanSkipsBefore(m, b, pending, 0);
    } else {
      ScanSkipsAll(m, b, pending, 0);
    }
  }

  /** Where the `while` loop stands: the builder and the pending states. */
  type Progress = (Build, seq<State>)

  /** At most `rounds` iterations of `step`, stopping early when no state is
      pending. */
  function Iterate(step: Progress -> Result<Progress, Error>, st: Progress, rounds: nat): Result<Progress, Error>
    decreases rounds
  {
    if |st.1| == 0 || rounds == 0 then Success(st)
    else
      var next :- step(st);
      Iterate(step, next, rounds - 1)
  }

  /** One iteration of the `while` loop as a step function. */
  function Stepper(m: StateManager): Progress -> Result<Progress, Error> {
    (st: Progress) => Round(m, st.0, st.1)
  }

  /** At most `rounds` iterations of the `while` loop. */
  function Loop(m: StateManager, b: Build, pending: seq<State>, rounds: nat): Result<Progress, Error> {
    Iterate(Stepper(m), (b, pending), rounds)
  }

  /** The start of `build_state_to_event`: nothing derived, every declared
      state pending. */
  function Start(m: StateManager): Build {
    Build([], m.bases)
  }

  /** `build_state_to_event` as written: `count` stays at 100, so the loop
      only ends when no state is pending. `fuel` bounds how many iterations
      are observed; `None` means the loop has not ended after that many. */
  function BuildAsWritten(m: StateManager, fuel: nat): (r: Result<Option<Build>, Error>)
    ensures r.Success? && r.value.Some? && ManagerValid(m) ==>
      && DistinctKeys(r.value.value.toEvents) && DistinctKeys(r.value.value.bases)
      && forall s :: s in Keys(r.value.value.toEvents) ==> s in m.states
  {
    var (b, pending) :- Loop(m, Start(m), m.states, fuel);
    assert ManagerValid(m) ==> BuildValid(m, b, pending) by {
      if ManagerValid(m) {
        StartValid(m);
        LoopValid(m, (Start(m), m.states), fuel);
      }
    }
    Success(if pending == [] then Some(b) else None)
  }

  const RoundLimit := 100

  /** `build_state_to_event` with `count` decremented once per iteration:
      at most 100 iterations, after which the states still pending simply
      get no events. */
  function BuildCorrected(m: StateManager): (r: Result<Build, Error>)
    ensures r.Success? && ManagerValid(m) ==>
      && DistinctKeys(r.value.toEvents) && DistinctKeys(r.value.bases)
      && forall s :: s in Keys(r.value.toEvents) ==> s in m.states
  {
    var (b, pending) :- Loop(m, Start(m), m.states, RoundLimit);
    assert ManagerValid(m) ==> BuildValid(m, b, pending) by {
      if ManagerValid(m) {
        StartValid(m);
        LoopValid(m, (Start(m), m.states), RoundLimit);
      }
    }
    Success(b)
  }

  /** Once nothing is pending, further rounds change nothing. */
  lemma {:induction false} IterateDone(step: Progress -> Result<Progress, Error>, st: Progress, n: nat, k: nat)
    requires Iterate(step, st, n).Success? && Iterate(step, st, n).value.1 == []
    ensures Iterate(step, st, n + k) == Iterate(step, st, n)
    decreases n
  {
    if |st.1| > 0 && n > 0 {
      IterateDone(step, step(st).value, n - 1, k);
    }
  }

  /** Wherever the loop as written ends within 100 iterations, the bounded
      loop gives the same table. */
  lemma CorrectedAgrees(m: StateManager, fuel: nat)
    requires fuel <= RoundLimit
    requires BuildAsWritten(m, fuel).Success? && BuildAsWritten(m, fuel).value.Some?
    ensures BuildCorrected(m) == Success(BuildAsWritten(m, fuel).value.value)
  {
    IterateDone(Stepper(m), (Start(m), m.states), fuel, RoundLimit - fuel);
  }

  /** A round that finds no state done and changes nothing is repeated
      forever. */
  lemma {:induction false} StuckForever(step: Progress -> Result<Progress, Error>, st: Progress, n: nat)
    requires |st.1| > 0 && step(st) == Success(st)
    ensures Iterate(step, st, n) == Success(st)
    decreases n
  {
    if n > 0 {
      StuckForever(step, st, n - 1);
    }
  }

  /** A state with neither events nor dependencies: one that is only used
      through `~` or for its condition. */
  function Inert(name: string, c: Cond): State {
    State(name, c, None, None, None, None)
  }

  /** Declaring a single inert state makes the loop as written run forever,
      while the bounded loop ends with no events derived. */
  lemma InertStateHangs(c: Cond, fuel: nat)
    ensures BuildAsWritten(AddState(EmptyManager, Inert("idle", c)), fuel) == Success(None)
    ensures BuildCorrected(AddState(EmptyManager, Inert("idle", c))) == Success(Build([], []))
  {
    var m := AddState(EmptyManager, Inert("idle", c));
    assert m == StateManager([Inert("idle", c)], [], [], []);
    var none: Table<State, Event> := [];
    var b := Build(none, []);
    assert Start(m) == b;
    assert Scan(m, b, m.states, 1) == Success((b, None));
    assert Scan(m, b, m.states, 0) == Success((b, None));
    assert Round(m, b, m.states) == Success((b, m.states));
    StuckForever(Stepper(m), (b, m.states), fuel);
    StuckForever(Stepper(m), (b, m.states), RoundLimit);
  }

  /** What the build keeps true: tables with one entry per state, derived
      events only for states of the manager, pending states among them. */
  ghost predicate BuildValid(m: StateManager, b: Build, pending: seq<State>) {
    && DistinctKeys(b.toEvents) && DistinctKeys(b.bases)
    && (forall s :: s in Keys(b.toEvents) ==> s in m.states)
    && (forall s :: s in pending ==> s in m.states)
  }

  lemma FirstBaseValid(t: Table<State, Event>, main: State, list: seq<Base>, idx: nat, states: seq<State>)
    requires DistinctKeys(t) && main in states
    requires forall s :: s in Keys(t) ==> s in states
    requires FirstBase(t, main, list, idx).Success?
    ensures var r := FirstBase(t, main, list, idx).value.0;
      DistinctKeys(r) && forall s :: s in Keys(r) ==> s in states
  {
    var r := FirstBase(t, main, list, idx).value;
    if r.1.Some? {
      FirstBaseSemantics(t, main, list, idx);
      var found := TryBaseStates(t, main, list[r.1.value]);
      assert Keys(found.value.value) <= Keys(t) + {main};
    }
  }

  lemma ActivateValid(m: StateManager, b: Build, s: State, pending: seq<State>)
    requires BuildValid(m, b, pending) && s in m.states
    requires TryActivate(m, b, s).Success?
    ensures BuildValid(m, TryActivate(m, b, s).value.0, pending)
  {
    if s in Keys(m.activateEvents) {
      AppendAllSemantics(b.toEvents, s, Get(m.activateEvents, s), s);
    }
  }

  lemma EventsValid(m: StateManager, b: Build, s: State, pending: seq<State>)
    requires BuildValid(m, b, pending) && s in m.states
    requires TryEvents(m, b, s).Success?
    ensures BuildValid(m, TryEvents(m, b, s).value.0, pending)
  {
    if s in Keys(m.stateEvents) {
      AppendAllSemantics(b.toEvents, s, FilterAll(Get(m.stateEvents, s), s.condition).value, s);
    }
  }

  lemma BasesValid(m: StateManager, b: Build, s: State, pending: seq<State>)
    requires BuildValid(m, b, pending) && s in m.states
    requires TryBases(b, s).Success?
    ensures BuildValid(m, TryBases(b, s).value.0, pending)
  {
    if s in Keys(b.bases) {
      var list := Get(b.bases, s);
      FirstBaseValid(b.toEvents, s, list, 0, m.states);
      var found := FirstBase(b.toEvents, s, list, 0).value;
      var rest := if found.1.Some? && found.1.value < |list| then Without(list, found.1.value) else list;
      GetReplace(b.bases, s, rest, s);
    }
  }

  /** Each of the three attempts keeps the build well formed. */
  lemma StepValid(m: StateManager, b: Build, s: State, pending: seq<State>)
    requires BuildValid(m, b, pending) && s in m.states
    ensures TryActivate(m, b, s).Success? ==> BuildValid(m, TryActivate(m, b, s).value.0, pending)
    ensures TryEvents(m, b, s).Success? ==> BuildValid(m, TryEvents(m, b, s).value.0, pending)
    ensures TryBases(b, s).Success? ==> BuildValid(m, TryBases(b, s).value.0, pending)
  {
    if TryActivate(m, b, s).Success? {
      ActivateValid(m, b, s, pending);
    }
    if TryEvents(m, b, s).Success? {
      EventsValid(m, b, s, pending);
    }
    if TryBases(b, s).Success? {
      BasesValid(m, b, s, pending);
    }
  }

  lemma AttemptValid(m: StateManager, b: Build, s: State, pending: seq<State>)
    requires BuildValid(m, b, pending) && s in m.states
    requires Attempt(m, b, s).Success?
    ensures BuildValid(m, Attempt(m, b, s).value.0, pending)
  {
    StepValid(m, b, s, pending);
    var a := TryActivate(m, b, s).value;
    if !a.1 {
      StepValid(m, a.0, s, pending);
      var e := TryEvents(m, a.0, s).value;
      if !e.1 {
        StepValid(m, e.0, s, pending);
      }
    }
  }

  lemma {:induction false} ScanValid(m: StateManager, b: Build, pending: seq<State>, i: nat)
    requires BuildValid(m, b, pending)
    requires Scan(m, b, pending, i).Success?
    ensures BuildValid(m, Scan(m, b, pending, i).value.0, pending)
    decreases |pending| - i
  {
    if i < |pending| {
      AttemptValid(m, b, pending[i], pending);
      var a := Attempt(m, b, pending[i]).value;
      if !a.1 {
        ScanValid(m, a.0, pending, i + 1);
      }
    }
  }

  /** One successful iteration of `Iterate` is one step followed by the rest. */
  lemma IterateUnfold(step: Progress -> Result<Progress, Error>, st: Progress, n: nat)
    requires |st.1| > 0 && n > 0 && Iterate(step, st, n).Success?
    ensures step(st).Success? && Iterate(step, st, n) == Iterate(step, step(st).value, n - 1)
  {
  }

  /** One iteration of the `while` loop keeps the build well formed. */
  lemma RoundValid(m: StateManager, b: Build, pending: seq<State>)
    requires BuildValid(m, b, pending)
    requires Round(m, b, pending).Success?
    ensures BuildValid(m, Round(m, b, pending).value.0, Round(m, b, pending).value.1)
  {
    ScanValid(m, b, pending, 0);
  }

  /** The same, for the round as the loop's step function. */
  lemma StepperValid(m: StateManager, st: Progress)
    requires BuildValid(m, st.0, st.1)
    requires Stepper(m)(st).Success?
    ensures BuildValid(m, Stepper(m)(st).value.0, Stepper(m)(st).value.1)
  {
    assert Stepper(m)(st) == Round(m, st.0, st.1);
    RoundValid(m, st.0, st.1);
  }

  /** A property every step keeps holds after any number of iterations. */
  lemma {:induction false} IterateKeeps(step: Progress -> Result<Progress, Error>, inv: Progress -> bool, st: Progress, n: nat)
    requires inv(st)
    requires forall p :: inv(p) && step(p).Success? ==> inv(step(p).value)
    requires Iterate(step, st, n).Success?
    ensures inv(Iterate(step, st, n).value)
    decreases n
  {
    if |st.1| > 0 && n > 0 {
      IterateUnfold(step, st, n);
      IterateKeeps(step, inv, step(st).value, n - 1);
    }
  }

  lemma LoopValid(m: StateManager, st: Progress, n: nat)
    requires BuildValid(m, st.0, st.1)
    requires Iterate(Stepper(m), st, n).Success?
    ensures var r := Iterate(Stepper(m), st, n).value; BuildValid(m, r.0, r.1)
  {
    var inv := (p: Progress) => BuildValid(m, p.0, p.1);
    forall p | inv(p) && Stepper(m)(p).Success? ensures inv(Stepper(m)(p).value) {
      StepperValid(m, p);
    }
    IterateKeeps(Stepper(m), inv, st, n);
  }

  /** The build starts well formed from a valid manager. */
  lemma StartValid(m: StateManager)
    requires ManagerValid(m)
    ensures BuildValid(m, Start(m), m.states)
  {
    var none: Table<State, Event> := [];
    assert Keys(none) == {};
  }

  /** A state depending on a single other state that already has events gets
      exactly those events, unfiltered. */
  lemma SingleBase(t: Table<State, Event>, main: State, d: State)
    requires d in Keys(t)
    ensures TryBaseStates(t, main, Base([d], None)) == Success(Some(AppendAll(t, main, Get(t, d))))
  {
    var base := Base([d], None);
    var snap := Snapshot(t, base.states);
    assert Without(base.states, 0) == [];
    assert AddBaseEvents(AppendAll(t, main, snap[0]), main, base, snap, 1) == Success(AppendAll(t, main, snap[0]));
  }

  /** A state depending on two states that both have events is entered by
      each event of the first when the second's condition holds, and by each
      event of the second when the first's condition holds. */
  lemma TwoBases(t: Table<State, Event>, main: State, d1: State, d2: State, x: State)
    requires DistinctKeys(t) && d1 in Keys(t) && d2 in Keys(t)
    requires TryBaseStates(t, main, Base([d1, d2], None)).Success?
    ensures var e1 := FilterAll(Get(t, d1), d2.condition);
      var e2 := FilterAll(Get(t, d2), d1.condition);
      && e1.Success? && e2.Success?
      && Get(TryBaseStates(t, main, Base([d1, d2], None)).value.value, x)
         == Get(t, x) + (if x == main then e1.value + e2.value else [])
  {
    var base := Base([d1, d2], None);
    var snap := Snapshot(t, base.states);
    assert !exists st :: st in base.states && st !in Keys(t);
    assert TryBaseStates(t, main, base) == MapSome(AddBaseEvents(t, main, base, snap, 0));
    assert snap[0] == Get(t, d1) && snap[1] == Get(t, d2);
    assert Without(base.states, 0) == [d2];
    assert Without(base.states, 1) == [d1];
    CombineOne(d2);
    CombineOne(d1);
    var e1 := FilterAll(Get(t, d1), d2.condition);
    var t1 := AppendAll(t, main, e1.value);
    var a0 := AddBaseEvents(t, main, base, snap, 0);
    assert e1.Success? && a0 == AddBaseEvents(t1, main, base, snap, 1);
    var e2 := FilterAll(Get(t, d2), d1.condition);
    var t2 := AppendAll(t1, main, e2.value);
    assert e2.Success? && AddBaseEvents(t1, main, base, snap, 1) == AddBaseEvents(t2, main, base, snap, 2);
    assert AddBaseEvents(t2, main, base, snap, 2) == Success(t2);
    AppendAllSemantics(t, main, e1.value, x);
    AppendAllSemantics(t1, main, e2.value, x);
    ConcatAssoc(Get(t, x), if x == main then e1.value else [], if x == main then e2.value else []);
  }

  /** `Some` around a successful table. */
  function MapSome(r: Result<Table<State, Event>, Error>): Result<Option<Table<State, Event>>, Error> {
    if r.Success? then Success(Some(r.value)) else Failure(r.error)
  }

  /** With no base condition, the other states' conditions start from the
      first of them. */
  lemma CombineOne(d: State)
    ensures Combine(None, [d]) == Success(Some(d.condition))
  {
    assert [d][1..] == [];
  }

  /** `result.setdefault(event, []).extend(side_effects)` for each event. */
  function ExtendEach(acc: Table<Event, Action>, events: seq<Event>, effects: seq<Action>): Table<Event, Action>
    decreases |events|
  {
    if |events| == 0 then acc else ExtendEach(Extend(acc, events[0], effects), events[1..], effects)
  }

  /** How often `e` occurs in `events`. */
  function Count(events: seq<Event>, e: Event): nat {
    if |events| == 0 then 0 else (if events[0] == e then 1 else 0) + Count(events[1..], e)
  }

  /** `n` copies of `vs`, one after another. */
  function Repeat<T>(vs: seq<T>, n: nat): seq<T> {
    if n == 0 then [] else vs + Repeat(vs, n - 1)
  }

  /** The loop of `build_event_script` over the derived table. */
  function ScriptFrom(acc: Table<Event, Action>, t: Table<State, Event>, allowed: set<State>): Table<Event, Action>
    decreases |t|
  {
    if |t| == 0 then acc
    else
      var s := t[0].0;
      var next := if s in allowed && s.sideEffect.Some? then ExtendEach(acc, t[0].1, Listed(s.sideEffect.value)) else acc;
      ScriptFrom(next, t[1..], allowed)
  }

  /** What the schema holds under `e`, state by state: the side effects of
      every kept state once per occurrence of `e` among its events. */
  function Contribution(t: Table<State, Event>, allowed: set<State>, e: Event): seq<Action> {
    if |t| == 0 then []
    else
      var s := t[0].0;
      (if s in allowed && s.sideEffect.Some? then Repeat(Listed(s.sideEffect.value), Count(t[0].1, e)) else [])
        + Contribution(t[1..], allowed, e)
  }

  lemma {:induction false} ExtendEachGet(acc: Table<Event, Action>, events: seq<Event>, effects: seq<Action>, e: Event)
    requires DistinctKeys(acc)
    ensures DistinctKeys(ExtendEach(acc, events, effects))
    ensures Get(ExtendEach(acc, events, effects), e) == Get(acc, e) + Repeat(effects, Count(events, e))
    decreases |events|
  {
    if |events| == 0 {
      assert Repeat(effects, 0) == [];
    } else {
      var next := Extend(acc, events[0], effects);
      ExtendKeepsDistinct(acc, events[0], effects);
      GetExtend(acc, events[0], effects, e);
      ExtendEachGet(next, events[1..], effects, e);
      assert ExtendEach(acc, events, effects) == ExtendEach(next, events[1..], effects);
      var later := Repeat(effects, Count(events[1..], e));
      if events[0] == e {
        assert Count(events, e) == 1 + Count(events[1..], e);
        assert Repeat(effects, Count(events, e)) == effects + later;
        ConcatAssoc(Get(acc, e), effects, later);
      } else {
        assert Count(events, e) == Count(events[1..], e);
        assert Get(next, e) == Get(acc, e);
      }
    }
  }

  lemma {:induction false} ScriptFromGet(acc: Table<Event, Action>, t: Table<State, Event>, allowed: set<State>, e: Event)
    requires DistinctKeys(acc)
    ensures DistinctKeys(ScriptFrom(acc, t, allowed))
    ensures Get(ScriptFrom(acc, t, allowed), e) == Get(acc, e) + Contribution(t, allowed, e)
    decreases |t|
  {
    if |t| > 0 {
      var s := t[0].0;
      var rest := t[1..];
      if s in allowed && s.sideEffect.Some? {
        var fx := Listed(s.sideEffect.value);
        var next := ExtendEach(acc, t[0].1, fx);
        assert ScriptFrom(acc, t, allowed) == ScriptFrom(next, rest, allowed);
        assert Contribution(t, allowed, e) == Repeat(fx, Count(t[0].1, e)) + Contribution(rest, allowed, e);
        ExtendEachGet(acc, t[0].1, fx, e);
        ScriptFromGet(next, rest, allowed, e);
        ConcatAssoc(Get(acc, e), Repeat(fx, Count(t[0].1, e)), Contribution(rest, allowed, e));
      } else {
        assert ScriptFrom(acc, t, allowed) == ScriptFrom(acc, rest, allowed);
        assert Contribution(t, allowed, e) == Contribution(rest, allowed, e);
        ScriptFromGet(acc, rest, allowed, e);
      }
    }
  }

  /** `build_event_script(filter_events)`: build the state table (with the
      bounded loop), then map every event of every kept state with side
      effects to those side effects; `None` keeps every declared state. The
      manager comes back with the dependency entries the build used up. */
  function BuildEventScript(m: StateManager, filter: Option<set<State>>): (r: Result<(Table<Event, Action>, StateManager), Error>)
    ensures r.Success? <==> BuildCorrected(m).Success?
    ensures r.Success? ==>
      && DistinctKeys(r.value.0)
      && r.value.1.states == m.states && r.value.1.activateEvents == m.activateEvents
      && r.value.1.stateEvents == m.stateEvents
      && forall e :: Get(r.value.0, e) == Contribution(BuildCorrected(m).value.toEvents, Allowed(m, filter), e)
  {
    var b :- BuildCorrected(m);
    var none: Table<Event, Action> := [];
    ScriptFromAll(b.toEvents, Allowed(m, filter));
    Success((ScriptFrom(none, b.toEvents, Allowed(m, filter)), m.(bases := b.bases)))
  }

  /** `build_event_script` over the loop as written: `None` while the loop
      has not ended within `fuel` iterations, and otherwise the same mapping
      from the derived table. */
  function BuildEventScriptAsWritten(m: StateManager, filter: Option<set<State>>, fuel: nat): (r: Result<Option<(Table<Event, Action>, StateManager)>, Error>)
    ensures r.Success? <==> BuildAsWritten(m, fuel).Success?
    ensures r.Success? ==> (r.value.Some? <==> BuildAsWritten(m, fuel).value.Some?)
    ensures r.Success? && r.value.Some? ==>
      && DistinctKeys(r.value.value.0)
      && r.value.value.1.states == m.states
      && forall e :: Get(r.value.value.0, e) == Contribution(BuildAsWritten(m, fuel).value.value.toEvents, Allowed(m, filter), e)
  {
    var built :- BuildAsWritten(m, fuel);
    if built.None? then Success(None)
    else
      var none: Table<Event, Action> := [];
      ScriptFromAll(built.value.toEvents, Allowed(m, filter));
      Success(Some((ScriptFrom(none, built.value.toEvents, Allowed(m, filter)), m.(bases := built.value.bases))))
  }

  /** Whenever the loop as written ends within 100 iterations, the bounded
      build gives the same schema; beyond that the bounded one gives up on
      the states still pending while the one as written keeps going. */
  lemma ScriptAgrees(m: StateManager, filter: Option<set<State>>, fuel: nat)
    requires fuel <= RoundLimit
    requires BuildEventScriptAsWritten(m, filter, fuel).Success? && BuildEventScriptAsWritten(m, filter, fuel).value.Some?
    ensures BuildEventScript(m, filter) == Success(BuildEventScriptAsWritten(m, filter, fuel).value.value)
  {
    CorrectedAgrees(m, fuel);
  }

  /** The states `build_event_script` keeps: the filter, or every declared
      state. */
  function Allowed(m: StateManager, filter: Option<set<State>>): set<State> {
    if filter.None? then set s | s in m.states else filter.value
  }

  lemma ScriptFromAll(t: Table<State, Event>, allowed: set<State>)
    ensures var none: Table<Event, Action> := [];
      && DistinctKeys(ScriptFrom(none, t, allowed))
      && forall e :: Get(ScriptFrom(none, t, allowed), e) == Contribution(t, allowed, e)
  {
    var none: Table<Event, Action> := [];
    forall e ensures Get(ScriptFrom(none, t, allowed), e) == Contribution(t, allowed, e) {
      ScriptFromGet(none, t, allowed, e);
    }
    ScriptFromGet(none, t, allowed, Event(StateChange, "", None));
  }

  /** `build_script(filter_events)`: the filter is turned into a set. */
  function BuildScript(m: StateManager, filter: Option<seq<State>>): (r: Result<(Table<Event, Action>, StateManager), Error>)
    ensures r.Success? <==> BuildCorrected(m).Success?
    ensures r.Success? ==> forall e :: Get(r.value.0, e) == Contribution(BuildCorrected(m).value.toEvents,
      if filter.None? then (set s | s in m.states) else (set s | s in filter.value), e)
  {
    BuildEventScript(m, if filter.None? then None else Some(set s | s in filter.value))
  }

  /** A state that is filtered out, or has no side effects, contributes
      nothing, whatever its events. */
  lemma {:induction false} SkippedStatesContributeNothing(t: Table<State, Event>, allowed: set<State>, e: Event)
    requires forall i :: 0 <= i < |t| ==> t[i].0 !in allowed || t[i].0.sideEffect.None?
    ensures Contribution(t, allowed, e) == []
  {
    if |t| > 0 {
      SkippedStatesContributeNothing(t[1..], allowed, e);
    }
  }
}

=== FILE: tables.dfy ===
/** Insertion-ordered dictionaries whose values are lists, and the
    `d.setdefault(k, []).extend(vs)` update the source uses to build them
    (schema tables, the dispatcher's action plan, the state builder). */
module Tables {

  /** A Python dict `{k: [v, ...]}` in insertion order. */
  type Table<K, V> = seq<(K, seq<V>)>

  /** The keys in insertion order. */
  function KeyList<K, V>(t: Table<K, V>): (ks: seq<K>)
    ensures |ks| == |t|
    ensures forall i :: 0 <= i < |t| ==> ks[i] == t[i].0
  {
    if |t| == 0 then [] else [t[0].0] + KeyList(t[1..])
  }

  /** The set of keys. */
  function Keys<K, V>(t: Table<K, V>): set<K>
  {
    set i | 0 <= i < |t| :: t[i].0
  }

  ghost predicate DistinctKeys<K, V>(t: Table<K, V>) {
    forall i, j :: 0 <= i < j < |t| ==> t[i].0 != t[j].0
  }

  /** Everything stored under `k`, in order (`d.get(k, [])` when keys are distinct). */
  function Get<K(==), V>(t: Table<K, V>, k: K): seq<V>
  {
    if |t| == 0 then [] else (if t[0].0 == k then t[0].1 else []) + Get(t[1..], k)
  }

  /** `d.setdefault(k, []).extend(vs)`: extend the entry for `k` in place, or
      append a new entry at the end (even when `vs` is empty). */
  function Extend<K(==), V>(t: Table<K, V>, k: K, vs: seq<V>): (r: Table<K, V>)
    ensures Keys(r) == Keys(t) + {k}
    ensures k in Keys(t) ==> KeyList(r) == KeyList(t)
    ensures k !in Keys(t) ==> KeyList(r) == KeyList(t) + [k]
  {
    if |t| == 0 then
      SingleKeys(k, vs);
      [(k, vs)]
    else if t[0].0 == k then
      var r := [(k, t[0].1 + vs)] + t[1..];
      SameKeys(r, t);
      r
    else
      var rest := Extend(t[1..], k, vs);
      ConsKeys(t, k, rest);
      [t[0]] + rest
  }

  lemma SingleKeys<K, V>(k: K, vs: seq<V>)
    ensures Keys([(k, vs)]) == {k} && KeyList([(k, vs)]) == [k]
  {
    assert [(k, vs)][0].0 == k;
  }

  /** The keys of `[t[0]] + rest`, where `rest` is the update of `t[1..]`
      for a key other than `t[0]`'s. */
  lemma ConsKeys<K, V>(t: Table<K, V>, k: K, rest: Table<K, V>)
    requires |t| > 0 && t[0].0 != k
    requires Keys(rest) == Keys(t[1..]) + {k}
    requires k in Keys(t[1..]) ==> KeyList(rest) == KeyList(t[1..])
    requires k !in Keys(t[1..]) ==> KeyList(rest) == KeyList(t[1..]) + [k]
    ensures var r := [t[0]] + rest;
      && Keys(r) == Keys(t) + {k}
      && (k in Keys(t) ==> KeyList(r) == KeyList(t))
      && (k !in Keys(t) ==> KeyList(r) == KeyList(t) + [k])
  {
    var tail := t[1..];
    assert t == [t[0]] + tail;
    ConsKeySet(t, rest);
    ConsKeySet(t, tail);
    ConsKeyListEq(t[0], rest);
    ConsKeyListEq(t[0], tail);
    ConsKeyList(t[0].0, KeyList(tail), KeyList(rest), k);
    ConsSets(t[0].0, Keys(tail), Keys(rest), k);
  }

  /** Putting a key other than `k` in front of a set commutes with adding
      `k`, and does not change whether `k` is in it. */
  lemma ConsSets<K>(h: K, tail: set<K>, rest: set<K>, k: K)
    requires h != k && rest == tail + {k}
    ensures {h} + rest == ({h} + tail) + {k}
    ensures k in {h} + tail <==> k in tail
  {
  }

  /** The key list of a table with one entry put in front. */
  lemma ConsKeyListEq<K, V>(x: (K, seq<V>), rest: Table<K, V>)
    ensures KeyList([x] + rest) == [x.0] + KeyList(rest)
  {
    assert ([x] + rest)[1..] == rest;
  }

  /** The keys of a table with one entry put in front. */
  lemma ConsKeySet<K, V>(t: Table<K, V>, rest: Table<K, V>)
    requires |t| > 0
    ensures Keys([t[0]] + rest) == {t[0].0} + Keys(rest)
  {
    var r := [t[0]] + rest;
    assert r[1..] == rest;
    KeysCons(r);
  }

  /** Putting a key in front commutes with adding one at the end. */
  lemma ConsKeyList<K>(h: K, tail: seq<K>, rest: seq<K>, k: K)
    requires rest == tail || rest == tail + [k]
    ensures rest == tail ==> [h] + rest == [h] + tail
    ensures rest == tail + [k] ==> [h] + rest == ([h] + tail) + [k]
  {
  }

  /** Tables with the same key at every position have the same keys. */
  lemma SameKeys<K, V>(a: Table<K, V>, b: Table<K, V>)
    requires |a| == |b| && forall i :: 0 <= i < |a| ==> a[i].0 == b[i].0
    ensures Keys(a) == Keys(b) && KeyList(a) == KeyList(b)
  {
    forall x | x in Keys(a) ensures x in Keys(b) {
      var i :| 0 <= i < |a| && a[i].0 == x;
      assert b[i].0 == x;
    }
    forall x | x in Keys(b) ensures x in Keys(a) {
      var i :| 0 <= i < |b| && b[i].0 == x;
      assert a[i].0 == x;
    }
  }

  lemma KeysCons<K, V>(t: Table<K, V>)
    requires |t| > 0
    ensures Keys(t) == {t[0].0} + Keys(t[1..])
    ensures KeyList(t) == [t[0].0] + KeyList(t[1..])
  {
    forall x | x in Keys(t) ensures x in {t[0].0} + Keys(t[1..]) {
      var i :| 0 <= i < |t| && t[i].0 == x;
      if i > 0 {
        assert t[1..][i - 1].0 == x;
      }
    }
    forall x | x in Keys(t[1..]) ensures x in Keys(t) {
      var i :| 0 <= i < |t[1..]| && t[1..][i].0 == x;
      assert t[i + 1].0 == x;
    }
  }

  lemma HeadNotInTail<K, V>(t: Table<K, V>)
    requires |t| > 0 && DistinctKeys(t)
    ensures t[0].0 !in Keys(t[1..])
    ensures DistinctKeys(t[1..])
  {
    forall j | 0 <= j < |t[1..]| ensures t[1..][j].0 != t[0].0 {
      assert t[1..][j] == t[j + 1];
    }
  }

  lemma {:induction false} ExtendKeepsDistinct<K, V>(t: Table<K, V>, k: K, vs: seq<V>)
    requires DistinctKeys(t)
    ensures DistinctKeys(Extend(t, k, vs))
  {
    if |t| > 0 && t[0].0 != k {
      HeadNotInTail(t);
      ExtendKeepsDistinct(t[1..], k, vs);
      var rest := Extend(t[1..], k, vs);
      forall i | 0 <= i < |rest| ensures rest[i].0 != t[0].0 {
        assert rest[i].0 in Keys(rest);
      }
    }
  }

  /** The update appends `vs` to what is stored under `k` and leaves every
      other key's list alone. */
  lemma {:induction false} GetExtend<K, V>(t: Table<K, V>, k: K, vs: seq<V>, x: K)
    requires DistinctKeys(t)
    ensures Get(Extend(t, k, vs), x) == Get(t, x) + (if x == k then vs else [])
  {
    var r := Extend(t, k, vs);
    if |t| == 0 {
      assert r == [(k, vs)];
      assert r[1..] == [];
    } else if t[0].0 == k {
      assert r == [(k, t[0].1 + vs)] + t[1..];
      assert r[1..] == t[1..];
      HeadNotInTail(t);
      GetAbsent(t[1..], k);
      if x == k {
        assert Get(t[1..], x) == [];
        assert Get(r, x) == t[0].1 + vs + Get(t[1..], x);
      } else {
        assert Get(r, x) == Get(t[1..], x);
      }
    } else {
      HeadNotInTail(t);
      GetExtend(t[1..], k, vs, x);
      assert r == [t[0]] + Extend(t[1..], k, vs);
      assert r[0] == t[0];
      assert r[1..] == Extend(t[1..], k, vs);
      var h: seq<V> := if t[0].0 == x then t[0].1 else [];
      var tail: seq<V> := if x == k then vs else [];
      calc {
        Get(r, x);
        h + Get(r[1..], x);
        h + (Get(t[1..], x) + tail);
        (h + Get(t[1..], x)) + tail;
        Get(t, x) + tail;
      }
    }
  }

  /** A key that is not in the table has nothing stored under it. */
  lemma {:induction false} GetAbsent<K, V>(t: Table<K, V>, k: K)
    requires k !in Keys(t)
    ensures Get(t, k) == []
  {
    if |t| > 0 {
      KeysCons(t);
      GetAbsent(t[1..], k);
    }
  }

  /** The table holding `pairs` grouped by key, first occurrence first. */
  function Group<K(==), V>(pairs: seq<(K, V)>): Table<K, V>
  {
    if |pairs| == 0 then []
    else Extend(Group(pairs[..|pairs| - 1]), pairs[|pairs| - 1].0, [pairs[|pairs| - 1].1])
  }

  /** The keys of a list of pairs. */
  function PairKeys<K, V>(pairs: seq<(K, V)>): set<K>
  {
    set i | 0 <= i < |pairs| :: pairs[i].0
  }

  /** The values of the pairs whose key is `k`, in order. */
  function Select<K(==), V>(pairs: seq<(K, V)>, k: K): (vs: seq<V>)
    ensures |vs| <= |pairs|
  {
    if |pairs| == 0 then []
    else Select(pairs[..|pairs| - 1], k) + (if pairs[|pairs| - 1].0 == k then [pairs[|pairs| - 1].1] else [])
  }

  /** The keys of a list of pairs, each once, in order of first occurrence. */
  function FirstKeys<K(==), V>(pairs: seq<(K, V)>): (ks: seq<K>)
    ensures |ks| <= |pairs|
  {
    if |pairs| == 0 then []
    else
      var init := pairs[..|pairs| - 1];
      var k := pairs[|pairs| - 1].0;
      FirstKeys(init) + (if k in PairKeys(init) then [] else [k])
  }

  /** Grouping keeps keys distinct, orders them by first occurrence and
      stores under each key exactly the values paired with it, in their
      original order. */
  lemma {:induction false} GroupSelects<K, V>(pairs: seq<(K, V)>)
    ensures DistinctKeys(Group(pairs))
    ensures forall k :: Get(Group(pairs), k) == Select(pairs, k)
    ensures Keys(Group(pairs)) == PairKeys(pairs)
    ensures KeyList(Group(pairs)) == FirstKeys(pairs)
  {
    if |pairs| > 0 {
      var init := pairs[..|pairs| - 1];
      var last := pairs[|pairs| - 1];
      GroupSelects(init);
      ExtendKeepsDistinct(Group(init), last.0, [last.1]);
      assert Group(pairs) == Extend(Group(init), last.0, [last.1]);
      forall k ensures Get(Group(pairs), k) == Select(pairs, k) {
        GetExtend(Group(init), last.0, [last.1], k);
        assert Select(pairs, k) == Select(init, k) + (if last.0 == k then [last.1] else []);
      }
      PairKeysSnoc(pairs);
    }
  }

  lemma PairKeysSnoc<K, V>(pairs: seq<(K, V)>)
    requires |pairs| > 0
    ensures PairKeys(pairs) == PairKeys(pairs[..|pairs| - 1]) + {pairs[|pairs| - 1].0}
  {
    var init := pairs[..|pairs| - 1];
    forall x | x in PairKeys(pairs) ensures x in PairKeys(init) + {pairs[|pairs| - 1].0} {
      var i :| 0 <= i < |pairs| && pairs[i].0 == x;
      if i < |init| {
        assert init[i].0 == x;
      }
    }
    forall x | x in PairKeys(init) ensures x in PairKeys(pairs) {
      var i :| 0 <= i < |init| && init[i].0 == x;
      assert pairs[i].0 == x;
    }
    assert pairs[|pairs| - 1].0 in PairKeys(pairs);
  }

  /** `d[k] = vs` for a key already present: its list is replaced in place
      and the key order is kept. */
  function Replace<K(==), V>(t: Table<K, V>, k: K, vs: seq<V>): (r: Table<K, V>)
    ensures KeyList(r) == KeyList(t)
    ensures Keys(r) == Keys(t)
  {
    if |t| == 0 then []
    else
      var r := if t[0].0 == k then [(k, vs)] + t[1..] else [t[0]] + Replace(t[1..], k, vs);
      KeysCons(t);
      KeysCons(r);
      assert r[0].0 == t[0].0;
      assert t[0].0 == k ==> r[1..] == t[1..];
      r
  }

  /** Replacing keeps the keys, position by position, so it keeps them
      distinct. */
  lemma ReplaceKeepsDistinct<K, V>(t: Table<K, V>, k: K, vs: seq<V>)
    requires DistinctKeys(t)
    ensures DistinctKeys(Replace(t, k, vs))
  {
    var r := Replace(t, k, vs);
    forall i, j | 0 <= i < j < |r| ensures r[i].0 != r[j].0 {
      assert r[i].0 == KeyList(r)[i] == KeyList(t)[i] == t[i].0;
      assert r[j].0 == KeyList(r)[j] == KeyList(t)[j] == t[j].0;
    }
  }

  /** Replacing changes what is stored under `k` and nothing else, and keeps
      the keys distinct. */
  lemma {:induction false} GetReplace<K, V>(t: Table<K, V>, k: K, vs: seq<V>, x: K)
    requires DistinctKeys(t)
    ensures DistinctKeys(Replace(t, k, vs))
    ensures Get(Replace(t, k, vs), x) == if x == k && k in Keys(t) then vs else Get(t, x)
  {
    ReplaceKeepsDistinct(t, k, vs);
    if |t| > 0 {
      var r := Replace(t, k, vs);
      HeadNotInTail(t);
      KeysCons(t);
      if t[0].0 == k {
        assert r == [(k, vs)] + t[1..];
        assert r[1..] == t[1..];
        GetAbsent(t[1..], k);
      } else {
        assert r == [t[0]] + Replace(t[1..], k, vs);
        assert r[1..] == Replace(t[1..], k, vs);
        GetReplace(t[1..], k, vs, x);
      }
    }
  }

  /** Selecting from a concatenation selects from each part. */
  lemma {:induction false} SelectAppend<K, V>(a: seq<(K, V)>, b: seq<(K, V)>, k: K)
    ensures Select(a + b, k) == Select(a, k) + Select(b, k)
  {
    if |b| == 0 {
      assert a + b == a;
    } else {
      var init := b[..|b| - 1];
      assert (a + b)[..|a + b| - 1] == a + init;
      assert (a + b)[|a + b| - 1] == b[|b| - 1];
      SelectAppend(a, init, k);
    }
  }

  /** Concatenation is associative (stated once, generically, so that
      proofs about lists of large values need not rediscover it). */
  lemma ConcatAssoc<T>(a: seq<T>, b: seq<T>, c: seq<T>)
    ensures (a + b) + c == a + (b + c)
  {
  }

  /** Everything stored in the table, concatenated in key order. */
  function Flatten<K, V>(t: Table<K, V>): seq<V>
  {
    if |t| == 0 then [] else t[0].1 + Flatten(t[1..])
  }
}

=== FILE: utils.dfy ===
/** Signature inspection and schema pretty-printing helpers (`utils.py`).
    Python's `inspect.signature` is replaced by the list of parameter names
    it would report. */
module Utils {

  /** The parameter names `function_or_method_and_params` never reports. */
  predicate IsVariadicName(p: string) {
    p == "args" || p == "kwargs"
  }

  /** The parameter names with `args` and `kwargs` removed, order kept. */
  function DropVariadic(signature: seq<string>): (r: seq<string>)
    ensures forall i :: 0 <= i < |r| ==> !IsVariadicName(r[i]) && r[i] in signature
    ensures forall p :: p in signature && !IsVariadicName(p) ==> p in r
    ensures |r| <= |signature|
  {
    if |signature| == 0 then []
    else (if IsVariadicName(signature[0]) then [] else [signature[0]]) + DropVariadic(signature[1..])
  }

  /** A signature without `args` and `kwargs` is reported as it is. */
  lemma {:induction false} DropVariadicKeeps(signature: seq<string>)
    requires forall i :: 0 <= i < |signature| ==> !IsVariadicName(signature[i])
    ensures DropVariadic(signature) == signature
  {
    if |signature| > 0 {
      assert forall i :: 0 <= i < |signature[1..]| ==> signature[1..][i] == signature[i + 1];
      DropVariadicKeeps(signature[1..]);
      assert [signature[0]] + signature[1..] == signature;
    }
  }

  /** Filtering distributes over concatenation, so it keeps the relative order
      of the parameters it keeps. */
  lemma {:induction false} DropVariadicAppend(a: seq<string>, b: seq<string>)
    ensures DropVariadic(a + b) == DropVariadic(a) + DropVariadic(b)
  {
    if |a| == 0 {
      assert a + b == b;
    } else {
      assert (a + b)[1..] == a[1..] + b;
      DropVariadicAppend(a[1..], b);
    }
  }

  /** `function_or_method_and_params`: whether the callable is an unbound
      method (its first reported parameter is `self`) and its parameters
      without `self`, `args` and `kwargs`. */
  function FunctionOrMethodAndParams(signature: seq<string>): (r: (bool, seq<string>))
    ensures r.0 <==> |DropVariadic(signature)| > 0 && DropVariadic(signature)[0] == "self"
    ensures (if r.0 then ["self"] + r.1 else r.1) == DropVariadic(signature)
  {
    var params := DropVariadic(signature);
    var isMethod := |params| > 0 && params[0] == "self";
    (isMethod, if isMethod then params[1..] else params)
  }

  /** The shape of a value handed to `format_schema`: a dict (keys already
      rendered with `str`), a list, or anything else (rendered with `str`). */
  datatype Shown =
    | Dict(entries: seq<(string, Shown)>)
    | List(items: seq<Shown>)
    | Scalar(text: string)

  function Spaces(n: nat): (s: string)
    ensures |s| == n
    ensures forall i :: 0 <= i < n ==> s[i] == ' '
  {
    if n == 0 then "" else " " + Spaces(n - 1)
  }

  /** `sep.join(parts)`. */
  function Join(sep: string, parts: seq<string>): string
  {
    if |parts| == 0 then ""
    else if |parts| == 1 then parts[0]
    else parts[0] + sep + Join(sep, parts[1..])
  }

  /** Joining is built up part by part in order: one more part at the end
      adds the separator and that part after what was there. */
  lemma {:induction false} JoinSnoc(sep: string, parts: seq<string>, p: string)
    requires |parts| > 0
    ensures Join(sep, parts + [p]) == Join(sep, parts) + sep + p
  {
    if |parts| == 1 {
      assert (parts + [p])[1..] == [p];
    } else {
      assert (parts + [p])[1..] == parts[1..] + [p];
      JoinSnoc(sep, parts[1..], p);
    }
  }

  /** `format_schema(value, ind)`. */
  function FormatSchema(v: Shown, ind: nat): (r: string)
    ensures v.Scalar? ==> r == v.text
    ensures !v.Scalar? ==> |r| >= ind + 4
    ensures v.Dict? ==> r[..2] == "{\n" && r[|r| - (ind + 2)..] == "\n" + Spaces(ind) + "}"
    ensures v.List? ==> r[..2] == "[\n" && r[|r| - (ind + 2)..] == "\n" + Spaces(ind) + "]"
    decreases v
  {
    match v
    case Scalar(text) => text
    case Dict(entries) => Bracketed("{", Join(", \n", DictLines(entries, ind)), ind, "}")
    case List(items) => Bracketed("[", Join(", \n", ListLines(items, ind)), ind, "]")
  }

  /** An opening bracket on a line of its own, the body, and the closing
      bracket on a new line at the container's indentation. */
  function Bracketed(open: string, body: string, ind: nat, close: string): (r: string)
    requires |open| == 1 && |close| == 1
    ensures |r| == |body| + ind + 4
    ensures r[..2] == open + "\n" && r[|r| - (ind + 2)..] == "\n" + Spaces(ind) + close
  {
    var r := open + "\n" + body + "\n" + Spaces(ind) + close;
    assert r[..2] == open + "\n";
    assert r[|r| - (ind + 2)..] == "\n" + Spaces(ind) + close;
    r
  }

  function DictLines(entries: seq<(string, Shown)>, ind: nat): (lines: seq<string>)
    decreases entries
    ensures |lines| == |entries|
  {
    if |entries| == 0 then []
    else
      var entry := entries[0];
      assert entry in entries && entry.1 < entry;
      [Spaces(ind + 2) + entry.0 + ": " + FormatSchema(entry.1, ind + 2)] + DictLines(entries[1..], ind)
  }

  function ListLines(items: seq<Shown>, ind: nat): (lines: seq<string>)
    decreases items
    ensures |lines| == |items|
  {
    if |items| == 0 then []
    else [Spaces(ind + 2) + FormatSchema(items[0], ind + 2)] + ListLines(items[1..], ind)
  }

  /** Line `i` of a dict is its `i`-th entry: the key after `ind + 2`
      spaces, then `: ` and the value rendered two spaces deeper. */
  lemma {:induction false} DictLinesAt(entries: seq<(string, Shown)>, ind: nat, i: nat)
    requires i < |entries|
    ensures DictLines(entries, ind)[i] == Spaces(ind + 2) + entries[i].0 + ": " + FormatSchema(entries[i].1, ind + 2)
  {
    if i > 0 {
      DictLinesAt(entries[1..], ind, i - 1);
    }
  }

  /** Line `i` of a list is its `i`-th item rendered two spaces deeper,
      after `ind + 2` spaces. */
  lemma {:induction false} ListLinesAt(items: seq<Shown>, ind: nat, i: nat)
    requires i < |items|
    ensures ListLines(items, ind)[i] == Spaces(ind + 2) + FormatSchema(items[i], ind + 2)
  {
    if i > 0 {
      ListLinesAt(items[1..], ind, i - 1);
    }
  }

  /** The whole layout of `format_schema`: the bracket and a line break, the
      entries in order, one per line, joined by `", \n"`, then a line break
      and the closing bracket at the container's indentation. */
  lemma FormatSchemaLayout(v: Shown, ind: nat)
    ensures v.Dict? ==>
      && FormatSchema(v, ind) == "{\n" + Join(", \n", DictLines(v.entries, ind)) + "\n" + Spaces(ind) + "}"
      && |DictLines(v.entries, ind)| == |v.entries|
      && forall i :: 0 <= i < |v.entries| ==>
           DictLines(v.entries, ind)[i] == Spaces(ind + 2) + v.entries[i].0 + ": " + FormatSchema(v.entries[i].1, ind + 2)
    ensures v.List? ==>
      && FormatSchema(v, ind) == "[\n" + Join(", \n", ListLines(v.items, ind)) + "\n" + Spaces(ind) + "]"
      && |ListLines(v.items, ind)| == |v.items|
      && forall i :: 0 <= i < |v.items| ==>
           ListLines(v.items, ind)[i] == Spaces(ind + 2) + FormatSchema(v.items[i], ind + 2)
  {
    match v
    case Scalar(_) =>
    case Dict(entries) =>
      forall i | 0 <= i < |entries|
        ensures DictLines(entries, ind)[i] == Spaces(ind + 2) + entries[i].0 + ": " + FormatSchema(entries[i].1, ind + 2)
      {
        DictLinesAt(entries, ind, i);
      }
    case List(items) =>
      forall i | 0 <= i < |items|
        ensures ListLines(items, ind)[i] == Spaces(ind + 2) + FormatSchema(items[i], ind + 2)
      {
        ListLinesAt(items, ind, i);
      }
  }

  function CountNewlines(s: string): nat
  {
    if |s| == 0 then 0 else (if s[0] == '\n' then 1 else 0) + CountNewlines(s[1..])
  }

  lemma {:induction false} CountNewlinesAppend(a: string, b: string)
    ensures CountNewlines(a + b) == CountNewlines(a) + CountNewlines(b)
  {
    if |a| == 0 {
      assert a + b == b;
    } else {
      assert (a + b)[1..] == a[1..] + b;
      CountNewlinesAppend(a[1..], b);
    }
  }

  lemma {:induction false} SpacesHaveNoNewline(n: nat)
    ensures CountNewlines(Spaces(n)) == 0
  {
    if n > 0 {
      CountNewlinesAppend(" ", Spaces(n - 1));
      SpacesHaveNoNewline(n - 1);
    }
  }

  /** No rendered key or scalar contains a line break. */
  ghost predicate SingleLineTexts(v: Shown)
    decreases v
  {
    match v
    case Scalar(text) => CountNewlines(text) == 0
    case Dict(entries) =>
      forall i :: 0 <= i < |entries| ==> CountNewlines(entries[i].0) == 0 && SingleLineTexts(entries[i].1)
    case List(items) => forall i :: 0 <= i < |items| ==> SingleLineTexts(items[i])
  }

  /** How many line breaks the layout of `format_schema` puts into `v`: an
      opening and a closing break per container, plus one separator between
      neighbouring entries. */
  function LayoutBreaks(v: Shown): nat
    decreases v
  {
    match v
    case Scalar(_) => 0
    case Dict(entries) => 2 + Separators(|entries|) + SumBreaksOfEntries(entries)
    case List(items) => 2 + Separators(|items|) + SumBreaksOfItems(items)
  }

  function Separators(n: nat): nat {
    if n == 0 then 0 else n - 1
  }

  function SumBreaksOfEntries(entries: seq<(string, Shown)>): nat
    decreases entries
  {
    if |entries| == 0 then 0
    else
      var entry := entries[0];
      assert entry in entries && entry.1 < entry;
      LayoutBreaks(entry.1) + SumBreaksOfEntries(entries[1..])
  }

  function SumBreaksOfItems(items: seq<Shown>): nat
    decreases items
  {
    if |items| == 0 then 0 else LayoutBreaks(items[0]) + SumBreaksOfItems(items[1..])
  }

  function SumNewlines(parts: seq<string>): nat
  {
    if |parts| == 0 then 0 else CountNewlines(parts[0]) + SumNewlines(parts[1..])
  }

  /** Joining with `", \n"` adds exactly one break between neighbours. */
  lemma {:induction false} JoinBreaks(parts: seq<string>)
    ensures CountNewlines(Join(", \n", parts)) == SumNewlines(parts) + Separators(|parts|)
  {
    if |parts| == 1 {
      assert parts[1..] == [];
    } else if |parts| > 1 {
      JoinBreaks(parts[1..]);
      CountNewlinesAppend(parts[0], ", \n");
      CountNewlinesAppend(parts[0] + ", \n", Join(", \n", parts[1..]));
      assert CountNewlines(", \n") == 1;
    }
  }

  /** `format_schema` puts exactly the layout's line breaks into its output
      when no key or scalar text contains one itself. */
  lemma {:induction false} FormatSchemaBreaks(v: Shown, ind: nat)
    requires SingleLineTexts(v)
    ensures CountNewlines(FormatSchema(v, ind)) == LayoutBreaks(v)
    decreases v
  {
    match v
    case Scalar(_) =>
    case Dict(entries) =>
      var lines := DictLines(entries, ind);
      DictLinesBreaks(entries, ind);
      JoinBreaks(lines);
      ContainerBreaks("{\n", Join(", \n", lines), ind, "}");
    case List(items) =>
      var lines := ListLines(items, ind);
      ListLinesBreaks(items, ind);
      JoinBreaks(lines);
      ContainerBreaks("[\n", Join(", \n", lines), ind, "]");
  }

  lemma ContainerBreaks(open: string, inner: string, ind: nat, close: string)
    requires CountNewlines(open) == 1 && CountNewlines(close) == 0
    ensures CountNewlines(open + inner + "\n" + Spaces(ind) + close) == 2 + CountNewlines(inner)
  {
    CountNewlinesAppend(open, inner);
    CountNewlinesAppend(open + inner, "\n");
    CountNewlinesAppend(open + inner + "\n", Spaces(ind));
    CountNewlinesAppend(open + inner + "\n" + Spaces(ind), close);
    SpacesHaveNoNewline(ind);
    assert CountNewlines("\n") == 1;
  }

  lemma {:induction false} DictLinesBreaks(entries: seq<(string, Shown)>, ind: nat)
    requires forall i :: 0 <= i < |entries| ==> CountNewlines(entries[i].0) == 0 && SingleLineTexts(entries[i].1)
    ensures SumNewlines(DictLines(entries, ind)) == SumBreaksOfEntries(entries)
    decreases entries
  {
    if |entries| > 0 {
      var entry := entries[0];
      assert entry in entries && entry.1 < entry;
      FormatSchemaBreaks(entry.1, ind + 2);
      DictLinesBreaks(entries[1..], ind);
      SpacesHaveNoNewline(ind + 2);
      CountNewlinesAppend(Spaces(ind + 2), entry.0);
      CountNewlinesAppend(Spaces(ind + 2) + entry.0, ": ");
      CountNewlinesAppend(Spaces(ind + 2) + entry.0 + ": ", FormatSchema(entry.1, ind + 2));
      assert CountNewlines(": ") == 0;
    }
  }

  lemma {:induction false} ListLinesBreaks(items: seq<Shown>, ind: nat)
    requires forall i :: 0 <= i < |items| ==> SingleLineTexts(items[i])
    ensures SumNewlines(ListLines(items, ind)) == SumBreaksOfItems(items)
    decreases items
  {
    if |items| > 0 {
      FormatSchemaBreaks(items[0], ind + 2);
      ListLinesBreaks(items[1..], ind);
      SpacesHaveNoNewline(ind + 2);
      CountNewlinesAppend(Spaces(ind + 2), FormatSchema(items[0], ind + 2));
    }
  }
}

=== FILE: values.dfy ===
/** Host values that flow through conditions and actions, and the error
    kinds the engine raises. */
module Values {

  /** A host object (an entity, a user object owning a method). Its Python
      truth value is recorded because the source tests instances with `if`. */
  datatype Obj = Obj(id: nat, truthy: bool)

  /** A Python value as seen by the engine: `None`, text, a number, an
      arbitrary host object, or a Home Assistant state (only `.state` is read). */
  datatype Value =
    | NoneValue
    | Text(text: string)
    | Number(number: int)
    | Ref(obj: Obj)
    | StateValue(state: string)

  /** Keyword arguments of a condition call. */
  type Kwargs = map<string, Value>

  datatype Error =
      /** `ArgumentsNotCompatible` raised while resolving an action's arguments. */
    | ArgumentsNotCompatible
      /** The assertion in `Condition.__call__`: keyword names differ from the declared set. */
    | ArgumentMismatch
      /** A predicate read `.state` of something that is not a state (for example `None`). */
    | PredicateFailed
      /** `ValueError` from `_validate_filters`: fewer than two sub-conditions. */
    | TooFewConditions
      /** `ValueError` from `_validate_filters`: a sub-condition with another argument set. */
    | ConditionIncompatible
      /** `ValueError` from an event validator: the filter's argument set does not fit the event. */
    | EventIncompatible
      /** `ValueError` from the condition decorator: parameters differ from the declared set. */
    | BadConditionSignature
      /** `ValueError` from `//`: right-hand positional arguments or shared keyword names. */
    | BadSequence
      /** `ValueError` from `action()`: a method action given bound arguments. */
    | BadActionDefinition
      /** `ValueError` from `~state` on a state that has side effects. */
    | InvertWithSideEffect
      /** Any other failing `assert` of the source. The tag is the fixed
          text of its message: parts an f-string fills in are dropped, and a
          bare `assert` has the empty tag. */
    | AssertionFailed(tag: string)
      /** `TypeError` from concatenating a missing (`None`) logger name. */
    | MissingLoggerName
}

=== FILE: wrappers.dfy ===
/** Failure-carrying result types used throughout the model: the Python
    source signals failures with exceptions, which become `Failure` values. */
module Wrappers {

  datatype Option<+T> = None | Some(value: T)

  datatype Result<+R, +E> = Success(value: R) | Failure(error: E) {
    predicate IsFailure() {
      Failure?
    }

    function PropagateFailure<U>(): Result<U, E>
      requires Failure?
    {
      Failure(error)
    }

    function Extract(): R
      requires Success?
    {
      value
    }
  }

  /** A Pass/Fail outcome for operations whose only product is a side effect. */
  datatype Outcome<+E> = Pass | Fail(error: E) {
    predicate IsFailure() {
      Fail?
    }

    function PropagateFailure<U>(): Result<U, E>
      requires Fail?
    {
      Failure(error)
    }
  }
}
